=== FILE: README.md ===
# Kossodo chat intake agent — a Dafny model

This project models the core of the Kossodo chat intake agent. The agent is a
chat back-end that first routes a visitor to one of two business lines:
"kossodo" (equipment sales) or "kossomet" (technical services). A
line-specific assistant then collects the visitor's contact data and inquiry
through tool calls issued by a language model.

The core is `process_message` in `app/core/agent.py`. One turn does this:

1. It resolves the session token. An idle ACTIVE conversation is expired, and
   a finished or unknown session starts a new conversation.
2. It stores the user message.
3. It chooses the system prompt and the tool group from the conversation's
   routing value.
4. It calls the model. It runs each batch of function calls the model
   requests, in order, appending one call unit and one result unit per call.
   A successful `set_company` re-routes the turn. The loop stops after at most
   ten rounds.
5. It settles on a reply: the final text, else the collected text, else a
   single retry with a contact-data hint, else a canned line.
6. It stores the reply and reports the conversation's status.

In the model a turn is a pure function of:
- the store, made of four tables (conversations, messages, contacts,
  inquiries);
- the message;
- the optional session token;
- a fresh token, which stands for `uuid4()`;
- the clock reading `now`;
- the idle timeout;
- an *oracle*, the sequence of normalized responses the model gives to the
  turn's successive generation calls.

Every generation call consumes one oracle response and is recorded together
with the prompt, content list and tool schemas it was made with. This lets the
contracts speak about what the model was shown.

Three behaviours of the code are easy to miss. The model keeps all three as written:
- The contact hint on the first generation is added only when a company is already set (`app/core/agent.py:184-188`).
- `upsert_contact` lets an empty string overwrite a stored field, because its merge tests `is not None` (`app/db/repositories/conversation.py:118-133`).
- `end_conversation` sets COMPLETED whatever the current status is (`app/services/tools/end_conversation.py:46`).

Modules, in dependency order:

| module | models |
|---|---|
| `Wrappers` | `Option` and `Result` |
| `Text` | the Python string behaviour used: truthiness, `strip`, `lower`, `\d`, `join` |
| `Base` | the generic repository of `app/db/repositories/base.py`: a table is a sequence whose row `i` has id `i + 1` |
| `Models` | the entities of `app/models/database.py` and the store invariants (`Valid`: unique session tokens, at most one contact and one inquiry per conversation, a chronological transcript) |
| `Repository` | `app/db/repositories/conversation.py` |
| `Tools` | the four tool handlers and `ToolResult` |
| `Registry` | the tool registry: groups, lookup, dispatch |
| `Prompts` | the system prompt selector |
| `Gateway` | the content layout of `app/services/gemini.py` and the normalized response |
| `Agent` | the agent's helpers: session resolution, the contact-data heuristic, canned lines, the turn state |
| `AgentProofs` | properties of those helpers against independent definitions |
| `Process` | `process_message` step by step, up to `ProcessMessage` |

## Model

| member | source | states |
|---|---|---|
| Base.GetById | app/db/repositories/base.py:18-23 | a lookup by id finds a row exactly when the id is one of the table's ids, and then it is that row; a missing id gives None, not an error |
| Base.Create | app/db/repositories/base.py:32-38 | the new row is found under the returned id, which no earlier row had, and every earlier id still finds its old row |
| Base.Update | app/db/repositories/base.py:40-47 | the record keeps its set of attributes; keywords naming an attribute overwrite it; every other attribute is unchanged |
| Base.UpdateIgnoresUnknownKeys | app/db/repositories/base.py:42-44 | keywords that are not attributes of the record have no effect at all |
| Base.UpdateComposes | app/db/repositories/base.py:40-47 | two successive updates equal one update in which the later keywords win |
| Repository.GetBySessionId | app/db/repositories/conversation.py:19-30 | the result is the first conversation holding the token, and None exactly when no conversation holds it |
| Repository.GetBySessionIdUnique | app/db/repositories/conversation.py:19-30 | under the unique index on session tokens, a conversation's own token finds that conversation |
| Repository.CreateConversation | app/db/repositories/conversation.py:32-34 | the insert succeeds exactly when the token is unused, and then appends one ACTIVE conversation without company under the next id; a taken token fails with a session conflict; token uniqueness is preserved |
| Repository.SetCompany | app/db/repositories/conversation.py:36-38 | only the company of that conversation changes, and its update time moves to `now` only when the company actually changed; every other row and table is untouched |
| Repository.SetStatus | app/db/repositories/conversation.py:40-42 | only the status of that conversation changes, and its update time moves only when the status actually changed; every other row and table is untouched |
| Repository.SetCompanyIsUpdate | app/db/repositories/conversation.py:36-38 | `set_company` is the generic update with the single keyword `company` |
| Repository.SetStatusIsUpdate | app/db/repositories/conversation.py:40-42 | `set_status` is the generic update with the single keyword `status` |
| Repository.ExpireConversation | app/db/repositories/conversation.py:60-62 | the conversation becomes EXPIRED, keeping its token and company, and nothing else in the store changes |
| Repository.IsExpired | app/db/repositories/conversation.py:44-58 | a conversation that is not ACTIVE never counts as expired; an ACTIVE one is expired exactly when it has been idle strictly longer than the timeout |
| Repository.ExpiryPersists | app/db/repositories/conversation.py:44-58 | once a conversation counts as idle-expired, it stays expired at every later time |
| Repository.AddMessage | app/db/repositories/conversation.py:71-79 | the message is appended to the transcript and the other tables are untouched |
| Repository.AddMessageKeepsOrder | app/db/repositories/conversation.py:71-79 | a message stamped no earlier than every stored row keeps the transcript in time order |
| Repository.ConversationMessages | app/db/repositories/conversation.py:81-90 | the result holds only that conversation's messages, and every one of them |
| Repository.ConversationMessagesCounts | app/db/repositories/conversation.py:81-90 | each of the conversation's messages comes out as many times as it is stored, and no other message comes out at all |
| Repository.ConversationMessagesAppend | app/db/repositories/conversation.py:81-90 | the filter keeps transcript order: the messages of a concatenated transcript are those of its first part followed by those of its second |
| Repository.ConversationMessagesOrdered | app/db/repositories/conversation.py:81-90 | from a transcript in time order, each conversation's messages come out oldest first |
| Repository.TranscriptAfterAdd | app/db/repositories/conversation.py:71-90 | adding a message extends exactly its own conversation's transcript, at the end |
| Repository.ContactIndex | app/db/repositories/conversation.py:99-104 | the contact found belongs to the conversation, and None means no contact belongs to it |
| Repository.UpsertContact | app/db/repositories/conversation.py:106-142 | with no contact yet, one is created from exactly the five arguments; otherwise the existing contact is merged field by field, and with every argument None the store is unchanged; the other tables are untouched and one contact per conversation is preserved |
| Repository.MergeIsUpdate | app/db/repositories/conversation.py:118-133 | the per-field merge is the generic update with just the arguments that are not None, so an empty string does overwrite |
| Repository.MergeNeverClears | app/db/repositories/conversation.py:118-133 | a merge never erases a field that held a value |
| Repository.MergeComposes | app/db/repositories/conversation.py:118-133 | two merges equal one merge whose arguments take the later value when it is given |
| Repository.InquiryIndex | app/db/repositories/conversation.py:151-156 | the inquiry found belongs to the conversation, and None means none does |
| Repository.UpsertInquiry | app/db/repositories/conversation.py:158-170 | the conversation's inquiry ends up holding exactly the new description, replaced in place or appended; the other tables are untouched and one inquiry per conversation is preserved |
| Repository.UpsertInquiryLastWins | app/db/repositories/conversation.py:158-170 | a second upsert leaves the store exactly as if only that upsert had happened |
| Tools.CompanyTitle | app/services/tools/set_company.py:55 | the capitalized name differs from the accepted company only in its first letter, which becomes "K" |
| Tools.SetCompany | app/services/tools/set_company.py:31-56 | success exactly when the lower-cased, stripped name is "kossodo" or "kossomet" and the conversation exists; on success the normalized name is stored and reported; on failure the store is untouched and no data is returned |
| Tools.SetCompanyNormalizes | app/services/tools/set_company.py:33-35 | case and surrounding whitespace do not matter: any name made of an accepted company in any letter case, padded with whitespace on either side, stores and reports the lower-case company |
| Tools.SetCompanyIdempotent | app/services/tools/set_company.py:31-56 | setting the same company again, at any later time, leaves the store as the first call did |
| Tools.SavedFields | app/services/tools/save_contact.py:73-83 | each truthy field gives one "label: value" item, every item comes from a truthy field, and the list is empty exactly when no field is truthy |
| Tools.SaveContact | app/services/tools/save_contact.py:48-96 | with no truthy field it fails and leaves the store untouched; otherwise it upserts all five arguments, reports the whole stored contact with its id, and lists the truthy fields in the message |
| Tools.SaveContactPassesEmptyStrings | app/services/tools/save_contact.py:57-71 | an empty string beside a real value passes the guard and overwrites the stored field, while fields given as None keep their values |
| Tools.SaveContactReportsFullContact | app/services/tools/save_contact.py:85-96 | the returned data is the whole merged contact, including fields stored by earlier calls |
| Tools.SaveInquiry | app/services/tools/save_inquiry.py:35-56 | success exactly when the description is present and not all whitespace; the stripped text replaces the conversation's inquiry and is reported without leading whitespace; a failure leaves the store untouched |
| Tools.SaveInquiryTwice | app/services/tools/save_inquiry.py:35-56 | two successful saves leave only the second stripped description |
| Tools.EndConversation | app/services/tools/end_conversation.py:36-56 | success exactly when the conversation exists; it then becomes COMPLETED whatever its status was, and the summary is echoed back but not stored |
| Tools.EndConversationIdempotent | app/services/tools/end_conversation.py:36-56 | ending twice equals ending once, and only the status and its update time can have changed |
| Registry.GetTool | app/services/tools/registry.py:25-32 | a tool instance exists exactly for the registered names, bound to the conversation; any other name fails with an unknown-tool error |
| Registry.Execute | app/core/agent.py:98-99 | a registered handler runs exactly when the call's keywords bind to its parameters; otherwise the call fails with a bad-arguments error |
| Registry.Dispatch | app/core/agent.py:94-104 | a call succeeds exactly when its name is registered and its arguments bind; the error distinguishes an unknown name from bad arguments |
| Registry.DispatchKeepsSessions | app/core/agent.py:94-104 | no tool adds a conversation, changes a token or touches the transcript, and every tool keeps the store's constraints |
| Registry.DispatchRouting | app/core/agent.py:94-104 | only a successful `set_company` changes a routing value; it succeeds exactly when the normalized name is a business line and the conversation exists, and then changes that conversation's company alone |
| Registry.DispatchOutsideGroup | app/core/agent.py:98 | the lookup ignores the active group: `set_company` still runs in a sales group, and a sales tool still runs in the router phase |
| Registry.ToolNamesForGroup | app/services/tools/registry.py:111-119 | "kossodo" and "kossomet" get their sales tools, and any other routing value gets the router's `set_company` |
| Registry.Instantiate | app/services/tools/registry.py:60-64 | the instances are those of the registered names, in the group's order and bound to the conversation; when every name is registered, there is one instance per name |
| Registry.InstantiateAppend | app/services/tools/registry.py:60-64 | instantiation works name by name: a concatenated name list gives the concatenated instances, and a single name gives its bound instance when registered and nothing otherwise |
| Registry.ToolsForGroupMatchesNames | app/services/tools/registry.py:34-64 | with every tool registered, the instantiated group is exactly the named group, in order |
| Registry.UnregisteredNamesDropped | app/services/tools/registry.py:60-64 | a name missing from the registry is silently dropped, and the remaining tools keep their order |
| Registry.GeminiToolsForGroup | app/services/tools/registry.py:66-85 | the schemas offered are those of the group's tool names, in order, whatever the conversation |
| Prompts.SystemPrompt | app/core/prompts/system_prompt.py:19-40 | the sales prompt exactly for "kossodo", the services prompt exactly for "kossomet", and the router prompt for every other value, None included |
| Gateway.SpeakerOf | app/services/gemini.py:40 | a message gets role "user" exactly when it is a user message; every other role maps to "model" |
| Gateway.BuildHistory | app/services/gemini.py:34-47 | one text unit per stored message, in the same order, with the message's text and role "user" exactly for user messages |
| Gateway.BuildHistoryAppend | app/services/gemini.py:34-47 | building the history of two concatenated transcripts equals concatenating their histories |
| Gateway.ResponseContents | app/services/gemini.py:64-71 | the content list is the history followed by one user unit holding the message |
| Gateway.ToolResultContents | app/services/gemini.py:119-154 | the content list of a single tool result extends the plain one with a model call unit carrying the result's data, then the user result unit |
| Gateway.AppendKeepsAlternation | app/core/agent.py:212-228 | appending one call/result exchange keeps the content list made of whole exchanges after its prefix |
| Gateway.CreateTools | app/services/gemini.py:16-32 | no schemas give no tools; otherwise one tool holds one declaration per schema, in order |
| Agent.AfterLastAt | app/core/agent.py:113 | the text after the last "@" is a suffix of the message without any "@", preceded by an "@" when it is shorter than the message |
| Agent.StaticFallback | app/core/agent.py:305-313 | the fallback is never empty, and it asks to confirm contact data exactly when the message looks like contact data |
| Agent.CannedLine | app/core/agent.py:316-346 | the canned line after a tool ran is never empty |
| Agent.Generate | app/core/agent.py:191-195 | a generation call consumes exactly one oracle response and records the prompt, contents and tools it was made with |
| AgentProofs.HasEmailIff | app/core/agent.py:113 | `has_email` holds exactly when some "@" with no later "@" is followed somewhere by a "." |
| AgentProofs.HasLongNumberIff | app/core/agent.py:114-115 | some run found by `\d+` is at least 8 long exactly when the message has eight consecutive digits |
| AgentProofs.LooksLikeContactDataIff | app/core/agent.py:106-119 | the heuristic holds exactly for an email shape, or for eight consecutive digits together with a comma or at least three spaces |
| AgentProofs.ResolveSessionSpec | app/core/agent.py:40-69 | a resumable token keeps its conversation and store as they are; any other token (none, empty, unknown, finished or idle) gets a new ACTIVE conversation without company under the fresh token, after an idle ACTIVE one is marked EXPIRED; only a taken fresh token fails; the token then finds the conversation, the other tables are untouched and the constraints hold |
| AgentProofs.StartConversationSpec | app/core/agent.py:66-69 | a new conversation under a free token is one appended ACTIVE row without company, which the token then finds |
| AgentProofs.ExpiredKeepsSessions | app/core/agent.py:57-60 | expiring keeps every token and the constraints and changes only the expired row |
| AgentProofs.PromptAndToolsAgree | app/core/agent.py:170-175 | the prompt and the tool group are chosen from the same routing value, so the tools offered are always those of the prompt's business line |
| AgentProofs.HistoryUnits | app/core/agent.py:71-81 | the history the model is given holds one unit per stored message, in order, with role "user" exactly for user messages, and the message's text |
| AgentProofs.PriorHistoryAfterAdd | app/core/agent.py:162-168 | saving the user message and dropping the transcript's last entry gives back the conversation's earlier transcript |
| Process.ExecuteTool | app/core/agent.py:94-104 | the call's outcome is the registry's dispatch of its name and arguments on the store; it runs exactly when it is callable, and otherwise fails with that call's exception; tools keep tokens, transcript and constraints, and only a successful `set_company` moves a routing value, to the normalized name |
| Process.Follow | app/core/agent.py:230-240 | after `set_company` succeeds, the refresh still finds the conversation, so it cannot fail, and prompt and tools are re-selected from its new company |
| Process.RunCall | app/core/agent.py:212-240 | the store the call leaves and the result appended are those of dispatching it; one call appends exactly its call unit and result unit and remembers its name; with re-routing the turn still agrees with the store, and without it routing is untouched |
| Process.ExchangesAt | app/core/agent.py:212-228 | after a batch, unit 2k is the call of call k and unit 2k+1 holds that call's result |
| Process.RunAll | app/core/agent.py:212-222 | dispatching the first `n` calls in order succeeds exactly when each of them is callable, and then yields one result per call |
| Process.RunBatch | app/core/agent.py:212-228 | the calls run in the model's order; the batch succeeds exactly when every call is callable, and otherwise stops at the first call that is not, with that call's exception; on success the store and the results are those of dispatching every call in order on the store the previous one left, one exchange per call holding its result is appended, and the last name is remembered |
| Process.Collected | app/core/agent.py:205-206 | collected text stays empty while no response carried text before its calls |
| Process.Round | app/core/agent.py:203-252 | one round consumes one response and runs its calls on the store the earlier rounds left; it then generates once more on the contents grown by exactly that batch's exchanges and results, with the prompt and tools of the routing value that batch left |
| Process.ToolLoop | app/core/agent.py:198-252 | the loop ends with a text response unless ten rounds ran; the exit store is what dispatching every consumed response's calls in order leaves, and the last tool is the last call among them; each round's generation is made on the initial contents followed by the exchanges and results of every batch so far, with the prompt and tools of the routing value its batch left (so a successful `set_company` re-routes the next generation); the exit contents are those of the last round; the collected text is the text before each consumed response's calls |
| Process.RoundStores | app/core/agent.py:203-228 | the stores the rounds pass through start with the loop's store and hold one store per round |
| Process.RoundContents | app/core/agent.py:212-228 | the content lists the rounds pass through start with the loop's initial contents and hold one list per round |
| Process.LastToolAfter | app/core/agent.py:200-215 | `last_tool_name` stays unset exactly when it was unset and none of the consumed responses asked for a call |
| Process.StoresStep | app/core/agent.py:212-228 | one more round extends the stores with the one its batch leaves, dispatched on the last store |
| Process.TraceStep | app/core/agent.py:203-252 | one more round extends the stores by its batch's store, moves the last tool past its calls, and adds a generation made with the routing value that store holds |
| Process.RoundTraced | app/core/agent.py:203-252 | a round whose batch dispatched on the current store, whose contents grew by that batch's exchanges and whose turn follows that store's routing keeps the loop's account of stores, contents, last tool and per-round routing |
| Process.Retry | app/core/agent.py:263-313 | the retry generates on the contents plus the hint; when it asks for calls, they are dispatched in order on the turn's store, which becomes the store they leave, with their results appended as exchanges on the contents without the hint, the last call remembered and no re-routing, followed by exactly one more generation; when it answers with text, store, contents and last tool are untouched; the reply is the last generation's text or the static fallback |
| Process.Chosen | app/core/agent.py:254-263 | the final text wins when there is one; no reply is chosen (so the retry runs) exactly when the final text and the collected text are empty and no tool ran |
| Process.Finalize | app/core/agent.py:254-346 | the fallback chain always yields a non-empty reply, makes at most two more generations with the turn's prompt and tools, and keeps the transcript, the tokens, the constraints and the routing; when no reply is chosen, the retry's calls change the store exactly as dispatching them does |
| Process.Converse | app/core/agent.py:183-346 | the first generation sees the opening contents, with the hint only when a company is set and the message looks like contact data; the loop ran from the first response and exited in the state the fallback chain reads; the reply is exactly the final text, else the collected text, else the last tool's canned line, else the retry's reply; every generation offers its prompt's tools; at most 13 generations run; the token still finds the conversation |
| Process.Continue | app/core/agent.py:197-346 | after the first generation, the loop and the fallback chain give the reply the chain chooses in the loop's exit state, or the retry's |
| Process.Conclude | app/core/agent.py:254-346 | finalizing in the loop's exit state gives the reply the fallback chain chooses there, or the retry's |
| Process.Open | app/core/agent.py:157-181 | the opened turn uses the resolved token, the opening company's prompt and tools, the transcript plus the user message, and contents made of the earlier transcript and the message; it fails only on a taken fresh token |
| Process.Begin | app/core/agent.py:162-181 | storing the user message and selecting prompt and tools gives a turn that agrees with the store, whose contents are the transcript before the message followed by the message once, not twice |
| Process.StoredReply | app/core/agent.py:348-361 | after the reply is stored, the turn's token still finds the turn's conversation, so the status reported is that of the conversation looked up by token |
| Process.Answer | app/core/agent.py:183-361 | an opened turn yields a non-empty reply under the resolved token, which is the reply the fallback chain chose after the loop, or the retry's; the stored transcript is the conversed store's plus that reply; the transcript grew by exactly the user message and the reply; the status is the conversation's; the constraints still hold |
| Process.Record | app/core/agent.py:348-361 | storing the chosen reply appends exactly that text as an assistant message to the conversed store and answers the message |
| Process.ProcessMessage | app/core/agent.py:138-361 | the whole turn as in `Answer`, starting from the given model responses with nothing collected and no tool run; the reply is the one the loop and fallback chain choose; each loop generation is shown the exchanges of the batches dispatched so far; the final store is the one the loop's and retry's dispatched calls left, plus the reply; it fails with a session conflict exactly when a new conversation is needed and the fresh token is taken; otherwise it fails only on a provider error or a call the registry cannot run, never because the conversation vanished |
| ProcessProofs.RunAllPrefix | app/core/agent.py:212-228 | the first `n` calls of a batch decide what it does; later calls are never looked at |
| ProcessProofs.RunAllAppend | app/core/agent.py:212-228 | running the batch `a + b` is running `a`, then `b` on the store `a` left, with the results in the same order; the first failing call fails both alike |
| ProcessProofs.RunOne | app/core/agent.py:212-228 | a batch of one call is that call's dispatch |
| ProcessProofs.FirstStoreKept | app/core/agent.py:203-252 | the store the first round leaves does not depend on how many rounds follow |
| ProcessProofs.FirstRoundStore | app/core/agent.py:212-228 | when the first response asks for one call, the store after the first round is that call's dispatch |
| ProcessProofs.FirstContentsKept | app/core/agent.py:203-252 | the content list after the first round does not depend on how many rounds follow |
| ProcessProofs.FirstRoundContents | app/core/agent.py:212-228 | the content list after the first round is the initial contents followed by one exchange per call of the first response, holding the results of dispatching them in order |
| ProcessProofs.CallsFirstLoops | app/core/agent.py:203 | a first response that asks for calls makes at least one round |
| ProcessProofs.TextFirstReply | app/core/agent.py:254-259 | a first response with non-empty text is the reply: no round runs and the store and the last tool are untouched |
| ProcessProofs.SetCompanyReroutes | app/core/agent.py:230-250 | a first response that sets an accepted company makes the turn's second generation use that company's prompt and tool group |
| ProcessProofs.FirstRoundShown | app/core/agent.py:224-250 | when the first response asks for calls, the turn's second generation is made on the opening contents without the hint, followed by one exchange per call holding the results of dispatching them in order |
| ProcessProofs.EndedTurn | app/core/agent.py:254-346 | ending the conversation and then answering with no text gives the closing canned line, after exactly one round, and leaves the conversation COMPLETED |

## Left out

- The provider call itself (`app/services/gemini.py:12-14`, `77-102`, `156-184`) is not modelled: the network, the API key and response parsing. The model's answers are the oracle parameter. The normalized `Response` has a text form and a calls form, standing for the `{"type": ...}` dictionaries the agent reads.
- `agent.py` calls `build_initial_contents`, `append_function_call_and_result` and `generate_with_contents` on the gemini service. None of them is defined in `app/services/gemini.py`. The model gives `build_initial_contents` the layout that `generate_response` builds (`app/services/gemini.py:64-71`): the history, then one user unit with the message. `append_function_call_and_result` adds one exchange, a model call unit followed by a user result unit, as `generate_response_with_tool_result` does (`app/services/gemini.py:130-154`). One difference is kept deliberately: the model's call unit (`Gateway.Exchange`) carries the call's `tool_args`, which `agent.py:226-228` passes in, while `app/services/gemini.py:137` puts the result's `data` in the call unit. So `Process.RoundsShown`, `Process.Retried` and `ProcessProofs.FirstRoundShown` state call units with the arguments.
- Prompt texts, tool descriptions and JSON parameter schemas are fixed text. A prompt is one of three constants, and a tool schema carries only its name.
- SQLAlchemy sessions, `flush`, `refresh`, `selectinload`, transactions and rollback are not modelled. A failing turn returns `Err` with the store it was given, so what a rollback would keep is not modelled either.
- Timestamps are integers (`now`), so time zones and `datetime.now()` are left out. The `Conversation` and `Message` timestamps take the parameter `now`. `Contact.created_at`, `Contact.updated_at` and `Inquiry.created_at` are not modelled because nothing reads them.
- `uuid4()` becomes the `freshSessionId` parameter. A collision with an existing token makes the insert fail with a session conflict, as the unique index would, instead of requiring freshness.
- Repository.ConversationMessages: returns the conversation's messages in transcript order. The query orders by `created_at` alone (`app/db/repositories/conversation.py:81-90`), so the database may return messages with equal timestamps in any order. The model does not cover that freedom. From a chronological transcript the result is in time order (`ConversationMessagesOrdered`), but ties keep their transcript order only in the model.
- Tools.Args: an argument value is a string or JSON null. Numbers, booleans, lists and objects are not modelled. In the source such a value reaches `company.lower()` (`app/services/tools/set_company.py:33`) or `description.strip()` (`app/services/tools/save_inquiry.py:37`) and raises `AttributeError`, which the agent does not catch.
- `get_all` and `delete` in `base.py` are not modelled: the core does not call them.
- The legacy registry methods `get_all_tools`, `get_gemini_tools` and `get_tool_names` (`registry.py:88-109`) are not modelled: the agent does not call them.
- `register` (`registry.py:19-23`) is the fixed set `Registry.Registered` of the four tools that register themselves on import.
- `print` logging is not modelled.
- Concurrent turns on one session are not modelled. The source does not serialize them.
- Text.Lower: only maps A-Z and the KELVIN SIGN (the only non-ASCII character Python lowers into a-z). Other characters are unchanged, which is enough for comparing with "kossodo" and "kossomet".
- Text.IsDigit: `\d` is taken as the ASCII digits. Python also matches other Unicode decimal digits.
- Text.Join: states only the cases of zero and one item. The message text of `save_contact` is stated through `SavedFields`.
- Agent.HistoryOf: states only the length. The per-message content is stated in `AgentProofs.HistoryUnits`.
- Agent.CannedLine: states only that the line is non-empty. Which tool selects which line is the selection in its body.
- Agent.ContactHint: the hint is an opaque constant unit of role "user".
- Process.Round: the text before a response's calls is added to `collected_text` after the round's generation rather than before it. Nothing in the round reads it.
- Process.Answer: the status is read from the turn's conversation id rather than by a second lookup of the token. `Process.StoredReply` proves that the lookup finds that same conversation.
- The refresh in `_refresh_conversation` can return `None` in Python. The model proves this cannot happen during a turn, and `ProcessMessage` never fails with `ConversationVanished`.
- Process.ProcessMessage: requires a message of 1 to 5000 characters, the limit the request schema enforces (`app/models/schemas.py:34`) before the agent is called.

=== FILE: agent.dfy ===
/**
 * The turn orchestrator of app/core/agent.py.
 *
 * A turn is a pure function of the store, the incoming message and session
 * token, a fresh token (standing for `uuid4()`), the clock, the idle timeout
 * and an oracle: the sequence of normalized responses the model gives to the
 * turn's successive generation calls. Every generation call consumes one
 * response and is recorded, with the prompt, contents and tools it was made
 * with, in `Turn.generations`.
 */
module Agent {
  import opened Wrappers
  import opened Text
  import opened Models
  import Repository
  import opened Tools
  import Registry
  import Prompts
  import opened Gateway

  /** `max_iterations` of the tool-call loop. */
  const MaxIterations: nat := 10

  // ---------------------------------------------------------------- contact-data heuristic

  /** `m.split("@")[-1]`: the text after the last '@', or all of `m` when there is none. */
  function AfterLastAt(m: string): (r: string)
    ensures |r| <= |m| && r == m[|m| - |r|..]
    ensures '@' !in r
    ensures |r| < |m| ==> m[|m| - |r| - 1] == '@'
  {
    if |m| == 0 || m[|m| - 1] == '@' then []
    else AfterLastAt(m[..|m| - 1]) + [m[|m| - 1]]
  }

  /** `has_email`. */
  predicate HasEmail(m: string) {
    '@' in m && '.' in AfterLastAt(m)
  }

  /** The lengths of the maximal digit runs of `s`, left to right, as `re.findall(r'\d+', ...)`
      returns them, given that `s` continues a run of `run` digits. */
  function DigitRuns(s: string, run: nat): (r: seq<nat>)
    ensures forall k :: 0 <= k < |r| ==> r[k] > 0
  {
    if |s| == 0 then (if run > 0 then [run] else [])
    else if IsDigit(s[0]) then DigitRuns(s[1..], run + 1)
    else (if run > 0 then [run] else []) + DigitRuns(s[1..], 0)
  }

  /** `has_long_number`: some run of digits is at least 8 long. */
  predicate HasLongNumber(m: string) {
    var runs := DigitRuns(m, 0);
    exists k :: 0 <= k < |runs| && runs[k] >= 8
  }

  /** `has_multiple_items`: a comma, or at least three spaces. */
  predicate HasMultipleItems(m: string) {
    multiset(m)[','] >= 1 || multiset(m)[' '] >= 3
  }

  /** `_looks_like_contact_data`. */
  predicate LooksLikeContactData(m: string) {
    HasEmail(m) || (HasLongNumber(m) && HasMultipleItems(m))
  }

  /** `_create_contact_hint`: a user-role unit that is never stored. */
  const ContactHint: Content := UserText(
    "[Sistema: El mensaje anterior parece contener datos de contacto. "
    + "Identifica: nombre, teléfono (9 dígitos), email (@), RUC (11 dígitos) o DNI (8 dígitos), "
    + "y nombre de empresa. Usa save_contact con los datos identificados, luego responde "
    + "preguntando SOLO por los datos que faltan.]")

  // ---------------------------------------------------------------- session resolution

  /** The result of `_get_or_create_conversation`. */
  datatype Resolved = Resolved(store: Store, conversationId: nat, sessionId: string)

  /** The conversation a token names can be continued: it exists, is ACTIVE and is not idle. */
  predicate Resumable(st: Store, sessionId: Option<string>, now: int, idleTimeout: int) {
    && Truthy(sessionId)
    && Repository.GetBySessionId(st, sessionId.value).Some?
    && var c := st.conversations[Repository.GetBySessionId(st, sessionId.value).value - 1];
       c.status == Active && !Repository.IsExpired(c, now, idleTimeout)
  }

  /** The token names an ACTIVE conversation that has been idle too long. */
  predicate IdleActive(st: Store, sessionId: Option<string>, now: int, idleTimeout: int) {
    && Truthy(sessionId)
    && Repository.GetBySessionId(st, sessionId.value).Some?
    && var c := st.conversations[Repository.GetBySessionId(st, sessionId.value).value - 1];
       c.status == Active && Repository.IsExpired(c, now, idleTimeout)
  }

  /** A new conversation under the fresh token. */
  function StartConversation(st: Store, freshSessionId: string, now: int): (r: Result<Resolved, Failure>)
    ensures r.Ok? <==> Repository.GetBySessionId(st, freshSessionId).None?
    ensures r.Ok? ==> r.value == Resolved(Repository.CreateConversation(st, freshSessionId, now).value.0,
                                          |st.conversations| + 1, freshSessionId)
  {
    var created :- Repository.CreateConversation(st, freshSessionId, now);
    Ok(Resolved(created.0, created.1, freshSessionId))
  }

  /** `_get_or_create_conversation`: continue the named conversation if it is resumable;
      otherwise expire it when it is ACTIVE but idle, and start a new one. */
  function ResolveSession(st: Store, sessionId: Option<string>, freshSessionId: string, now: int, idleTimeout: int)
    : (r: Result<Resolved, Failure>)
  {
    if Truthy(sessionId) then
      match Repository.GetBySessionId(st, sessionId.value)
      case Some(id) =>
        var c := st.conversations[id - 1];
        if c.status == Active then
          if Repository.IsExpired(c, now, idleTimeout) then
            StartConversation(Repository.ExpireConversation(st, id, now), freshSessionId, now)
          else Ok(Resolved(st, id, sessionId.value))
        else StartConversation(st, freshSessionId, now)
      case None => StartConversation(st, freshSessionId, now)
    else StartConversation(st, freshSessionId, now)
  }

  // ---------------------------------------------------------------- the turn state

  /** One generation call: the instruction, content list and tool schemas it was made with. */
  datatype Generation = Generation(prompt: Prompts.Prompt, contents: seq<Content>, tools: seq<ToolSchema>)

  /** The local state of `process_message`. */
  datatype Turn = Turn(
    store: Store,
    now: int,
    conversationId: nat,
    sessionId: string,
    company: Option<string>,        // current_company
    prompt: Prompts.Prompt,         // system_prompt
    tools: seq<ToolSchema>,         // tools_schema
    contents: seq<Content>,         // contents (never holds the hint)
    oracle: seq<Response>,          // the model's remaining responses
    generations: seq<Generation>,   // the generation calls made so far
    lastTool: Option<string>,       // last_tool_name
    collected: string)              // collected_text

  /** `generate_with_contents`: one call, answered by the next oracle response. */
  function Generate(t: Turn, contents: seq<Content>): (r: Result<(Turn, Response), Failure>)
    ensures r.Ok? <==> |t.oracle| > 0
    ensures r.Err? ==> r.error == ProviderUnavailable
    ensures r.Ok? ==> r.value.1 == t.oracle[0]
    ensures r.Ok? ==> r.value.0 == t.(oracle := t.oracle[1..],
                                      generations := t.generations + [Generation(t.prompt, contents, t.tools)])
  {
    if |t.oracle| == 0 then Err(ProviderUnavailable)
    else Ok((t.(oracle := t.oracle[1..], generations := t.generations + [Generation(t.prompt, contents, t.tools)]),
             t.oracle[0]))
  }

  /** `_refresh_conversation` followed by re-selecting prompt and tools for its company. */
  function Reroute(t: Turn): Result<Turn, Failure> {
    match Repository.GetBySessionId(t.store, t.sessionId)
    case None => Err(ConversationVanished)
    case Some(id) =>
      var company := t.store.conversations[id - 1].company;
      Ok(t.(conversationId := id, company := company, prompt := Prompts.SystemPrompt(company),
            tools := Registry.GeminiToolsForGroup(company, id)))
  }

  // ---------------------------------------------------------------- finalizing the reply

  /** `response.get("content", "")`: call responses carry no content. */
  function ReplyText(r: Response): string {
    if r.TextReply? then r.content else ""
  }

  const ConfirmDataLine: string :=
    "Gracias por tu información. ¿Podrías confirmar tu nombre completo, teléfono, email, RUC/DNI y nombre de empresa?"
  const HowCanIHelpLine: string := "¿En qué puedo ayudarte?"

  /** The static fallback after an empty retry: ask to confirm the data when the message
      looks like contact data, else ask how to help. */
  function StaticFallback(message: string): (text: string)
    ensures text != ""
    ensures text == ConfirmDataLine <==> LooksLikeContactData(message)
  {
    if LooksLikeContactData(message) then ConfirmDataLine else HowCanIHelpLine
  }

  const EndedLine: string :=
    "¡Gracias por contactar al Grupo Kossodo! Un asesor se comunicará contigo pronto. ¡Que tengas un excelente día!"
  const KossometInquiryLine: string :=
    "Perfecto. Un técnico especializado de Kossomet se pondrá en contacto contigo a la brevedad. ¿Hay algo más en lo que pueda ayudarte?"
  const KossodoInquiryLine: string :=
    "Perfecto. Un asesor de ventas de Kossodo se pondrá en contacto contigo a la brevedad. ¿Hay algo más en lo que pueda ayudarte?"
  const MissingDataLine: string := "Gracias. ¿Me podrías proporcionar los datos que aún faltan?"
  const AskNameLine: string :=
    "Entendido. Para que un asesor pueda contactarte, necesito algunos datos. ¿Cuál es tu nombre completo?"
  const AnythingElseLine: string := "¿En qué más puedo ayudarte?"

  /** The canned line after a tool ran but the model said nothing: one per tool, the inquiry
      line naming the business line, and a generic line for any other name. */
  function CannedLine(lastTool: string, company: Option<string>): (text: string)
    ensures |text| > 0
  {
    if lastTool == Registry.EndConversationName then EndedLine
    else if lastTool == Registry.SaveInquiryName then
      if company == Some("kossomet") then KossometInquiryLine else KossodoInquiryLine
    else if lastTool == Registry.SaveContactName then MissingDataLine
    else if lastTool == Registry.SetCompanyName then AskNameLine
    else AnythingElseLine
  }

  // ---------------------------------------------------------------- the turn

  /** `_get_message_history`: the `{"role", "content"}` form of a transcript. */
  function HistoryOf(ms: seq<Message>): (h: seq<HistoryMessage>)
    ensures |h| == |ms|
  {
    seq(|ms|, k requires 0 <= k < |ms| => HistoryMessage(ms[k].role, ms[k].content))
  }

  /** `history[:-1]` after the user message was saved. */
  function PriorHistory(st: Store, conversationId: nat): seq<HistoryMessage> {
    var transcript := Repository.ConversationMessages(st.messages, conversationId);
    HistoryOf(if |transcript| == 0 then [] else transcript[..|transcript| - 1])
  }

  /** The store once the user message is saved in the resolved conversation. */
  function StoreUserMessage(s: Resolved, message: string, now: int): Store {
    Repository.AddMessage(s.store, s.conversationId, UserRole, message, now)
  }

  /** The content list the turn opens with: the stored transcript before the message, then
      the message. */
  function InitialContents(stored: Store, conversationId: nat, message: string): seq<Content> {
    BuildInitialContents(PriorHistory(stored, conversationId), message)
  }

  /** The turn state once the user message is stored (`stored`) and prompt and tools are
      selected from the conversation's company. */
  function StartTurn(s: Resolved, stored: Store, contents: seq<Content>, oracle: seq<Response>, now: int): Turn
    requires 1 <= s.conversationId <= |stored.conversations|
  {
    var company := stored.conversations[s.conversationId - 1].company;
    Turn(stored, now, s.conversationId, s.sessionId, company,
         Prompts.SystemPrompt(company), Registry.GeminiToolsForGroup(company, s.conversationId),
         contents, oracle, [], None, "")
  }

  /** The content list of the first generation: the hint is added only once a company is set
      and the message looks like contact data. */
  function FirstContents(t: Turn, message: string): seq<Content> {
    if Truthy(t.company) && LooksLikeContactData(message) then t.contents + [ContactHint] else t.contents
  }
}

=== FILE: agent_proofs.dfy ===
/**
 * Properties of the turn orchestrator (`Agent`): what the contact-data
 * heuristic recognizes, how sessions resolve, and how prompt, tools and
 * history are selected.
 */
module AgentProofs {
  import opened Wrappers
  import opened Text
  import opened Models
  import Repository
  import opened Tools
  import Registry
  import Prompts
  import opened Gateway
  import opened Agent

  // ---------------------------------------------------------------- the heuristic, independently

  /** An '@' with a '.' somewhere after it and no later '@'. */
  ghost predicate EmailShape(m: string) {
    exists i, j :: 0 <= i < j < |m| && m[i] == '@' && m[j] == '.' && NoAtAfter(m, i)
  }

  ghost predicate NoAtAfter(m: string, i: int) {
    forall k :: 0 <= k < |m| && i < k ==> m[k] != '@'
  }

  /** `has_email` holds exactly when the message has the shape above. */
  lemma HasEmailIff(m: string)
    ensures HasEmail(m) <==> EmailShape(m)
  {
  }

  /** The number of digits `s` starts with. */
  function LeadingDigits(s: string): (n: nat)
    ensures n <= |s|
    ensures forall k :: 0 <= k < n ==> IsDigit(s[k])
    ensures n < |s| ==> !IsDigit(s[n])
  {
    if |s| == 0 || !IsDigit(s[0]) then 0 else 1 + LeadingDigits(s[1..])
  }

  /** A prefix of `c` digits is counted. */
  lemma {:induction false} DigitPrefix(s: string, c: nat)
    requires c <= |s|
    requires forall k :: 0 <= k < c ==> IsDigit(s[k])
    ensures LeadingDigits(s) >= c
  {
    if c > 0 {
      DigitPrefix(s[1..], c - 1);
    }
  }

  /** Eight consecutive digits start at `i`. */
  ghost predicate EightDigitsAt(s: string, i: int) {
    0 <= i && i + 8 <= |s| && forall k :: i <= k < i + 8 ==> IsDigit(s[k])
  }

  ghost predicate HasEightDigits(s: string) {
    exists i :: EightDigitsAt(s, i)
  }

  ghost predicate SomeRunAtLeast(runs: seq<nat>, n: nat) {
    exists k :: 0 <= k < |runs| && runs[k] >= n
  }

  lemma SomeRunConcat(a: seq<nat>, b: seq<nat>, n: nat)
    ensures SomeRunAtLeast(a + b, n) <==> SomeRunAtLeast(a, n) || SomeRunAtLeast(b, n)
  {
    if SomeRunAtLeast(a, n) {
      var k :| 0 <= k < |a| && a[k] >= n;
      assert (a + b)[k] == a[k];
    }
    if SomeRunAtLeast(b, n) {
      var k :| 0 <= k < |b| && b[k] >= n;
      assert (a + b)[|a| + k] == b[k];
    }
    if SomeRunAtLeast(a + b, n) {
      var k :| 0 <= k < |a + b| && (a + b)[k] >= n;
      if k >= |a| { assert b[k - |a|] == (a + b)[k]; } else { assert a[k] == (a + b)[k]; }
    }
  }

  /** Windows of eight digits in `s` are those of its tail, shifted, and possibly one at 0. */
  lemma EightDigitsTail(s: string)
    requires |s| > 0
    ensures HasEightDigits(s) <==> HasEightDigits(s[1..]) || LeadingDigits(s) >= 8
  {
    var n := LeadingDigits(s);
    if HasEightDigits(s[1..]) {
      var i :| EightDigitsAt(s[1..], i);
      assert EightDigitsAt(s, i + 1);
    }
    if n >= 8 {
      assert EightDigitsAt(s, 0);
    }
    if HasEightDigits(s) {
      var i :| EightDigitsAt(s, i);
      if i > 0 {
        assert EightDigitsAt(s[1..], i - 1);
      } else {
        DigitPrefix(s, 8);
      }
    }
  }

  /** The run lengths reach 8 exactly when the carried run plus the leading digits do, or when
      eight consecutive digits occur. */
  lemma {:induction false} RunsWithCarry(s: string, run: nat)
    ensures SomeRunAtLeast(DigitRuns(s, run), 8) <==> run + LeadingDigits(s) >= 8 || HasEightDigits(s)
    decreases |s|
  {
    if |s| == 0 {
      assert !HasEightDigits(s);
      if run > 0 { assert DigitRuns(s, run)[0] == run; }
    } else if IsDigit(s[0]) {
      RunsWithCarry(s[1..], run + 1);
      EightDigitsTail(s);
    } else {
      RunsWithCarry(s[1..], 0);
      EightDigitsTail(s);
      if LeadingDigits(s[1..]) >= 8 { assert EightDigitsAt(s[1..], 0); }
      var head: seq<nat> := if run > 0 then [run] else [];
      SomeRunConcat(head, DigitRuns(s[1..], 0), 8);
      if run > 0 { assert head[0] == run; }
    }
  }

  /** `has_long_number` holds exactly when the message has eight consecutive digits. */
  lemma HasLongNumberIff(m: string)
    ensures HasLongNumber(m) <==> HasEightDigits(m)
  {
    RunsWithCarry(m, 0);
    if LeadingDigits(m) >= 8 {
      assert EightDigitsAt(m, 0);
    }
  }

  /** The whole heuristic in terms of the message's characters. */
  lemma LooksLikeContactDataIff(m: string)
    ensures LooksLikeContactData(m) <==>
              EmailShape(m) || (HasEightDigits(m) && (',' in m || multiset(m)[' '] >= 3))
  {
    HasEmailIff(m);
    HasLongNumberIff(m);
  }

  // ---------------------------------------------------------------- session resolution

  /** Lookup by token depends on the tokens only. */
  lemma LookupSameSessions(a: Store, b: Store, sessionId: string)
    requires SameSessions(a.conversations, b.conversations)
    ensures Repository.GetBySessionId(a, sessionId) == Repository.GetBySessionId(b, sessionId)
  {
    var ra, rb := Repository.GetBySessionId(a, sessionId), Repository.GetBySessionId(b, sessionId);
    if ra.Some? {
      assert b.conversations[ra.value - 1].sessionId == sessionId;
    }
    if rb.Some? {
      assert a.conversations[rb.value - 1].sessionId == sessionId;
    }
  }

  /** After an insert under an unused token, the token finds the new row. */
  lemma NewConversationFound(st: Store, sessionId: string, now: int)
    requires Repository.GetBySessionId(st, sessionId).None?
    ensures var created := Repository.CreateConversation(st, sessionId, now).value;
            Repository.GetBySessionId(created.0, sessionId) == Some(created.1)
  {
    var created := Repository.CreateConversation(st, sessionId, now).value;
    assert created.0.conversations[|st.conversations|].sessionId == sessionId;
    assert forall k :: 0 <= k < |st.conversations| ==> created.0.conversations[k] == st.conversations[k];
  }

  /** `_get_or_create_conversation`: a resumable token is kept with its conversation as is;
      any other token (none, empty, unknown, finished, or idle) yields a new ACTIVE
      conversation without company under the fresh token, after an idle ACTIVE one is marked
      EXPIRED. The insert fails only when the fresh token is taken. */
  lemma ResolveSessionSpec(st: Store, sessionId: Option<string>, freshSessionId: string, now: int, idleTimeout: int)
    ensures var r := ResolveSession(st, sessionId, freshSessionId, now, idleTimeout);
      && (Resumable(st, sessionId, now, idleTimeout) ==>
            r == Ok(Resolved(st, Repository.GetBySessionId(st, sessionId.value).value, sessionId.value)))
      && (!Resumable(st, sessionId, now, idleTimeout) ==>
            && (r.Ok? <==> Repository.GetBySessionId(st, freshSessionId).None?)
            && (r.Err? ==> r.error == SessionConflict(freshSessionId))
            && (r.Ok? ==>
                  && r.value.sessionId == freshSessionId
                  && r.value.conversationId == |st.conversations| + 1
                  && |r.value.store.conversations| == |st.conversations| + 1
                  && r.value.store.conversations[|st.conversations|] == Conversation(freshSessionId, None, Active, now, now)))
      && (r.Ok? && !IdleActive(st, sessionId, now, idleTimeout) ==>
            r.value.store.conversations[..|st.conversations|] == st.conversations)
      && (r.Ok? && IdleActive(st, sessionId, now, idleTimeout) ==>
            var id := Repository.GetBySessionId(st, sessionId.value).value;
            r.value.store.conversations[..|st.conversations|]
              == st.conversations[id - 1 := st.conversations[id - 1].(status := Expired, updatedAt := now)])
      && (r.Ok? ==> Repository.GetBySessionId(r.value.store, r.value.sessionId) == Some(r.value.conversationId))
      && (r.Ok? ==> r.value.store.messages == st.messages && r.value.store.contacts == st.contacts
                    && r.value.store.inquiries == st.inquiries)
      && (r.Ok? && Valid(st) ==> Valid(r.value.store))
  {
    if IdleActive(st, sessionId, now, idleTimeout) {
      var id := Repository.GetBySessionId(st, sessionId.value).value;
      var expired := Repository.ExpireConversation(st, id, now);
      ExpiredKeepsSessions(st, id, now);
      LookupSameSessions(st, expired, freshSessionId);
      StartConversationSpec(expired, freshSessionId, now);
    } else if !Resumable(st, sessionId, now, idleTimeout) {
      StartConversationSpec(st, freshSessionId, now);
    }
  }

  /** Expiring a conversation keeps every row's token and the constraints, and changes only
      that row. */
  lemma ExpiredKeepsSessions(st: Store, id: nat, now: int)
    requires 1 <= id <= |st.conversations| && st.conversations[id - 1].status == Active
    ensures var expired := Repository.ExpireConversation(st, id, now);
            && SameSessions(st.conversations, expired.conversations)
            && expired.conversations == st.conversations[id - 1 := st.conversations[id - 1].(status := Expired, updatedAt := now)]
            && (Valid(st) ==> Valid(expired))
  {
    var expired := Repository.ExpireConversation(st, id, now);
    assert expired.conversations == st.conversations[id - 1 := st.conversations[id - 1].(status := Expired, updatedAt := now)];
  }

  /** Starting a conversation under a free token appends one ACTIVE row without company,
      which the token then finds. */
  lemma StartConversationSpec(st: Store, freshSessionId: string, now: int)
    ensures var r := StartConversation(st, freshSessionId, now);
      && (r.Err? ==> r.error == SessionConflict(freshSessionId))
      && (r.Ok? ==>
            && r.value.sessionId == freshSessionId
            && r.value.conversationId == |st.conversations| + 1
            && r.value.store.conversations == st.conversations + [Conversation(freshSessionId, None, Active, now, now)]
            && r.value.store.messages == st.messages && r.value.store.contacts == st.contacts
            && r.value.store.inquiries == st.inquiries
            && Repository.GetBySessionId(r.value.store, freshSessionId) == Some(r.value.conversationId)
            && (Valid(st) ==> Valid(r.value.store)))
  {
    if Repository.GetBySessionId(st, freshSessionId).None? {
      NewConversationFound(st, freshSessionId, now);
    }
  }

  // ---------------------------------------------------------------- routing and content shape

  /** The business line a prompt belongs to (`None` for the router). */
  function PromptGroup(p: Prompts.Prompt): Option<string> {
    match p
    case RouterPrompt => None
    case KossodoPrompt => Some("kossodo")
    case KossometPrompt => Some("kossomet")
  }

  /** The prompt and the tool group are chosen from the same routing value, and agree: the
      tools offered are those of the prompt's business line. */
  lemma PromptAndToolsAgree(company: Option<string>)
    ensures Registry.GroupSchemas(company) == Registry.GroupSchemas(PromptGroup(Prompts.SystemPrompt(company)))
  {
    assert Registry.ToolNamesForGroup(company) == Registry.ToolNamesForGroup(PromptGroup(Prompts.SystemPrompt(company)));
  }

  /** The history the model is given: one unit per stored message, in order, of role "user"
      exactly for user messages (system messages included go to "model"), holding the
      message's text. */
  lemma HistoryUnits(ms: seq<Message>)
    ensures |BuildHistory(HistoryOf(ms))| == |ms|
    ensures forall k :: 0 <= k < |ms| ==>
              && (BuildHistory(HistoryOf(ms))[k].role == UserSpeaker <==> ms[k].role == UserRole)
              && BuildHistory(HistoryOf(ms))[k].part == TextPart(ms[k].content)
  {
  }

  /** Storing the user message and dropping the last transcript entry gives back the
      conversation's earlier transcript. */
  lemma PriorHistoryAfterAdd(st: Store, conversationId: nat, message: string, now: int)
    ensures PriorHistory(Repository.AddMessage(st, conversationId, UserRole, message, now), conversationId)
              == HistoryOf(Repository.ConversationMessages(st.messages, conversationId))
  {
    var m := Message(conversationId, UserRole, message, now);
    Repository.TranscriptAfterAdd(st.messages, m, conversationId);
    var transcript := Repository.ConversationMessages(st.messages + [m], conversationId);
    assert transcript[..|transcript| - 1] == Repository.ConversationMessages(st.messages, conversationId);
  }
}

=== FILE: base.dfy ===
/**
 * The generic repository of app/db/repositories/base.py.
 *
 * A table is the sequence of its rows in insertion order; the row at index i
 * carries the autoincrement id i + 1. A record's writable attributes are a map
 * from attribute name to value, which is what `update(**kwargs)` works on.
 */
module Base {
  import opened Wrappers

  /** `get_by_id`: the row with that id, or `None` (never an exception) when there is none. */
  function GetById<R>(rows: seq<R>, id: int): (r: Option<R>)
    ensures r.Some? <==> 1 <= id <= |rows|
    ensures r.Some? ==> r.value == rows[id - 1]
  {
    if 1 <= id <= |rows| then Some(rows[id - 1]) else None
  }

  /** `create`: the table with the new row added, and the id the row received. */
  function Create<R>(rows: seq<R>, row: R): (r: (seq<R>, nat))
    ensures GetById(r.0, r.1) == Some(row)
    ensures GetById(rows, r.1).None?
    ensures forall id :: 1 <= id <= |rows| ==> GetById(r.0, id) == GetById(rows, id)
    ensures |r.0| == |rows| + 1
  {
    (rows + [row], |rows| + 1)
  }

  /** Writes a row back under its id. */
  function Put<R>(rows: seq<R>, id: nat, row: R): (r: seq<R>)
    requires 1 <= id <= |rows|
    ensures |r| == |rows|
    ensures GetById(r, id) == Some(row)
    ensures forall other :: other != id ==> GetById(r, other) == GetById(rows, other)
  {
    rows[id - 1 := row]
  }

  /** Index of the first row satisfying `p`; the query `scalar_one_or_none` runs. */
  function Find<R>(rows: seq<R>, p: R -> bool): (r: Option<nat>)
    ensures r.Some? ==> r.value < |rows| && p(rows[r.value])
    ensures r.Some? ==> forall k :: 0 <= k < r.value ==> !p(rows[k])
    ensures r.None? <==> forall k :: 0 <= k < |rows| ==> !p(rows[k])
  {
    if |rows| == 0 then None
    else if p(rows[0]) then Some(0)
    else
      match Find(rows[1..], p)
      case None => None
      case Some(k) => Some(k + 1)
  }

  /** `update(instance, **kwargs)`: every keyword naming an attribute of the record is
      assigned; keywords that are not attributes are skipped. */
  function Update<V>(rec: map<string, V>, kwargs: map<string, V>): (r: map<string, V>)
    ensures r.Keys == rec.Keys
    ensures forall k :: k in kwargs && k in rec ==> r[k] == kwargs[k]
    ensures forall k :: k in rec && k !in kwargs ==> r[k] == rec[k]
  {
    map k | k in rec :: if k in kwargs then kwargs[k] else rec[k]
  }

  /** Keywords that are not attributes have no effect: only the named attributes matter. */
  lemma UpdateIgnoresUnknownKeys<V>(rec: map<string, V>, kwargs: map<string, V>)
    ensures Update(rec, kwargs) == Update(rec, map k | k in kwargs && k in rec :: kwargs[k])
  {
  }

  /** Two successive updates equal one update with the later keywords winning. */
  lemma UpdateComposes<V>(rec: map<string, V>, first: map<string, V>, second: map<string, V>)
    ensures Update(Update(rec, first), second) == Update(rec, first + second)
  {
  }

  /** With no keywords the record is returned unchanged. */
  lemma UpdateNothing<V>(rec: map<string, V>)
    ensures Update(rec, map[]) == rec
  {
  }
}

=== FILE: gateway.dfy ===
/**
 * The LLM gateway of app/services/gemini.py, without the network: how the
 * content list sent to the model is laid out, how tool schemas are packed, and
 * the normalized response the agent reads. The generation call itself is an
 * oracle supplied by the caller (see `Agent`).
 */
module Gateway {
  import opened Wrappers
  import opened Models
  import opened Tools

  /** The provider's two content roles, "user" and "model". */
  datatype Speaker = UserSpeaker | ModelSpeaker

  /** What a function-call part carries: the call's arguments, or (in the single-call helper)
      the `data` of the result it reports. */
  datatype Payload = CallArgs(args: Args) | ResultData(data: Option<ToolData>)

  datatype Part =
    | TextPart(text: string)
    | CallPart(name: string, payload: Payload)
    | ResultPart(name: string, result: ToolResult)

  /** One content unit: a role and its part. */
  datatype Content = Content(role: Speaker, part: Part)

  /** The `{"role", "content"}` dictionaries of the stored transcript. */
  datatype HistoryMessage = HistoryMessage(role: Role, content: string)

  /** "user" for user messages; every other role, the system role included, is "model". */
  function SpeakerOf(role: Role): (s: Speaker)
    ensures s == UserSpeaker <==> role == UserRole
  {
    if role == UserRole then UserSpeaker else ModelSpeaker
  }

  /** `_build_history`: one text unit per message, same order. */
  function BuildHistory(messages: seq<HistoryMessage>): (r: seq<Content>)
    ensures |r| == |messages|
    ensures forall k :: 0 <= k < |r| ==> (r[k].role == UserSpeaker <==> messages[k].role == UserRole)
    ensures forall k :: 0 <= k < |r| ==> r[k].part == TextPart(messages[k].content)
  {
    seq(|messages|, k requires 0 <= k < |messages| => Content(SpeakerOf(messages[k].role), TextPart(messages[k].content)))
  }

  /** Building history distributes over concatenation of transcripts. */
  lemma BuildHistoryAppend(a: seq<HistoryMessage>, b: seq<HistoryMessage>)
    ensures BuildHistory(a + b) == BuildHistory(a) + BuildHistory(b)
  {
  }

  function UserText(text: string): Content {
    Content(UserSpeaker, TextPart(text))
  }

  /** The content of `generate_response`: the history, then one user unit with the message. */
  function ResponseContents(history: seq<HistoryMessage>, userMessage: string): (r: seq<Content>)
    ensures |r| == |history| + 1
    ensures r[..|history|] == BuildHistory(history)
    ensures r[|history|] == UserText(userMessage)
  {
    BuildHistory(history) + [UserText(userMessage)]
  }

  /** The content of `generate_response_with_tool_result`: history, the user message, a model
      function-call unit and the user function-response unit that answers it. */
  function ToolResultContents(history: seq<HistoryMessage>, userMessage: string, name: string, result: ToolResult): (r: seq<Content>)
    ensures |r| == |history| + 3
    ensures r[..|history| + 1] == ResponseContents(history, userMessage)
    ensures r[|history| + 1] == Content(ModelSpeaker, CallPart(name, ResultData(result.data)))
    ensures r[|history| + 2] == Content(UserSpeaker, ResultPart(name, result))
  {
    ResponseContents(history, userMessage)
      + [Content(ModelSpeaker, CallPart(name, ResultData(result.data))), Content(UserSpeaker, ResultPart(name, result))]
  }

  /** `build_initial_contents` (not part of this model's source files): the same layout as
      `generate_response`. */
  function BuildInitialContents(history: seq<HistoryMessage>, message: string): (r: seq<Content>)
    ensures r == ResponseContents(history, message)
  {
    BuildHistory(history) + [UserText(message)]
  }

  /** One call/result exchange: the model's call unit immediately followed by the user-role
      unit holding the tool's result. The call unit carries the call's arguments, which the
      agent passes to `append_function_call_and_result`, not the result's data that
      `ToolResultContents` puts there. */
  function Exchange(name: string, args: Args, result: ToolResult): seq<Content> {
    [Content(ModelSpeaker, CallPart(name, CallArgs(args))), Content(UserSpeaker, ResultPart(name, result))]
  }

  /** `append_function_call_and_result` (not part of this model's source files): the content
      list grows by exactly one exchange and keeps its prefix. */
  function AppendCallAndResult(contents: seq<Content>, name: string, args: Args, result: ToolResult): (r: seq<Content>)
    ensures |r| == |contents| + 2
    ensures r[..|contents|] == contents
    ensures r[|contents|..] == Exchange(name, args, result)
  {
    contents + Exchange(name, args, result)
  }

  /** A tail made of whole exchanges: a model call unit followed by the user result unit of
      the same tool, then more exchanges. */
  ghost predicate Alternates(tail: seq<Content>)
    decreases |tail|
  {
    |tail| == 0 ||
    (&& |tail| >= 2
     && tail[0].role == ModelSpeaker && tail[0].part.CallPart?
     && tail[1].role == UserSpeaker && tail[1].part.ResultPart? && tail[1].part.name == tail[0].part.name
     && Alternates(tail[2..]))
  }

  /** Appending an exchange keeps the tail made of whole exchanges. */
  lemma {:induction false} AppendKeepsAlternation(prefix: seq<Content>, tail: seq<Content>, name: string, args: Args, result: ToolResult)
    requires Alternates(tail)
    ensures AppendCallAndResult(prefix + tail, name, args, result) == prefix + (tail + Exchange(name, args, result))
    ensures Alternates(tail + Exchange(name, args, result))
    decreases |tail|
  {
    var ex := Exchange(name, args, result);
    if |tail| == 0 {
      assert tail + ex == ex;
      assert ex[2..] == [];
    } else {
      AppendKeepsAlternation(prefix, tail[2..], name, args, result);
      assert (tail + ex)[2..] == tail[2..] + ex;
    }
  }

  /** A provider function declaration built from a tool schema. */
  datatype FunctionDeclaration = FunctionDeclaration(name: string)

  /** A provider `Tool` holding declarations. */
  datatype GeminiTool = GeminiTool(declarations: seq<FunctionDeclaration>)

  /** `_create_tools`: nothing for no schemas, otherwise one tool with one declaration per
      schema, in order. */
  function CreateTools(schemas: seq<ToolSchema>): (r: Option<seq<GeminiTool>>)
    ensures r.None? <==> |schemas| == 0
    ensures r.Some? ==> |r.value| == 1 && |r.value[0].declarations| == |schemas|
    ensures r.Some? ==> forall k :: 0 <= k < |schemas| ==> r.value[0].declarations[k].name == schemas[k].name
  {
    if |schemas| == 0 then None
    else Some([GeminiTool(seq(|schemas|, k requires 0 <= k < |schemas| => FunctionDeclaration(schemas[k].name)))])
  }

  /** One function call requested by the model. */
  datatype Call = Call(name: string, args: Args)

  /** The normalized generation result the agent reads: plain text, or a batch of calls with
      any text the model produced before them. */
  datatype Response =
    | TextReply(content: string)
    | CallsReply(calls: seq<Call>, textBefore: string)
}

=== FILE: models.dfy ===
/**
 * The records of app/models/database.py and the store that holds them.
 *
 * Ids are positions (see `Base`): conversation `id` is `conversations[id - 1]`.
 * Contact and inquiry rows refer to their conversation by `conversationId`.
 * Timestamps are integers supplied by the caller (the clock is a parameter).
 */
module Models {
  import opened Wrappers

  /** `ConversationStatus`. */
  datatype Status = Active | Completed | Expired | Transferred

  /** The value stored in the `status` column. */
  function StatusName(s: Status): (name: string)
    ensures name != ""
  {
    match s
    case Active => "active"
    case Completed => "completed"
    case Expired => "expired"
    case Transferred => "transferred"
  }

  /** `MessageRole`. */
  datatype Role = UserRole | AssistantRole | SystemRole

  /** A `conversations` row (its id is its position). */
  datatype Conversation = Conversation(
    sessionId: string,
    company: Option<string>,
    status: Status,
    createdAt: int,
    updatedAt: int)

  /** A `messages` row. */
  datatype Message = Message(conversationId: nat, role: Role, content: string, createdAt: int)

  /** A `contacts` row; every contact field is nullable. */
  datatype Contact = Contact(
    conversationId: nat,
    name: Option<string>,
    phone: Option<string>,
    email: Option<string>,
    companyName: Option<string>,
    rucDni: Option<string>)

  /** An `inquiries` row. */
  datatype Inquiry = Inquiry(conversationId: nat, description: string)

  /** The four tables. */
  datatype Store = Store(
    conversations: seq<Conversation>,
    messages: seq<Message>,
    contacts: seq<Contact>,
    inquiries: seq<Inquiry>)

  /** Why a turn aborts (the exceptions the core lets escape). */
  datatype Failure =
    | UnknownTool(name: string)          // registry lookup of an unregistered name
    | BadArguments(tool: string)         // the model's arguments do not bind to `execute`
    | ProviderUnavailable                // the generation call did not return
    | SessionConflict(sessionId: string) // the unique index on session_id rejected an insert
    | ConversationVanished               // a reload by session id found nothing

  /** The unique index on `conversations.session_id`. */
  ghost predicate UniqueSessions(cs: seq<Conversation>) {
    forall i, j :: 0 <= i < j < |cs| ==> cs[i].sessionId != cs[j].sessionId
  }

  /** The unique constraint on `contacts.conversation_id`. */
  ghost predicate OneContactEach(cs: seq<Contact>) {
    forall i, j :: 0 <= i < j < |cs| ==> cs[i].conversationId != cs[j].conversationId
  }

  /** The unique constraint on `inquiries.conversation_id`. */
  ghost predicate OneInquiryEach(qs: seq<Inquiry>) {
    forall i, j :: 0 <= i < j < |qs| ==> qs[i].conversationId != qs[j].conversationId
  }

  /** Rows were inserted with a clock that never goes back. */
  ghost predicate Chronological(ms: seq<Message>) {
    forall i, j :: 0 <= i < j < |ms| ==> ms[i].createdAt <= ms[j].createdAt
  }

  /** The database constraints and the monotone clock. */
  ghost predicate Valid(st: Store) {
    && UniqueSessions(st.conversations)
    && OneContactEach(st.contacts)
    && OneInquiryEach(st.inquiries)
    && Chronological(st.messages)
  }

  /** `now` is not earlier than any stored message. */
  ghost predicate NotBefore(st: Store, now: int) {
    forall i :: 0 <= i < |st.messages| ==> st.messages[i].createdAt <= now
  }

  /** Same rows with the same session tokens (the conversation table's shape). */
  ghost predicate SameSessions(a: seq<Conversation>, b: seq<Conversation>) {
    |a| == |b| && forall k :: 0 <= k < |a| ==> a[k].sessionId == b[k].sessionId
  }

  /** Same rows with the same routing values. */
  ghost predicate SameCompanies(a: seq<Conversation>, b: seq<Conversation>) {
    |a| == |b| && forall k :: 0 <= k < |a| ==> a[k].company == b[k].company
  }
}

=== FILE: process.dfy ===
/**
 * `process_message` of app/core/agent.py, step by step: the calls of one model
 * response, the tool-call loop, the retry with the contact hint, the fallback
 * chain and the whole turn. Every generation call is `Agent.Generate`, which
 * consumes one response of the turn's oracle and records the call.
 */
module Process {
  import opened Wrappers
  import opened Text
  import opened Models
  import Repository
  import opened Tools
  import Registry
  import Prompts
  import opened Gateway
  import opened Agent
  import opened AgentProofs

  // ---------------------------------------------------------------- turn invariants

  /** The turn agrees with the store: its token finds its conversation, and its company,
      prompt and tool schemas are those of that conversation's routing value. */
  ghost predicate Routed(t: Turn) {
    && Repository.GetBySessionId(t.store, t.sessionId) == Some(t.conversationId)
    && t.company == t.store.conversations[t.conversationId - 1].company
    && t.prompt == Prompts.SystemPrompt(t.company)
    && t.tools == Registry.GroupSchemas(t.company)
  }

  /** The content list is the initial list followed by whole call/result exchanges. */
  ghost predicate Shaped(contents: seq<Content>, initial: seq<Content>) {
    && |initial| <= |contents|
    && contents[..|initial|] == initial
    && Alternates(contents[|initial|..])
  }

  /** Running tools changes the store, the content list, the last tool and the routing of the
      turn, and nothing else. */
  ghost predicate Framed(t: Turn, u: Turn) {
    && u.now == t.now && u.conversationId == t.conversationId && u.sessionId == t.sessionId
    && u.oracle == t.oracle && u.generations == t.generations && u.collected == t.collected
  }

  ghost predicate SameRouting(t: Turn, u: Turn) {
    u.company == t.company && u.prompt == t.prompt && u.tools == t.tools
  }

  /** What tools leave of the store: the transcript, the tokens and the constraints. */
  ghost predicate KeepsStore(t: Turn, u: Turn) {
    && u.store.messages == t.store.messages
    && SameSessions(t.store.conversations, u.store.conversations)
    && (Valid(t.store) ==> Valid(u.store))
  }

  lemma KeepsStoreTrans(t: Turn, u: Turn, v: Turn)
    requires KeepsStore(t, u) && KeepsStore(u, v)
    ensures KeepsStore(t, v)
  {
  }

  /** The units the first `|results|` calls of a batch append: one call unit and one result
      unit per call, in order. */
  function Exchanges(calls: seq<Call>, results: seq<ToolResult>): (r: seq<Content>)
    requires |results| <= |calls|
    ensures |r| == 2 * |results|
    decreases |results|
  {
    if |results| == 0 then []
    else
      var n := |results| - 1;
      Exchanges(calls, results[..n]) + Exchange(calls[n].name, calls[n].args, results[n])
  }

  /** By position: unit `2k` is the call unit of call `k`, unit `2k + 1` holds its result. */
  lemma {:induction false} ExchangesAt(calls: seq<Call>, results: seq<ToolResult>, k: nat)
    requires |results| <= |calls| && k < |results|
    ensures Exchanges(calls, results)[2 * k] == Content(ModelSpeaker, CallPart(calls[k].name, CallArgs(calls[k].args)))
    ensures Exchanges(calls, results)[2 * k + 1] == Content(UserSpeaker, ResultPart(calls[k].name, results[k]))
    decreases |results|
  {
    var n := |results| - 1;
    if k < n {
      ExchangesAt(calls, results[..n], k);
    }
  }

  lemma AppendAssoc(a: seq<Content>, b: seq<Content>, c: seq<Content>)
    ensures (a + b) + c == a + (b + c)
  {
  }

  /** The exchange of one more call is appended at the end. */
  lemma ExchangesSnoc(calls: seq<Call>, results: seq<ToolResult>, result: ToolResult)
    requires |results| < |calls|
    ensures Exchanges(calls, results + [result])
              == Exchanges(calls, results) + Exchange(calls[|results|].name, calls[|results|].args, result)
  {
    assert (results + [result])[..|results|] == results;
  }

  /** Whole exchanges keep a content list made of the initial list and exchanges. */
  lemma {:induction false} ExchangesKeepShape(contents: seq<Content>, initial: seq<Content>, calls: seq<Call>, results: seq<ToolResult>)
    requires |results| <= |calls| && Shaped(contents, initial)
    ensures Shaped(contents + Exchanges(calls, results), initial)
    decreases |results|
  {
    if |results| > 0 {
      var n := |results| - 1;
      ExchangesKeepShape(contents, initial, calls, results[..n]);
      var c := contents + Exchanges(calls, results[..n]);
      var ex := Exchange(calls[n].name, calls[n].args, results[n]);
      var tail := c[|initial|..];
      assert c == initial + tail;
      AppendKeepsAlternation(initial, tail, calls[n].name, calls[n].args, results[n]);
      AppendAssoc(contents, Exchanges(calls, results[..n]), ex);
      assert (c + ex)[..|initial|] == initial;
      assert (c + ex)[|initial|..] == tail + ex;
    } else {
      assert contents + Exchanges(calls, results) == contents;
    }
  }

  /** A call the registry can run: a registered name whose arguments bind. */
  predicate Callable(call: Call) {
    call.name in Registry.Registered && Registry.Binds(call.name, call.args)
  }

  /** The first `n` calls dispatched in order, each on the store the previous one left: the
      final store and the results, or the failure of the first call that cannot run. */
  function RunAll(st: Store, conversationId: nat, calls: seq<Call>, n: nat, now: int): (r: Result<(Store, seq<ToolResult>), Failure>)
    requires n <= |calls|
    ensures r.Ok? <==> forall k :: 0 <= k < n ==> Callable(calls[k])
    ensures r.Ok? ==> |r.value.1| == n
    decreases n
  {
    if n == 0 then Ok((st, []))
    else
      var prev :- RunAll(st, conversationId, calls, n - 1, now);
      var d :- Registry.Dispatch(prev.0, conversationId, calls[n - 1].name, calls[n - 1].args, now);
      Ok((d.0, prev.1 + [d.1]))
  }

  /** `u` is `t` after the calls were dispatched in order: its store is the one they leave,
      its contents grew by one exchange per call holding their results, and the last call is
      remembered. */
  ghost predicate RanCalls(t: Turn, u: Turn, calls: seq<Call>) {
    && RunAll(t.store, t.conversationId, calls, |calls|, t.now).Ok?
    && u.store == RunAll(t.store, t.conversationId, calls, |calls|, t.now).value.0
    && u.contents == t.contents + Exchanges(calls, RunAll(t.store, t.conversationId, calls, |calls|, t.now).value.1)
    && u.lastTool == LastTool(t.lastTool, calls)
  }

  /** The exception `_execute_tool` lets through for a call that is not `Callable`. */
  function CallFailure(call: Call): Failure {
    if call.name in Registry.Registered then BadArguments(call.name) else UnknownTool(call.name)
  }

  // ---------------------------------------------------------------- running calls

  /** `_execute_tool`: the registry's dispatch, with what the rest of the turn relies on. */
  method ExecuteTool(st: Store, conversationId: nat, call: Call, now: int) returns (r: Result<(Store, ToolResult), Failure>)
    ensures r == Registry.Dispatch(st, conversationId, call.name, call.args, now)
    ensures r.Ok? <==> Callable(call)
    ensures r.Err? ==> r.error == CallFailure(call)
    ensures r.Ok? ==> && SameSessions(st.conversations, r.value.0.conversations)
                      && r.value.0.messages == st.messages
                      && (Valid(st) ==> Valid(r.value.0))
    ensures r.Ok? && call.name == Registry.SetCompanyName ==>
              (r.value.1.success <==> NormalizeCompany(Arg(call.args, "company").value) in Companies
                                      && 1 <= conversationId <= |st.conversations|)
    ensures r.Ok? && call.name == Registry.SetCompanyName && r.value.1.success ==>
              r.value.0.conversations[conversationId - 1].company == Some(NormalizeCompany(Arg(call.args, "company").value))
    ensures r.Ok? && !(call.name == Registry.SetCompanyName && r.value.1.success) ==>
              SameCompanies(st.conversations, r.value.0.conversations)
  {
    r := Registry.Dispatch(st, conversationId, call.name, call.args, now);
    Registry.DispatchKeepsSessions(st, conversationId, call.name, call.args, now);
    Registry.DispatchRouting(st, conversationId, call.name, call.args, now);
  }

  /** `_refresh_conversation` after `set_company` succeeded: the token still finds the
      conversation, so the reload cannot fail, and the turn takes its routing value. */
  method Follow(u: Turn) returns (v: Turn)
    requires Repository.GetBySessionId(u.store, u.sessionId) == Some(u.conversationId)
    ensures Routed(v)
    ensures v == u.(company := v.company, prompt := v.prompt, tools := v.tools)
  {
    var r := Reroute(u);
    v := r.value;
  }

  /** One call of a batch (`_execute_tool` and `append_function_call_and_result`), with the
      result it appended: in the main loop a successful `set_company` makes the turn follow the
      new routing value; anywhere else, and after any other call, routing is left alone. */
  method RunCall(t: Turn, call: Call, reroute: bool) returns (r: Result<(Turn, ToolResult), Failure>)
    requires reroute ==> Routed(t)
    ensures r.Ok? <==> Callable(call)
    ensures r.Err? ==> r.error == CallFailure(call)
    ensures r.Ok? ==> Registry.Dispatch(t.store, t.conversationId, call.name, call.args, t.now) == Ok((r.value.0.store, r.value.1))
    ensures r.Ok? ==> && Framed(t, r.value.0) && KeepsStore(t, r.value.0)
                      && r.value.0.contents == t.contents + Exchange(call.name, call.args, r.value.1)
                      && r.value.0.lastTool == Some(call.name)
    ensures r.Ok? && !(call.name == Registry.SetCompanyName && r.value.1.success) ==>
              SameCompanies(t.store.conversations, r.value.0.store.conversations) && SameRouting(t, r.value.0)
    ensures r.Ok? && reroute ==> Routed(r.value.0)
    ensures r.Ok? && !reroute ==> SameRouting(t, r.value.0)
  {
    var d := ExecuteTool(t.store, t.conversationId, call, t.now);
    if d.Err? {
      return Err(d.error);
    }
    var (st, result) := d.value;
    var u := t.(store := st, contents := AppendCallAndResult(t.contents, call.name, call.args, result),
                lastTool := Some(call.name));
    if reroute {
      LookupSameSessions(t.store, st, t.sessionId);
    }
    if reroute && call.name == Registry.SetCompanyName && result.success {
      u := Follow(u);
    }
    r := Ok((u, result));
  }

  /** What the first `|results|` calls of a batch leave behind: the store and results of
      dispatching them in order, one exchange each appended in order, the last one
      remembered, and only the store, the content list and the routing changed. */
  ghost predicate Batched(t: Turn, u: Turn, calls: seq<Call>, results: seq<ToolResult>, reroute: bool)
    requires |results| <= |calls|
  {
    && RunAll(t.store, t.conversationId, calls, |results|, t.now) == Ok((u.store, results))
    && Framed(t, u) && KeepsStore(t, u)
    && u.contents == t.contents + Exchanges(calls, results)
    && u.lastTool == (if |results| == 0 then t.lastTool else Some(calls[|results| - 1].name))
    && (reroute ==> Routed(u))
    && (!reroute ==> SameRouting(t, u))
  }

  lemma BatchStart(t: Turn, calls: seq<Call>, reroute: bool)
    requires reroute ==> Routed(t)
    ensures Batched(t, t, calls, [], reroute)
  {
    assert t.contents + Exchanges(calls, []) == t.contents;
  }

  /** One more call keeps the batch's account. */
  lemma BatchStep(t: Turn, u: Turn, v: Turn, calls: seq<Call>, results: seq<ToolResult>, result: ToolResult, reroute: bool)
    requires |results| < |calls|
    requires Batched(t, u, calls, results, reroute)
    requires Registry.Dispatch(u.store, u.conversationId, calls[|results|].name, calls[|results|].args, u.now) == Ok((v.store, result))
    requires Framed(u, v) && KeepsStore(u, v)
    requires v.contents == u.contents + Exchange(calls[|results|].name, calls[|results|].args, result)
    requires v.lastTool == Some(calls[|results|].name)
    requires reroute ==> Routed(v)
    requires !reroute ==> SameRouting(u, v)
    ensures Batched(t, v, calls, results + [result], reroute)
  {
    ExchangesSnoc(calls, results, result);
    AppendAssoc(t.contents, Exchanges(calls, results), Exchange(calls[|results|].name, calls[|results|].args, result));
    KeepsStoreTrans(t, u, v);
  }

  /** `last_tool_name` after a batch: the name of its last call, or the earlier value when the
      batch is empty. */
  function LastTool(prev: Option<string>, calls: seq<Call>): Option<string> {
    if |calls| == 0 then prev else Some(calls[|calls| - 1].name)
  }

  /** A whole batch ran: the store and results are those of dispatching every call in order,
      one exchange per call was appended in order, the last call is remembered, and only the
      store, the content list and the routing changed. */
  ghost predicate Ran(t: Turn, u: Turn, calls: seq<Call>, results: seq<ToolResult>, reroute: bool) {
    && RunAll(t.store, t.conversationId, calls, |calls|, t.now) == Ok((u.store, results))
    && |results| == |calls|
    && Framed(t, u) && KeepsStore(t, u)
    && u.contents == t.contents + Exchanges(calls, results)
    && u.lastTool == LastTool(t.lastTool, calls)
    && (reroute ==> Routed(u))
    && (!reroute ==> SameRouting(t, u))
  }

  lemma BatchDone(t: Turn, u: Turn, calls: seq<Call>, results: seq<ToolResult>, reroute: bool)
    requires |results| == |calls| && Batched(t, u, calls, results, reroute)
    ensures Ran(t, u, calls, results, reroute)
  {
  }

  /** The inner `for` loop over a response's calls: the calls run in order, each appending its
      exchange, and the batch stops at the first call the registry cannot run, with that call's
      exception. */
  method RunBatch(t: Turn, calls: seq<Call>, reroute: bool) returns (r: Result<(Turn, seq<ToolResult>), Failure>)
    requires reroute ==> Routed(t)
    ensures r.Ok? <==> forall k :: 0 <= k < |calls| ==> Callable(calls[k])
    ensures r.Err? ==> exists k :: 0 <= k < |calls| && !Callable(calls[k]) && r.error == CallFailure(calls[k])
                                   && forall j :: 0 <= j < k ==> Callable(calls[j])
    ensures r.Ok? ==> Ran(t, r.value.0, calls, r.value.1, reroute)
  {
    var u := t;
    var results: seq<ToolResult> := [];
    BatchStart(t, calls, reroute);
    while |results| < |calls|
      invariant |results| <= |calls| && Batched(t, u, calls, results, reroute)
    {
      var next := RunCall(u, calls[|results|], reroute);
      if next.Err? {
        return Err(next.error);
      }
      var (v, result) := next.value;
      BatchStep(t, u, v, calls, results, result, reroute);
      u, results := v, results + [result];
    }
    BatchDone(t, u, calls, results, reroute);
    return Ok((u, results));
  }

  // ---------------------------------------------------------------- the tool-call loop

  /** The text a response produced before its calls. */
  function TextOf(r: Response): string {
    if r.CallsReply? then r.textBefore else ""
  }

  /** The calls a response asks for: none for a text reply. */
  function CallsOf(r: Response): seq<Call> {
    if r.CallsReply? then r.calls else []
  }

  /** The `k`-th response the loop sees: the first one, then the remaining oracle in order. */
  function NthResponse(first: Response, rest: seq<Response>, k: nat): Response
    requires k <= |rest|
  {
    if k == 0 then first else rest[k - 1]
  }

  /** `collected_text` after `n` rounds: the text before the calls of each of the first `n`
      responses, in order. */
  function Collected(first: Response, rest: seq<Response>, n: nat): (text: string)
    requires n <= |rest| + 1
    ensures (forall k :: 0 <= k < n ==> TextOf(NthResponse(first, rest, k)) == "") ==> text == ""
  {
    if n == 0 then "" else Collected(first, rest, n - 1) + TextOf(NthResponse(first, rest, n - 1))
  }

  /** A generation made inside the loop: on the initial contents plus whole exchanges (so never
      with the contact hint), offering exactly the tools of its prompt's business line. */
  ghost predicate LoopGeneration(g: Generation, initial: seq<Content>) {
    && Shaped(g.contents, initial)
    && g.tools == Registry.GroupSchemas(PromptGroup(g.prompt))
  }

  /** What the loop keeps of the routing: the turn still agrees with the store, and its
      contents are still the initial list followed by exchanges. */
  ghost predicate KeepsRouting(t: Turn, u: Turn, initial: seq<Content>) {
    && Routed(u) && Shaped(u.contents, initial)
    && u.sessionId == t.sessionId && u.conversationId == t.conversationId && u.now == t.now
  }

  /** `n` rounds after `t`: `n` responses consumed and `n` loop generations recorded. */
  ghost predicate Generated(t: Turn, u: Turn, n: nat, initial: seq<Content>) {
    && n <= |t.oracle| && u.oracle == t.oracle[n..]
    && |u.generations| == |t.generations| + n
    && u.generations[..|t.generations|] == t.generations
    && (forall k :: |t.generations| <= k < |u.generations| ==> LoopGeneration(u.generations[k], initial))
  }

  /** The loop's variables: the turn, the response in hand, and `iteration`. */
  datatype LoopState = LoopState(turn: Turn, response: Response, iterations: nat)

  /** The text side of the loop after `i` rounds: the rounds ran on call responses, the current
      response is the next one in line, and the collected text and last tool follow the
      consumed responses. */
  ghost predicate LoopText(t: Turn, response: Response, u: Turn, resp: Response, i: nat) {
    && i <= |t.oracle|
    && resp == NthResponse(response, t.oracle, i)
    && (forall k :: 0 <= k < i ==> NthResponse(response, t.oracle, k).CallsReply?)
    && u.collected == t.collected + Collected(response, t.oracle, i)
    && (u.lastTool.None? <==>
          t.lastTool.None? && forall k :: 0 <= k < i ==> |NthResponse(response, t.oracle, k).calls| == 0)
  }

  /** The loop's account of state `s`, reached from `t` with first response `response`. */
  ghost predicate Looped(t: Turn, response: Response, s: LoopState, initial: seq<Content>) {
    && s.iterations <= MaxIterations
    && LoopText(t, response, s.turn, s.response, s.iterations)
    && KeepsRouting(t, s.turn, initial) && KeepsStore(t, s.turn) && Generated(t, s.turn, s.iterations, initial)
  }

  lemma LoopStart(t: Turn, response: Response, initial: seq<Content>)
    requires Routed(t) && Shaped(t.contents, initial)
    ensures Looped(t, response, LoopState(t, response, 0), initial)
  {
    assert t.oracle[0..] == t.oracle;
  }

  lemma TextStep(t: Turn, response: Response, u: Turn, resp: Response, i: nat, v: Turn, next: Response)
    requires LoopText(t, response, u, resp, i) && resp.CallsReply?
    requires i < |t.oracle| && next == t.oracle[i]
    requires v.collected == u.collected + resp.textBefore
    requires v.lastTool == LastTool(u.lastTool, resp.calls)
    ensures LoopText(t, response, v, next, i + 1)
  {
  }

  lemma GeneratedStep(t: Turn, u: Turn, v: Turn, i: nat, initial: seq<Content>, gen: Generation)
    requires Generated(t, u, i, initial) && |u.oracle| > 0
    requires v.oracle == u.oracle[1..] && v.generations == u.generations + [gen]
    requires LoopGeneration(gen, initial)
    ensures Generated(t, v, i + 1, initial)
  {
    assert t.oracle[i..][1..] == t.oracle[i + 1..];
    assert v.generations[..|t.generations|] == u.generations[..|t.generations|];
  }

  /** Routing and shape survive a batch run with rerouting followed by a generation. */
  lemma RoutingStep(t: Turn, u: Turn, b: Turn, g: Turn, initial: seq<Content>, calls: seq<Call>, results: seq<ToolResult>)
    requires KeepsRouting(t, u, initial) && |results| <= |calls|
    requires Routed(b) && Framed(u, b) && b.contents == u.contents + Exchanges(calls, results)
    requires g.store == b.store && g.now == b.now && g.sessionId == b.sessionId && g.conversationId == b.conversationId
    requires g.company == b.company && g.prompt == b.prompt && g.tools == b.tools && g.contents == b.contents
    ensures KeepsRouting(t, g, initial)
    ensures LoopGeneration(Generation(b.prompt, b.contents, b.tools), initial)
  {
    ExchangesKeepShape(u.contents, initial, calls, results);
    PromptAndToolsAgree(b.company);
  }

  /** One round: the batch of `resp` took `u` to `b`, and `g` is `b` after one generation on
      its contents, with the text before the calls collected. */
  lemma LoopStep(t: Turn, response: Response, s: LoopState, initial: seq<Content>,
                 b: Turn, results: seq<ToolResult>, g: Turn)
    requires Looped(t, response, s, initial)
    requires s.response.CallsReply? && s.iterations < MaxIterations
    requires Ran(s.turn, b, s.response.calls, results, true) && |b.oracle| > 0
    requires g == b.(oracle := b.oracle[1..], generations := b.generations + [Generation(b.prompt, b.contents, b.tools)],
                     collected := b.collected + s.response.textBefore)
    ensures Looped(t, response, LoopState(g, b.oracle[0], s.iterations + 1), initial)
  {
    RoutingStep(t, s.turn, b, g, initial, s.response.calls, results);
    KeepsStoreTrans(t, s.turn, b);
    GeneratedStep(t, s.turn, g, s.iterations, initial, Generation(b.prompt, b.contents, b.tools));
    TextStep(t, response, s.turn, s.response, s.iterations, g, b.oracle[0]);
  }

  // ---------------------------------------------------------------- what the rounds did

  /** The stores the loop's rounds pass through: the one it starts on, then the one the batch
      of each of the first `n` responses leaves, each batch dispatched in order on the store
      the previous one left. */
  function RoundStores(st: Store, conversationId: nat, first: Response, rest: seq<Response>, n: nat, now: int)
    : (r: Result<seq<Store>, Failure>)
    requires n <= |rest| + 1
    ensures r.Ok? ==> |r.value| == n + 1 && r.value[0] == st
  {
    if n == 0 then Ok([st])
    else
      var prev :- RoundStores(st, conversationId, first, rest, n - 1, now);
      var calls := CallsOf(NthResponse(first, rest, n - 1));
      var b :- RunAll(prev[n - 1], conversationId, calls, |calls|, now);
      Ok(prev + [b.0])
  }

  /** The content lists the loop's rounds pass through: its initial contents, then, round by
      round, the previous list followed by one exchange per call of that round's batch,
      holding the results of dispatching it on the store the earlier rounds left. */
  function RoundContents(st: Store, conversationId: nat, first: Response, rest: seq<Response>, n: nat, now: int,
                         initial: seq<Content>): (r: Result<seq<seq<Content>>, Failure>)
    requires n <= |rest| + 1
    ensures r.Ok? ==> |r.value| == n + 1 && r.value[0] == initial
  {
    if n == 0 then Ok([initial])
    else
      var prev :- RoundContents(st, conversationId, first, rest, n - 1, now, initial);
      var stores :- RoundStores(st, conversationId, first, rest, n - 1, now);
      var calls := CallsOf(NthResponse(first, rest, n - 1));
      var b :- RunAll(stores[n - 1], conversationId, calls, |calls|, now);
      Ok(prev + [prev[n - 1] + Exchanges(calls, b.1)])
  }

  /** The routing value conversation `id` holds in `st` (none when there is no such row). */
  function CompanyIn(st: Store, id: nat): Option<string> {
    if 1 <= id <= |st.conversations| then st.conversations[id - 1].company else None
  }

  /** `last_tool_name` after the batches of the first `n` responses the loop sees: the last
      call of the last batch that had one; unset exactly when it was unset and no call ran. */
  function LastToolAfter(prev: Option<string>, first: Response, rest: seq<Response>, n: nat): (r: Option<string>)
    requires n <= |rest| + 1
    ensures r.None? <==> prev.None? && forall k :: 0 <= k < n ==> |CallsOf(NthResponse(first, rest, k))| == 0
  {
    if n == 0 then prev else LastTool(LastToolAfter(prev, first, rest, n - 1), CallsOf(NthResponse(first, rest, n - 1)))
  }

  /** The generation of round `j` (the `j`-th after `before` earlier ones) was made with the
      prompt and tools of the routing value the conversation held in `stores[j + 1]`, the store
      that round's batch left. */
  ghost predicate RoundsRouted(gens: seq<Generation>, before: nat, stores: seq<Store>, conversationId: nat) {
    && before <= |gens| && |gens| - before < |stores|
    && forall k :: before <= k < |gens| ==>
         && gens[k].prompt == Prompts.SystemPrompt(CompanyIn(stores[k - before + 1], conversationId))
         && gens[k].tools == Registry.GroupSchemas(CompanyIn(stores[k - before + 1], conversationId))
  }

  /** The generation of round `j` (the `j`-th after `before` earlier ones) was made on
      `contents[j + 1]`, the content list after that round's batch. */
  ghost predicate RoundsShown(gens: seq<Generation>, before: nat, contents: seq<seq<Content>>) {
    && before <= |gens| && |gens| - before < |contents|
    && forall k :: before <= k < |gens| ==> gens[k].contents == contents[k - before + 1]
  }

  /** What the rounds up to state `s` did, from `t` with first response `response`: the turn's
      store and contents are the last of those the batches of the consumed responses pass
      through, the last tool is the last call among them, and each round's generation was made
      on the contents and with the routing its batch left. */
  ghost predicate Traced(t: Turn, response: Response, s: LoopState) {
    && s.iterations <= |t.oracle|
    && RoundStores(t.store, t.conversationId, response, t.oracle, s.iterations, t.now).Ok?
    && s.turn.store == RoundStores(t.store, t.conversationId, response, t.oracle, s.iterations, t.now).value[s.iterations]
    && s.turn.lastTool == LastToolAfter(t.lastTool, response, t.oracle, s.iterations)
    && |s.turn.generations| == |t.generations| + s.iterations
    && RoundsRouted(s.turn.generations, |t.generations|,
                    RoundStores(t.store, t.conversationId, response, t.oracle, s.iterations, t.now).value, t.conversationId)
    && RoundContents(t.store, t.conversationId, response, t.oracle, s.iterations, t.now, t.contents).Ok?
    && s.turn.contents == RoundContents(t.store, t.conversationId, response, t.oracle, s.iterations, t.now, t.contents).value[s.iterations]
    && RoundsShown(s.turn.generations, |t.generations|,
                   RoundContents(t.store, t.conversationId, response, t.oracle, s.iterations, t.now, t.contents).value)
  }

  lemma TraceStart(t: Turn, response: Response)
    ensures Traced(t, response, LoopState(t, response, 0))
  {
  }

  /** One more generation, made with the routing of one more store, keeps the account. */
  lemma RoutedStep(gens: seq<Generation>, before: nat, stores: seq<Store>, conversationId: nat, st: Store, gen: Generation)
    requires RoundsRouted(gens, before, stores, conversationId) && |gens| - before + 1 == |stores|
    requires gen.prompt == Prompts.SystemPrompt(CompanyIn(st, conversationId))
    requires gen.tools == Registry.GroupSchemas(CompanyIn(st, conversationId))
    ensures RoundsRouted(gens + [gen], before, stores + [st], conversationId)
  {
    var g := gens + [gen];
    var ss := stores + [st];
    forall k | before <= k < |g|
      ensures g[k].prompt == Prompts.SystemPrompt(CompanyIn(ss[k - before + 1], conversationId))
      ensures g[k].tools == Registry.GroupSchemas(CompanyIn(ss[k - before + 1], conversationId))
    {
      if k < |gens| {
        assert g[k] == gens[k] && ss[k - before + 1] == stores[k - before + 1];
      } else {
        assert g[k] == gen && ss[k - before + 1] == st;
      }
    }
  }

  /** `Traced` from its parts, with the stores named. */
  lemma TracedOf(t: Turn, response: Response, s: LoopState, stores: seq<Store>, contents: seq<seq<Content>>)
    requires s.iterations <= |t.oracle|
    requires RoundStores(t.store, t.conversationId, response, t.oracle, s.iterations, t.now) == Ok(stores)
    requires s.turn.store == stores[s.iterations]
    requires s.turn.lastTool == LastToolAfter(t.lastTool, response, t.oracle, s.iterations)
    requires |s.turn.generations| == |t.generations| + s.iterations
    requires RoundsRouted(s.turn.generations, |t.generations|, stores, t.conversationId)
    requires RoundContents(t.store, t.conversationId, response, t.oracle, s.iterations, t.now, t.contents) == Ok(contents)
    requires s.turn.contents == contents[s.iterations]
    requires RoundsShown(s.turn.generations, |t.generations|, contents)
    ensures Traced(t, response, s)
  {
  }

  /** The stores after one more round are those before it and the one its batch leaves. */
  lemma StoresStep(st: Store, conversationId: nat, first: Response, rest: seq<Response>, i: nat, now: int,
                   stores: seq<Store>, b: Store, results: seq<ToolResult>)
    requires i < |rest| + 1 && RoundStores(st, conversationId, first, rest, i, now) == Ok(stores)
    requires var calls := CallsOf(NthResponse(first, rest, i)); RunAll(stores[i], conversationId, calls, |calls|, now) == Ok((b, results))
    ensures RoundStores(st, conversationId, first, rest, i + 1, now) == Ok(stores + [b])
  {
  }

  /** One more round adds the content list its batch's exchanges extend the last one to. */
  lemma ContentsStep(st: Store, conversationId: nat, first: Response, rest: seq<Response>, i: nat, now: int,
                     initial: seq<Content>, stores: seq<Store>, contents: seq<seq<Content>>, calls: seq<Call>,
                     b: Store, results: seq<ToolResult>)
    requires i < |rest| + 1 && RoundStores(st, conversationId, first, rest, i, now) == Ok(stores)
    requires RoundContents(st, conversationId, first, rest, i, now, initial) == Ok(contents)
    requires calls == CallsOf(NthResponse(first, rest, i))
    requires RunAll(stores[i], conversationId, calls, |calls|, now) == Ok((b, results))
    ensures RoundContents(st, conversationId, first, rest, i + 1, now, initial)
              == Ok(contents + [contents[i] + Exchanges(calls, results)])
  {
  }

  /** A generation made on one more content list keeps the account. */
  lemma ShownStep(gens: seq<Generation>, before: nat, contents: seq<seq<Content>>, c: seq<Content>, gen: Generation)
    requires RoundsShown(gens, before, contents) && |gens| - before + 1 == |contents|
    requires gen.contents == c
    ensures RoundsShown(gens + [gen], before, contents + [c])
  {
    var g := gens + [gen];
    var cs := contents + [c];
    forall k | before <= k < |g|
      ensures g[k].contents == cs[k - before + 1]
    {
      if k < |gens| {
        assert g[k] == gens[k] && cs[k - before + 1] == contents[k - before + 1];
      } else {
        assert g[k] == gen && cs[k - before + 1] == c;
      }
    }
  }

  /** One round, on the parts of `Traced`: the batch of the current response took the store to
      `b`, whose routing made the next generation `gen`; the stores gain `b`, the last tool moves
      past the batch, and the generations gain `gen`. */
  lemma TraceStep(t: Turn, response: Response, i: nat, stores: seq<Store>, calls: seq<Call>, gens: seq<Generation>,
                  last: Option<string>, b: Store, results: seq<ToolResult>, gen: Generation)
    requires i < |t.oracle| && RoundStores(t.store, t.conversationId, response, t.oracle, i, t.now) == Ok(stores)
    requires calls == CallsOf(NthResponse(response, t.oracle, i))
    requires RunAll(stores[i], t.conversationId, calls, |calls|, t.now) == Ok((b, results))
    requires last == LastToolAfter(t.lastTool, response, t.oracle, i)
    requires |gens| == |t.generations| + i && RoundsRouted(gens, |t.generations|, stores, t.conversationId)
    requires gen.prompt == Prompts.SystemPrompt(CompanyIn(b, t.conversationId))
    requires gen.tools == Registry.GroupSchemas(CompanyIn(b, t.conversationId))
    ensures RoundStores(t.store, t.conversationId, response, t.oracle, i + 1, t.now) == Ok(stores + [b])
    ensures LastTool(last, calls) == LastToolAfter(t.lastTool, response, t.oracle, i + 1)
    ensures RoundsRouted(gens + [gen], |t.generations|, stores + [b], t.conversationId)
  {
    StoresStep(t.store, t.conversationId, response, t.oracle, i, t.now, stores, b, results);
    RoutedStep(gens, |t.generations|, stores, t.conversationId, b, gen);
  }

  /** One round keeps the account, given the parts of `Traced` with the stores and content
      lists named: the batch of the current response took the turn to `b`, whose contents
      gained its exchanges and whose routing is that of the store it left, and `g` is `b`
      after one more generation on those contents. */
  lemma RoundTraced(t: Turn, response: Response, s: LoopState, stores: seq<Store>, contents: seq<seq<Content>>, b: Turn, results: seq<ToolResult>, g: Turn, next: Response)
    requires s.iterations < |t.oracle| && RoundStores(t.store, t.conversationId, response, t.oracle, s.iterations, t.now) == Ok(stores)
    requires s.turn.store == stores[s.iterations]
    requires s.turn.lastTool == LastToolAfter(t.lastTool, response, t.oracle, s.iterations)
    requires |s.turn.generations| == |t.generations| + s.iterations
    requires RoundsRouted(s.turn.generations, |t.generations|, stores, t.conversationId)
    requires RoundContents(t.store, t.conversationId, response, t.oracle, s.iterations, t.now, t.contents) == Ok(contents)
    requires s.turn.contents == contents[s.iterations]
    requires RoundsShown(s.turn.generations, |t.generations|, contents)
    requires s.response == NthResponse(response, t.oracle, s.iterations) && s.response.CallsReply?
    requires RunAll(s.turn.store, t.conversationId, s.response.calls, |s.response.calls|, t.now) == Ok((b.store, results))
    requires b.lastTool == LastTool(s.turn.lastTool, s.response.calls) && b.generations == s.turn.generations
    requires b.prompt == Prompts.SystemPrompt(CompanyIn(b.store, t.conversationId))
    requires b.tools == Registry.GroupSchemas(CompanyIn(b.store, t.conversationId))
    requires b.contents == s.turn.contents + Exchanges(s.response.calls, results)
    requires g.store == b.store && g.lastTool == b.lastTool && g.contents == b.contents
    requires g.generations == b.generations + [Generation(b.prompt, b.contents, b.tools)]
    ensures Traced(t, response, LoopState(g, next, s.iterations + 1))
  {
    TraceStep(t, response, s.iterations, stores, s.response.calls, s.turn.generations, s.turn.lastTool,
              b.store, results, Generation(b.prompt, b.contents, b.tools));
    ContentsStep(t.store, t.conversationId, response, t.oracle, s.iterations, t.now, t.contents, stores, contents,
                 s.response.calls, b.store, results);
    ShownStep(s.turn.generations, |t.generations|, contents, b.contents, Generation(b.prompt, b.contents, b.tools));
    TracedOf(t, response, LoopState(g, next, s.iterations + 1), stores + [b.store], contents + [b.contents]);
  }

  /** A routed turn's prompt and tools are those of its conversation's routing value. */
  lemma RoutedCompany(b: Turn)
    requires Routed(b)
    ensures b.prompt == Prompts.SystemPrompt(CompanyIn(b.store, b.conversationId))
    ensures b.tools == Registry.GroupSchemas(CompanyIn(b.store, b.conversationId))
  {
  }

  /** One round of the loop: collect the response's text, run its calls with rerouting, then
      generate again on the grown contents. */
  method Round(t: Turn, response: Response, s: LoopState, ghost initial: seq<Content>) returns (r: Result<LoopState, Failure>)
    requires Looped(t, response, s, initial) && s.response.CallsReply? && s.iterations < MaxIterations
    requires Traced(t, response, s)
    ensures r.Ok? ==> r.value.iterations == s.iterations + 1 && Looped(t, response, r.value, initial)
    ensures r.Ok? ==> Traced(t, response, r.value)
    ensures r.Err? ==> r.error == ProviderUnavailable || r.error.UnknownTool? || r.error.BadArguments?
  {
    var batch := RunBatch(s.turn, s.response.calls, true);
    if batch.Err? {
      ghost var k :| 0 <= k < |s.response.calls| && !Callable(s.response.calls[k]) && batch.error == CallFailure(s.response.calls[k]);
      return Err(batch.error);
    }
    var (b, results) := batch.value;
    var g := Generate(b, b.contents);
    if g.Err? {
      return Err(g.error);
    }
    // the text before the calls is collected; no tool reads it, so its place in the round is immaterial
    var v := g.value.0.(collected := b.collected + s.response.textBefore);
    LoopStep(t, response, s, initial, b, results, v);
    RoutedCompany(b);
    RoundTraced(t, response, s, RoundStores(t.store, t.conversationId, response, t.oracle, s.iterations, t.now).value,
                RoundContents(t.store, t.conversationId, response, t.oracle, s.iterations, t.now, t.contents).value,
                b, results, v, g.value.1);
    r := Ok(LoopState(v, g.value.1, s.iterations + 1));
  }

  /** The `while` loop: as long as the response asks for calls and fewer than ten rounds ran,
      run one more round. */
  method ToolLoop(t: Turn, response: Response, ghost initial: seq<Content>) returns (r: Result<LoopState, Failure>)
    requires Routed(t) && Shaped(t.contents, initial)
    ensures r.Ok? ==> Looped(t, response, r.value, initial) && Traced(t, response, r.value)
    ensures r.Ok? && r.value.iterations < MaxIterations ==> r.value.response.TextReply?
    ensures r.Err? ==> r.error == ProviderUnavailable || r.error.UnknownTool? || r.error.BadArguments?
  {
    var s := LoopState(t, response, 0);
    LoopStart(t, response, initial);
    TraceStart(t, response);
    while s.response.CallsReply? && s.iterations < MaxIterations
      invariant Looped(t, response, s, initial) && Traced(t, response, s)
      decreases MaxIterations - s.iterations
    {
      var next := Round(t, response, s, initial);
      if next.Err? {
        return Err(next.error);
      }
      s := next.value;
    }
    return Ok(s);
  }

  // ---------------------------------------------------------------- finalizing the reply

  /** The reply text of a retry generation, or the static line when it has none. */
  function OrFallback(text: string, message: string): (r: string)
    ensures r != ""
    ensures text != "" ==> r == text
  {
    if text != "" then text else StaticFallback(message)
  }

  /** How many generations the retry makes: a second one when the first asks for calls. */
  function RetryGenerations(t: Turn): nat
    requires |t.oracle| > 0
  {
    if t.oracle[0].CallsReply? then 2 else 1
  }

  /** The turn a retry leaves: the first generation sees the contents plus the contact hint;
      when it asks for calls, they run on the contents without the hint, with no rerouting,
      and one more generation follows on the grown contents; the reply is the last
      generation's text, or the static line. */
  ghost predicate Retried(t: Turn, u: Turn, text: string, message: string, initial: seq<Content>) {
    && 0 < |t.oracle|
    && RetryGenerations(t) <= |t.oracle|
    && |u.generations| == |t.generations| + RetryGenerations(t)
    && u.oracle == t.oracle[RetryGenerations(t)..]
    && u.generations[..|t.generations|] == t.generations
    && u.generations[|t.generations|] == Generation(t.prompt, t.contents + [ContactHint], t.tools)
    && text == OrFallback(ReplyText(t.oracle[RetryGenerations(t) - 1]), message)
    && (t.oracle[0].CallsReply? ==> u.generations[|t.generations| + 1] == Generation(t.prompt, u.contents, t.tools))
    && (t.oracle[0].CallsReply? ==> RanCalls(t, u, t.oracle[0].calls))
    && (t.oracle[0].TextReply? ==> u.store == t.store && u.contents == t.contents && u.lastTool == t.lastTool)
    && Shaped(u.contents, initial) && SameRouting(t, u) && KeepsStore(t, u)
    && u.sessionId == t.sessionId && u.conversationId == t.conversationId && u.now == t.now
  }

  /** The retry's generation answered with text. */
  lemma RetryAnswered(t: Turn, u: Turn, message: string, initial: seq<Content>)
    requires Shaped(t.contents, initial) && 0 < |t.oracle| && t.oracle[0].TextReply?
    requires u == t.(oracle := t.oracle[1..], generations := t.generations + [Generation(t.prompt, t.contents + [ContactHint], t.tools)])
    ensures Retried(t, u, OrFallback(ReplyText(t.oracle[0]), message), message, initial)
  {
  }

  /** The retry's generation asked for calls: they ran, then one more generation. */
  lemma RetryCalled(t: Turn, u: Turn, b: Turn, results: seq<ToolResult>, w: Turn, message: string, initial: seq<Content>)
    requires Shaped(t.contents, initial) && 0 < |t.oracle| && t.oracle[0].CallsReply?
    requires u == t.(oracle := t.oracle[1..], generations := t.generations + [Generation(t.prompt, t.contents + [ContactHint], t.tools)])
    requires Ran(u, b, t.oracle[0].calls, results, false) && 0 < |b.oracle|
    requires w == b.(oracle := b.oracle[1..], generations := b.generations + [Generation(b.prompt, b.contents, b.tools)])
    ensures Retried(t, w, OrFallback(ReplyText(b.oracle[0]), message), message, initial)
  {
    ExchangesKeepShape(t.contents, initial, t.oracle[0].calls, results);
    assert t.oracle[1..][1..] == t.oracle[2..];
    assert w.generations[..|t.generations|] == t.generations;
  }

  /** The one retry: generate on a copy of the contents with the contact hint; calls it asks
      for run against the contents without the hint, with no rerouting, followed by one more
      generation; an empty outcome falls back to the static line. */
  method Retry(t: Turn, message: string, ghost initial: seq<Content>) returns (r: Result<(Turn, string), Failure>)
    requires Shaped(t.contents, initial)
    ensures r.Ok? ==> Retried(t, r.value.0, r.value.1, message, initial)
    ensures r.Err? ==> r.error == ProviderUnavailable || r.error.UnknownTool? || r.error.BadArguments?
  {
    var first := Generate(t, t.contents + [ContactHint]);
    if first.Err? {
      return Err(first.error);
    }
    var u := first.value.0;
    var response := first.value.1;
    if response.TextReply? {
      RetryAnswered(t, u, message, initial);
      return Ok((u, OrFallback(ReplyText(response), message)));
    }
    var batch := RunBatch(u, response.calls, false);
    if batch.Err? {
      ghost var k :| 0 <= k < |response.calls| && !Callable(response.calls[k]) && batch.error == CallFailure(response.calls[k]);
      return Err(batch.error);
    }
    var b := batch.value.0;
    var last := Generate(b, b.contents);
    if last.Err? {
      return Err(last.error);
    }
    RetryCalled(t, u, b, batch.value.1, last.value.0, message, initial);
    return Ok((last.value.0, OrFallback(ReplyText(last.value.1), message)));
  }

  /** The reply the fallback chain settles on without generating: the final text, else the
      collected text, else the canned line of the last tool; none when no tool ran, which is
      when the retry is due. */
  function Chosen(t: Turn, response: Response): (r: Option<string>)
    ensures r.Some? ==> r.value != ""
    ensures r.None? <==> ReplyText(response) == "" && t.collected == "" && t.lastTool.None?
    ensures ReplyText(response) != "" ==> r == Some(ReplyText(response))
  {
    if ReplyText(response) != "" then Some(ReplyText(response))
    else if t.collected != "" then Some(t.collected)
    else if t.lastTool.Some? then Some(CannedLine(t.lastTool.value, t.company))
    else None
  }

  /** What finalizing leaves of the turn: at most two more generations, made with the turn's
      prompt and tools, with the transcript, the tokens, the constraints and the routing kept
      (the retry's calls may still write contacts, inquiries, a status or the company). */
  ghost predicate Closing(t: Turn, u: Turn, initial: seq<Content>) {
    && |t.generations| <= |u.generations| <= |t.generations| + 2
    && u.generations[..|t.generations|] == t.generations
    && (forall k :: |t.generations| <= k < |u.generations| ==>
          u.generations[k].prompt == t.prompt && u.generations[k].tools == t.tools)
    && SameRouting(t, u) && KeepsStore(t, u)
    && u.sessionId == t.sessionId && u.conversationId == t.conversationId
  }

  lemma RetriedCloses(t: Turn, u: Turn, text: string, message: string, initial: seq<Content>)
    requires Retried(t, u, text, message, initial)
    ensures text != "" && Closing(t, u, initial)
  {
    var n := |t.generations|;
    forall k | n <= k < |u.generations|
      ensures u.generations[k].prompt == t.prompt && u.generations[k].tools == t.tools
    {
      if k == n + 1 {
        assert t.oracle[0].CallsReply?;
      }
    }
  }

  lemma StaysClosed(t: Turn, initial: seq<Content>)
    ensures Closing(t, t, initial)
  {
    assert t.generations[..|t.generations|] == t.generations;
  }

  /** The fallback chain after the loop: the final text, else the collected text, else the
      retry when no tool ran, else the canned line of the last tool. */
  method Finalize(t: Turn, response: Response, message: string, ghost initial: seq<Content>)
    returns (r: Result<(Turn, string), Failure>)
    requires Shaped(t.contents, initial)
    ensures Chosen(t, response).Some? ==> r == Ok((t, Chosen(t, response).value))
    ensures Chosen(t, response).None? && r.Ok? ==> Retried(t, r.value.0, r.value.1, message, initial)
    ensures r.Ok? ==> r.value.1 != "" && Closing(t, r.value.0, initial)
    ensures r.Err? ==> r.error == ProviderUnavailable || r.error.UnknownTool? || r.error.BadArguments?
  {
    var chosen := Chosen(t, response);
    if chosen.Some? {
      StaysClosed(t, initial);
      return Ok((t, chosen.value));
    }
    r := Retry(t, message, initial);
    if r.Ok? {
      RetriedCloses(t, r.value.0, r.value.1, message, initial);
    }
  }

  // ---------------------------------------------------------------- the turn

  /** What a turn leaves: a non-empty reply; the first generation made on the opening
      contents; every generation made with the tool schemas of its prompt's group; and the
      token still finding the conversation in a store whose transcript tools did not touch. */
  ghost predicate Conversed(t: Turn, message: string, u: Turn, text: string) {
    && text != ""
    && 1 <= |u.generations| <= MaxIterations + 3
    && u.generations[0] == Generation(t.prompt, FirstContents(t, message), t.tools)
    && (forall k :: 0 <= k < |u.generations| ==>
          u.generations[k].tools == Registry.GroupSchemas(PromptGroup(u.generations[k].prompt)))
    && u.sessionId == t.sessionId && u.conversationId == t.conversationId
    && Repository.GetBySessionId(u.store, t.sessionId) == Some(t.conversationId)
    && KeepsStore(t, u)
  }

  /** The turn after its first generation, made on the opening contents. */
  function Started(t: Turn, message: string): Turn
    requires 0 < |t.oracle|
  {
    t.(oracle := t.oracle[1..], generations := t.generations + [Generation(t.prompt, FirstContents(t, message), t.tools)])
  }

  /** Where a turn's reply comes from: the loop ran from the first response until a text
      reply or the tenth round, leaving state `s`; the reply is the one the fallback chain
      chooses there, and when it has none, the retry's, which left `u`. */
  ghost predicate Replied(t: Turn, message: string, s: LoopState, u: Turn, text: string) {
    && 0 < |t.oracle| && s.iterations <= MaxIterations
    && LoopText(Started(t, message), t.oracle[0], s.turn, s.response, s.iterations)
    && Traced(Started(t, message), t.oracle[0], s)
    && (s.response.TextReply? || s.iterations == MaxIterations)
    && (Chosen(s.turn, s.response).Some? ==> u == s.turn && text == Chosen(s.turn, s.response).value)
    && (Chosen(s.turn, s.response).None? ==> Retried(s.turn, u, text, message, t.contents))
  }

  /** The generations of the loop and of finalizing keep the first one and agree with their
      prompts' tool groups. */
  lemma ConversedGenerations(t: Turn, message: string, u: Turn, s: LoopState, w: Turn, initial: seq<Content>)
    requires Routed(t) && |t.generations| == 0 && 0 < |t.oracle| && u == Started(t, message)
    requires Generated(u, s.turn, s.iterations, initial) && s.iterations <= MaxIterations
    requires Routed(s.turn) && Closing(s.turn, w, initial)
    ensures 1 <= |w.generations| <= MaxIterations + 3
    ensures w.generations[0] == Generation(t.prompt, FirstContents(t, message), t.tools)
    ensures forall k :: 0 <= k < |w.generations| ==>
              w.generations[k].tools == Registry.GroupSchemas(PromptGroup(w.generations[k].prompt))
  {
    PromptAndToolsAgree(t.company);
    PromptAndToolsAgree(s.turn.company);
    var n := |s.turn.generations|;
    forall k | 0 <= k < |w.generations|
      ensures w.generations[k].tools == Registry.GroupSchemas(PromptGroup(w.generations[k].prompt))
    {
      if k < n {
        assert w.generations[k] == s.turn.generations[k];
        if k >= 1 {
          assert LoopGeneration(s.turn.generations[k], initial);
        } else {
          assert s.turn.generations[0] == u.generations[0];
        }
      }
    }
    assert w.generations[0] == s.turn.generations[0] == u.generations[0];
  }

  /** The store after the loop and finalizing still finds the conversation by its token. */
  lemma ConversedStore(t: Turn, u: Turn, v: Turn, w: Turn)
    requires u.store == t.store && u.sessionId == t.sessionId && u.conversationId == t.conversationId
    requires KeepsStore(u, v) && Routed(v) && v.sessionId == u.sessionId && v.conversationId == u.conversationId
    requires KeepsStore(v, w) && w.sessionId == v.sessionId && w.conversationId == v.conversationId
    ensures KeepsStore(t, w)
    ensures Repository.GetBySessionId(w.store, t.sessionId) == Some(t.conversationId)
  {
    KeepsStoreTrans(t, u, v);
    KeepsStoreTrans(t, v, w);
    LookupSameSessions(v.store, w.store, t.sessionId);
  }

  /** From the first generation to the finalized reply, for a turn that agrees with the store;
      `s` is where the loop exited. */
  method Converse(t: Turn, message: string) returns (r: Result<(Turn, string), Failure>, ghost s: LoopState)
    requires Routed(t) && |t.generations| == 0
    ensures r.Ok? ==> Conversed(t, message, r.value.0, r.value.1)
    ensures r.Ok? ==> Replied(t, message, s, r.value.0, r.value.1)
    ensures r.Err? ==> r.error == ProviderUnavailable || r.error.UnknownTool? || r.error.BadArguments?
  {
    ghost var initial := t.contents;
    assert Alternates(t.contents[|initial|..]);
    s := LoopState(t, TextReply(""), 0);  // no loop ran when the turn fails
    var first := Generate(t, FirstContents(t, message));
    if first.Err? {
      r := Err(first.error);
      return;
    }
    r, s := Continue(t, message, first.value.0, first.value.1, initial);
  }

  /** The loop on the first response, then the reply. */
  method Continue(t: Turn, message: string, u: Turn, response: Response, ghost initial: seq<Content>)
    returns (r: Result<(Turn, string), Failure>, ghost s: LoopState)
    requires Routed(t) && |t.generations| == 0 && 0 < |t.oracle| && initial == t.contents
    requires u == Started(t, message) && response == t.oracle[0]
    ensures r.Ok? ==> Conversed(t, message, r.value.0, r.value.1)
    ensures r.Ok? ==> Replied(t, message, s, r.value.0, r.value.1)
    ensures r.Err? ==> r.error == ProviderUnavailable || r.error.UnknownTool? || r.error.BadArguments?
  {
    s := LoopState(t, TextReply(""), 0);  // no loop ran when the turn fails
    var exit := ToolLoop(u, response, initial);
    if exit.Err? {
      r := Err(exit.error);
      return;
    }
    r := Conclude(t, message, u, exit.value, initial);
    s := exit.value;
  }

  /** Finalizing the reply once the loop has exited after the first generation `u`. */
  method Conclude(t: Turn, message: string, u: Turn, s: LoopState, ghost initial: seq<Content>)
    returns (r: Result<(Turn, string), Failure>)
    requires Routed(t) && |t.generations| == 0 && 0 < |t.oracle| && initial == t.contents
    requires u == Started(t, message)
    requires Looped(u, t.oracle[0], s, initial) && Traced(u, t.oracle[0], s)
    requires s.response.TextReply? || s.iterations == MaxIterations
    ensures r.Ok? ==> Conversed(t, message, r.value.0, r.value.1)
    ensures r.Ok? ==> Replied(t, message, s, r.value.0, r.value.1)
    ensures r.Err? ==> r.error == ProviderUnavailable || r.error.UnknownTool? || r.error.BadArguments?
  {
    r := Finalize(s.turn, s.response, message, initial);
    if r.Ok? {
      ConversedGenerations(t, message, u, s, r.value.0, initial);
      ConversedStore(t, u, s.turn, r.value.0);
    }
  }

  /** The reply of `process_message`, with the store it leaves and the generation calls the
      turn made. */
  datatype Reply = Reply(store: Store, sessionId: string, message: string, status: Status, generations: seq<Generation>)

  /** The company the turn starts with: that of the conversation being continued, none for a
      new one. */
  ghost function OpeningCompany(st: Store, sessionId: Option<string>, now: int, idleTimeout: int): Option<string> {
    if Resumable(st, sessionId, now, idleTimeout)
    then st.conversations[Repository.GetBySessionId(st, sessionId.value).value - 1].company
    else None
  }

  /** The turn as it starts: routed by the resolved session, the user message stored, and the
      contents made of the conversation's earlier transcript and the message. */
  ghost predicate Opened(st: Store, message: string, sessionId: Option<string>, freshSessionId: string,
                         now: int, idleTimeout: int, t: Turn) {
    && Routed(t) && |t.generations| == 0 && t.now == now
    && t.sessionId == (if Resumable(st, sessionId, now, idleTimeout) then sessionId.value else freshSessionId)
    && t.company == OpeningCompany(st, sessionId, now, idleTimeout)
    && t.store.messages == st.messages + [Message(t.conversationId, UserRole, message, now)]
    && t.contents == ResponseContents(HistoryOf(Repository.ConversationMessages(st.messages, t.conversationId)), message)
    && (Valid(st) && NotBefore(st, now) ==> Valid(t.store) && NotBefore(t.store, now))
  }

  /** The session resolved to a conversation that, when new, has no company yet. */
  lemma ResolvedCompany(st: Store, sessionId: Option<string>, freshSessionId: string, now: int, idleTimeout: int, s: Resolved)
    requires ResolveSession(st, sessionId, freshSessionId, now, idleTimeout) == Ok(s)
    ensures 1 <= s.conversationId <= |s.store.conversations|
    ensures Repository.GetBySessionId(s.store, s.sessionId) == Some(s.conversationId)
    ensures s.sessionId == (if Resumable(st, sessionId, now, idleTimeout) then sessionId.value else freshSessionId)
    ensures s.store.conversations[s.conversationId - 1].company == OpeningCompany(st, sessionId, now, idleTimeout)
    ensures s.store.messages == st.messages
    ensures Valid(st) ==> Valid(s.store)
  {
    ResolveSessionSpec(st, sessionId, freshSessionId, now, idleTimeout);
  }

  /** The initial contents are the transcript before the message, then the message. */
  lemma StartedContents(s: Resolved, stored: Store, contents: seq<Content>, message: string, now: int)
    requires stored == StoreUserMessage(s, message, now)
    requires contents == InitialContents(stored, s.conversationId, message)
    ensures contents == ResponseContents(HistoryOf(Repository.ConversationMessages(s.store.messages, s.conversationId)), message)
  {
    PriorHistoryAfterAdd(s.store, s.conversationId, message, now);
  }

  /** `Opened`, from the facts each part of the opening establishes. */
  lemma OpenedOf(st: Store, message: string, sessionId: Option<string>, freshSessionId: string,
                 now: int, idleTimeout: int, t: Turn)
    requires Routed(t) && |t.generations| == 0 && t.now == now
    requires t.sessionId == (if Resumable(st, sessionId, now, idleTimeout) then sessionId.value else freshSessionId)
    requires t.company == OpeningCompany(st, sessionId, now, idleTimeout)
    requires t.store.messages == st.messages + [Message(t.conversationId, UserRole, message, now)]
    requires t.contents == ResponseContents(HistoryOf(Repository.ConversationMessages(st.messages, t.conversationId)), message)
    requires Valid(st) && NotBefore(st, now) ==> Valid(t.store) && NotBefore(t.store, now)
    ensures Opened(st, message, sessionId, freshSessionId, now, idleTimeout, t)
  {
  }

  lemma StartedRouted(s: Resolved, stored: Store, contents: seq<Content>, oracle: seq<Response>, now: int)
    requires 1 <= s.conversationId <= |s.store.conversations|
    requires Repository.GetBySessionId(s.store, s.sessionId) == Some(s.conversationId)
    requires stored.conversations == s.store.conversations
    ensures Routed(StartTurn(s, stored, contents, oracle, now))
  {
    var t := StartTurn(s, stored, contents, oracle, now);
    assert t.store == stored && t.sessionId == s.sessionId && t.conversationId == s.conversationId;
    RoutedOf(s, t);
  }

  /** A turn on a store with the same conversations as the resolved one, whose routing fields
      are those of its conversation, agrees with the store. */
  lemma RoutedOf(s: Resolved, t: Turn)
    requires 1 <= s.conversationId <= |s.store.conversations|
    requires Repository.GetBySessionId(s.store, s.sessionId) == Some(s.conversationId)
    requires t.store.conversations == s.store.conversations
    requires t.sessionId == s.sessionId && t.conversationId == s.conversationId
    requires t.company == t.store.conversations[t.conversationId - 1].company
    requires t.prompt == Prompts.SystemPrompt(t.company) && t.tools == Registry.GroupSchemas(t.company)
    ensures Routed(t)
  {
    LookupSameSessions(s.store, t.store, s.sessionId);
  }

  lemma StartedValid(st: Store, s: Resolved, message: string, now: int)
    requires s.store.messages == st.messages && (Valid(st) ==> Valid(s.store))
    ensures var b := Repository.AddMessage(s.store, s.conversationId, UserRole, message, now);
            Valid(st) && NotBefore(st, now) ==> Valid(b) && NotBefore(b, now)
  {
    if Valid(st) && NotBefore(st, now) {
      assert NotBefore(s.store, now);
      Repository.AddMessageKeepsOrder(s.store, s.conversationId, UserRole, message, now);
    }
  }

  /** Resolve the session and store the user message. */
  method Open(st: Store, message: string, sessionId: Option<string>, freshSessionId: string,
              oracle: seq<Response>, now: int, idleTimeout: int) returns (r: Result<Turn, Failure>)
    ensures r.Ok? ==> Opened(st, message, sessionId, freshSessionId, now, idleTimeout, r.value)
    ensures r.Ok? ==> r.value.oracle == oracle && r.value.collected == "" && r.value.lastTool.None?
    ensures !Resumable(st, sessionId, now, idleTimeout) && Repository.GetBySessionId(st, freshSessionId).Some? ==>
              r == Err(SessionConflict(freshSessionId))
    ensures r.Err? ==>
              && !Resumable(st, sessionId, now, idleTimeout) && Repository.GetBySessionId(st, freshSessionId).Some?
              && r.error == SessionConflict(freshSessionId)
  {
    var resolved := ResolveSession(st, sessionId, freshSessionId, now, idleTimeout);
    ResolveSessionSpec(st, sessionId, freshSessionId, now, idleTimeout);
    if resolved.Err? {
      return Err(resolved.error);
    }
    ResolvedCompany(st, sessionId, freshSessionId, now, idleTimeout, resolved.value);
    var t := Begin(st, message, sessionId, freshSessionId, oracle, now, idleTimeout, resolved.value);
    return Ok(t);
  }

  /** Store the user message in the resolved conversation and start the turn on it. */
  method Begin(st: Store, message: string, sessionId: Option<string>, freshSessionId: string,
               oracle: seq<Response>, now: int, idleTimeout: int, s: Resolved) returns (t: Turn)
    requires 1 <= s.conversationId <= |s.store.conversations|
    requires Repository.GetBySessionId(s.store, s.sessionId) == Some(s.conversationId)
    requires s.sessionId == (if Resumable(st, sessionId, now, idleTimeout) then sessionId.value else freshSessionId)
    requires s.store.conversations[s.conversationId - 1].company == OpeningCompany(st, sessionId, now, idleTimeout)
    requires s.store.messages == st.messages
    requires Valid(st) ==> Valid(s.store)
    ensures Opened(st, message, sessionId, freshSessionId, now, idleTimeout, t)
    ensures t.oracle == oracle && t.collected == "" && t.lastTool.None?
  {
    var stored := StoreUserMessage(s, message, now);
    var contents := InitialContents(stored, s.conversationId, message);
    t := StartTurn(s, stored, contents, oracle, now);
    assert Routed(t) by { StartedRouted(s, stored, contents, oracle, now); }
    assert Valid(st) && NotBefore(st, now) ==> Valid(t.store) && NotBefore(t.store, now) by {
      StartedValid(st, s, message, now);
    }
    assert t.contents == ResponseContents(HistoryOf(Repository.ConversationMessages(st.messages, t.conversationId)), message) by {
      StartedContents(s, stored, contents, message, now);
    }
    OpenedOf(st, message, sessionId, freshSessionId, now, idleTimeout, t);
  }

  /** The contents of the turn's first generation: the conversation's earlier transcript and
      the message, followed by the contact hint when a company is set and the message looks
      like contact data. */
  ghost function OpeningContents(st: Store, message: string, sessionId: Option<string>, now: int, idleTimeout: int,
                                 conversationId: nat): seq<Content> {
    var opening := ResponseContents(HistoryOf(Repository.ConversationMessages(st.messages, conversationId)), message);
    if Truthy(OpeningCompany(st, sessionId, now, idleTimeout)) && LooksLikeContactData(message)
    then opening + [ContactHint] else opening
  }

  /** A successful reply: non-empty, under the resolved token, which finds the conversation;
      the transcript grew by the user message and the reply; the status is the
      conversation's; the first generation used the opening company's prompt on the opening
      contents, and at most `MaxIterations + 3` generations ran; the constraints hold. */
  ghost predicate Answered(st: Store, message: string, sessionId: Option<string>, freshSessionId: string,
                           now: int, idleTimeout: int, r: Reply) {
    && r.message != ""
    && r.sessionId == (if Resumable(st, sessionId, now, idleTimeout) then sessionId.value else freshSessionId)
    && Repository.GetBySessionId(r.store, r.sessionId).Some?
    && 1 <= |r.generations| <= MaxIterations + 3
    && var id := Repository.GetBySessionId(r.store, r.sessionId).value;
       && r.store.messages
            == st.messages + [Message(id, UserRole, message, now), Message(id, AssistantRole, r.message, now)]
       && r.status == r.store.conversations[id - 1].status
       && r.generations[0].prompt == Prompts.SystemPrompt(OpeningCompany(st, sessionId, now, idleTimeout))
       && r.generations[0].contents == OpeningContents(st, message, sessionId, now, idleTimeout, id)
       && (Valid(st) && NotBefore(st, now) ==> Valid(r.store))
  }

  /** The first generation of an opened turn uses the opening company's prompt and contents. */
  lemma OpeningGeneration(st: Store, message: string, sessionId: Option<string>, freshSessionId: string,
                          now: int, idleTimeout: int, t: Turn, g: Generation)
    requires Opened(st, message, sessionId, freshSessionId, now, idleTimeout, t)
    requires g == Generation(t.prompt, FirstContents(t, message), t.tools)
    ensures g.prompt == Prompts.SystemPrompt(OpeningCompany(st, sessionId, now, idleTimeout))
    ensures g.contents == OpeningContents(st, message, sessionId, now, idleTimeout, t.conversationId)
  {
  }

  /** Storing the reply of a conversed turn answers the message. */
  lemma StoredReply(st: Store, message: string, sessionId: Option<string>, freshSessionId: string,
                    now: int, idleTimeout: int, t: Turn, u: Turn, text: string, final: Store, rep: Reply)
    requires Opened(st, message, sessionId, freshSessionId, now, idleTimeout, t)
    requires Conversed(t, message, u, text)
    requires final == Repository.AddMessage(u.store, u.conversationId, AssistantRole, text, now)
    requires 1 <= t.conversationId <= |final.conversations|
    requires rep.store == final && rep.sessionId == u.sessionId && rep.message == text && rep.generations == u.generations
    requires rep.status == final.conversations[t.conversationId - 1].status
    ensures Repository.GetBySessionId(final, u.sessionId) == Some(t.conversationId)
    ensures Answered(st, message, sessionId, freshSessionId, now, idleTimeout, rep)
  {
    OpeningGeneration(st, message, sessionId, freshSessionId, now, idleTimeout, t, u.generations[0]);
    ReplyFound(t, u, final);
    ReplyTranscript(st, message, t, u, text, final, now);
    ReplyValid(st, t, u, text, final, now);
  }

  lemma ReplyFound(t: Turn, u: Turn, final: Store)
    requires Repository.GetBySessionId(u.store, t.sessionId) == Some(t.conversationId)
    requires u.sessionId == t.sessionId && final.conversations == u.store.conversations
    ensures Repository.GetBySessionId(final, u.sessionId) == Some(t.conversationId)
  {
    LookupSameSessions(u.store, final, u.sessionId);
  }

  lemma ReplyTranscript(st: Store, message: string, t: Turn, u: Turn, text: string, final: Store, now: int)
    requires t.store.messages == st.messages + [Message(t.conversationId, UserRole, message, now)]
    requires u.store.messages == t.store.messages && u.conversationId == t.conversationId
    requires final == Repository.AddMessage(u.store, u.conversationId, AssistantRole, text, now)
    ensures final.messages
              == st.messages + [Message(t.conversationId, UserRole, message, now), Message(t.conversationId, AssistantRole, text, now)]
  {
  }

  lemma ReplyValid(st: Store, t: Turn, u: Turn, text: string, final: Store, now: int)
    requires Valid(st) && NotBefore(st, now) ==> Valid(t.store) && NotBefore(t.store, now)
    requires KeepsStore(t, u)
    requires final == Repository.AddMessage(u.store, u.conversationId, AssistantRole, text, now)
    ensures Valid(st) && NotBefore(st, now) ==> Valid(final)
  {
    if Valid(st) && NotBefore(st, now) {
      assert NotBefore(u.store, now);
      Repository.AddMessageKeepsOrder(u.store, u.conversationId, AssistantRole, text, now);
    }
  }

  /** Converse on an opened turn, store the reply and report the conversation's status. The
      status is read from the turn's conversation, which is the one the token finds again in
      the final store (`StoredReply`). */
  method Answer(st: Store, message: string, sessionId: Option<string>, freshSessionId: string,
                now: int, idleTimeout: int, t: Turn) returns (r: Result<Reply, Failure>, ghost s: LoopState, ghost u: Turn)
    requires Opened(st, message, sessionId, freshSessionId, now, idleTimeout, t)
    ensures r.Ok? ==> Answered(st, message, sessionId, freshSessionId, now, idleTimeout, r.value)
    ensures r.Ok? ==> Replied(t, message, s, u, r.value.message)
    ensures r.Ok? ==> r.value.store == Repository.AddMessage(u.store, t.conversationId, AssistantRole, r.value.message, now)
    ensures r.Err? ==> r.error == ProviderUnavailable || r.error.UnknownTool? || r.error.BadArguments?
  {
    var c;
    c, s := Converse(t, message);
    if c.Err? {
      r, u := Err(c.error), t;
      return;
    }
    var reply := Record(st, message, sessionId, freshSessionId, now, idleTimeout, t, c.value.0, c.value.1);
    r, u := Ok(reply), c.value.0;
  }

  /** Store the reply `text` of the conversed turn `u` and report its conversation's status. */
  method Record(st: Store, message: string, sessionId: Option<string>, freshSessionId: string,
                now: int, idleTimeout: int, t: Turn, u: Turn, text: string) returns (r: Reply)
    requires Opened(st, message, sessionId, freshSessionId, now, idleTimeout, t)
    requires Conversed(t, message, u, text)
    ensures Answered(st, message, sessionId, freshSessionId, now, idleTimeout, r)
    ensures r.message == text && r.store == Repository.AddMessage(u.store, t.conversationId, AssistantRole, text, now)
  {
    var final := Repository.AddMessage(u.store, u.conversationId, AssistantRole, text, now);
    r := Reply(final, u.sessionId, text, final.conversations[u.conversationId - 1].status, u.generations);
    StoredReply(st, message, sessionId, freshSessionId, now, idleTimeout, t, u, text, final, r);
  }

  /** `process_message`: resolve the session, store the user message, converse, store the
      reply and report the conversation's status. */
  method ProcessMessage(st: Store, message: string, sessionId: Option<string>, freshSessionId: string,
                        oracle: seq<Response>, now: int, idleTimeout: int)
    returns (r: Result<Reply, Failure>, ghost t: Turn, ghost s: LoopState, ghost u: Turn)
    requires 1 <= |message| <= 5000
    ensures r.Ok? ==> Answered(st, message, sessionId, freshSessionId, now, idleTimeout, r.value)
    ensures r.Ok? ==> Opened(st, message, sessionId, freshSessionId, now, idleTimeout, t)
    ensures r.Ok? ==> t.oracle == oracle && t.collected == "" && t.lastTool.None?
    ensures r.Ok? ==> Replied(t, message, s, u, r.value.message)
    ensures r.Ok? ==> r.value.store == Repository.AddMessage(u.store, t.conversationId, AssistantRole, r.value.message, now)
    ensures !Resumable(st, sessionId, now, idleTimeout) && Repository.GetBySessionId(st, freshSessionId).Some? ==>
              r == Err(SessionConflict(freshSessionId))
    ensures r.Err? && r.error.SessionConflict? ==>
              !Resumable(st, sessionId, now, idleTimeout) && Repository.GetBySessionId(st, freshSessionId).Some?
    ensures r.Err? ==> r.error != ConversationVanished
  {
    var start := Open(st, message, sessionId, freshSessionId, oracle, now, idleTimeout);
    if start.Err? {
      // no turn started: the ghost outputs are placeholders
      t := Turn(st, now, 0, "", None, Prompts.SystemPrompt(None), [], [], oracle, [], None, "");
      s, u := LoopState(t, TextReply(""), 0), t;
      r := Err(start.error);
      return;
    }
    var begun := start.value;
    t := begun;
    r, s, u := Answer(st, message, sessionId, freshSessionId, now, idleTimeout, begun);
  }
}

=== FILE: process_proofs.dfy ===
/**
 * Properties of `process_message` that relate several steps: a batch is its calls
 * dispatched one after the other, and what a whole turn replies and routes for
 * some characteristic model responses.
 */
module ProcessProofs {
  import opened Wrappers
  import opened Text
  import opened Models
  import Repository
  import opened Tools
  import Registry
  import Prompts
  import opened Gateway
  import opened Agent
  import opened Process

  // ---------------------------------------------------------------- batches compose

  /** The first `n` calls of a batch decide what it does; later calls are never looked at. */
  lemma {:induction false} RunAllPrefix(st: Store, conversationId: nat, calls: seq<Call>, other: seq<Call>, n: nat, now: int)
    requires n <= |calls| && n <= |other| && calls[..n] == other[..n]
    ensures RunAll(st, conversationId, calls, n, now) == RunAll(st, conversationId, other, n, now)
    decreases n
  {
    if n > 0 {
      assert calls[..n - 1] == other[..n - 1] && calls[n - 1] == other[n - 1] by {
        assert calls[..n][n - 1] == other[..n][n - 1];
        assert calls[..n - 1] == calls[..n][..n - 1] && other[..n - 1] == other[..n][..n - 1];
      }
      RunAllPrefix(st, conversationId, calls, other, n - 1, now);
    }
  }

  /** Running the batch `a + b` is running `a`, then `b` on the store `a` left; the results
      follow in the same order, and the first failing call fails both alike. */
  lemma {:induction false} RunAllAppend(st: Store, conversationId: nat, a: seq<Call>, b: seq<Call>, n: nat, now: int)
    requires n <= |b|
    ensures RunAll(st, conversationId, a + b, |a| + n, now) ==
              match RunAll(st, conversationId, a, |a|, now)
              case Err(e) => Err(e)
              case Ok(p) =>
                match RunAll(p.0, conversationId, b, n, now)
                case Err(e) => Err(e)
                case Ok(q) => Ok((q.0, p.1 + q.1))
    decreases n
  {
    if n == 0 {
      RunAllPrefix(st, conversationId, a + b, a, |a|, now);
      match RunAll(st, conversationId, a, |a|, now)
      case Err(_) =>
      case Ok(p) => assert p.1 + [] == p.1;
    } else {
      RunAllAppend(st, conversationId, a, b, n - 1, now);
      var p := RunAll(st, conversationId, a, |a|, now);
      if p.Ok? {
        var q := RunAll(p.value.0, conversationId, b, n - 1, now);
        if q.Ok? {
          AppendStep(st, conversationId, a, b, n, now, p.value, q.value);
        }
      }
    }
  }

  /** The last call of `b`, run after `a` and after the calls of `b` before it. */
  lemma AppendStep(st: Store, conversationId: nat, a: seq<Call>, b: seq<Call>, n: nat, now: int,
                   p: (Store, seq<ToolResult>), q: (Store, seq<ToolResult>))
    requires 0 < n <= |b|
    requires RunAll(st, conversationId, a + b, |a| + n - 1, now) == Ok((q.0, p.1 + q.1))
    requires RunAll(p.0, conversationId, b, n - 1, now) == Ok(q)
    ensures RunAll(st, conversationId, a + b, |a| + n, now) ==
              match RunAll(p.0, conversationId, b, n, now)
              case Err(e) => Err(e)
              case Ok(r) => Ok((r.0, p.1 + r.1))
  {
    assert (a + b)[|a| + n - 1] == b[n - 1];
    var d := Registry.Dispatch(q.0, conversationId, b[n - 1].name, b[n - 1].args, now);
    if d.Ok? {
      assert p.1 + q.1 + [d.value.1] == p.1 + (q.1 + [d.value.1]);
    }
  }

  /** A batch of one call is that call's dispatch. */
  lemma RunOne(st: Store, conversationId: nat, call: Call, now: int)
    ensures RunAll(st, conversationId, [call], 1, now) ==
              match Registry.Dispatch(st, conversationId, call.name, call.args, now)
              case Err(e) => Err(e)
              case Ok(d) => Ok((d.0, [d.1]))
  {
    match Registry.Dispatch(st, conversationId, call.name, call.args, now)
    case Err(_) =>
    case Ok(d) => assert [] + [d.1] == [d.1];
  }

  // ---------------------------------------------------------------- the rounds' stores

  /** The store the first round leaves does not depend on how many rounds follow. */
  lemma {:induction false} FirstStoreKept(st: Store, conversationId: nat, first: Response, rest: seq<Response>,
                                          n: nat, now: int, all: seq<Store>)
    requires 1 <= n <= |rest| + 1 && RoundStores(st, conversationId, first, rest, n, now) == Ok(all)
    ensures RoundStores(st, conversationId, first, rest, 1, now) == Ok([st, all[1]])
    decreases n
  {
    if 1 < n {
      var prev := RoundStoresGrow(st, conversationId, first, rest, n, 1, now, all);
      FirstStoreKept(st, conversationId, first, rest, n - 1, now, prev);
    } else {
      assert all == [st, all[1]];
    }
  }

  /** One more round keeps the earlier stores. */
  lemma RoundStoresGrow(st: Store, conversationId: nat, first: Response, rest: seq<Response>, n: nat, j: nat, now: int,
                        all: seq<Store>) returns (prev: seq<Store>)
    requires j < n <= |rest| + 1 && RoundStores(st, conversationId, first, rest, n, now) == Ok(all)
    ensures RoundStores(st, conversationId, first, rest, n - 1, now) == Ok(prev) && j < |prev| && prev[j] == all[j]
  {
    prev := RoundStores(st, conversationId, first, rest, n - 1, now).value;
  }

  /** The store after the first round, when the first response is a batch of one call. */
  lemma FirstRoundStore(st: Store, conversationId: nat, call: Call, before: string, rest: seq<Response>, now: int)
    requires RoundStores(st, conversationId, CallsReply([call], before), rest, 1, now).Ok?
    ensures Registry.Dispatch(st, conversationId, call.name, call.args, now).Ok?
    ensures RoundStores(st, conversationId, CallsReply([call], before), rest, 1, now).value[1]
              == Registry.Dispatch(st, conversationId, call.name, call.args, now).value.0
  {
    RunOne(st, conversationId, call, now);
  }

  /** The content list after the first round does not depend on how many rounds follow. */
  lemma {:induction false} FirstContentsKept(st: Store, conversationId: nat, first: Response, rest: seq<Response>,
                                             n: nat, now: int, initial: seq<Content>, all: seq<seq<Content>>)
    requires 1 <= n <= |rest| + 1 && RoundContents(st, conversationId, first, rest, n, now, initial) == Ok(all)
    ensures RoundContents(st, conversationId, first, rest, 1, now, initial) == Ok([initial, all[1]])
    decreases n
  {
    if 1 < n {
      var prev := RoundContentsGrow(st, conversationId, first, rest, n, 1, now, initial, all);
      FirstContentsKept(st, conversationId, first, rest, n - 1, now, initial, prev);
    } else {
      assert all == [initial, all[1]];
    }
  }

  /** One more round keeps the earlier content lists. */
  lemma RoundContentsGrow(st: Store, conversationId: nat, first: Response, rest: seq<Response>, n: nat, j: nat, now: int,
                          initial: seq<Content>, all: seq<seq<Content>>) returns (prev: seq<seq<Content>>)
    requires j < n <= |rest| + 1 && RoundContents(st, conversationId, first, rest, n, now, initial) == Ok(all)
    ensures RoundContents(st, conversationId, first, rest, n - 1, now, initial) == Ok(prev) && j < |prev| && prev[j] == all[j]
  {
    prev := RoundContents(st, conversationId, first, rest, n - 1, now, initial).value;
  }

  /** The content list after the first round: the initial contents and one exchange per call of
      the first response, holding the results of dispatching its batch. */
  lemma FirstRoundContents(st: Store, conversationId: nat, first: Response, rest: seq<Response>, now: int,
                           initial: seq<Content>)
    requires RoundContents(st, conversationId, first, rest, 1, now, initial).Ok?
    ensures RunAll(st, conversationId, CallsOf(first), |CallsOf(first)|, now).Ok?
    ensures RoundContents(st, conversationId, first, rest, 1, now, initial).value[1]
              == initial + Exchanges(CallsOf(first), RunAll(st, conversationId, CallsOf(first), |CallsOf(first)|, now).value.1)
  {
  }

  // ---------------------------------------------------------------- whole turns

  /** A turn whose exit state is `s` made at least one round when its first response asks for
      calls. */
  lemma CallsFirstLoops(t: Turn, message: string, s: LoopState, u: Turn, text: string)
    requires Replied(t, message, s, u, text) && t.oracle[0].CallsReply?
    ensures 1 <= s.iterations
  {
  }

  /** A first response with text is the reply: no round runs, the store and the last tool stay
      as they were. */
  lemma TextFirstReply(t: Turn, message: string, s: LoopState, u: Turn, text: string)
    requires Replied(t, message, s, u, text) && t.oracle[0].TextReply? && t.oracle[0].content != ""
    ensures s.iterations == 0 && text == t.oracle[0].content
    ensures u.store == t.store && u.lastTool == t.lastTool
  {
    assert !NthResponse(t.oracle[0], t.oracle[1..], 0).CallsReply?;
    assert Chosen(s.turn, s.response) == Some(t.oracle[0].content);
  }

  /** `set_company` switches the routing for the rest of the turn: when the first response sets
      an accepted company, the generation after that round (the second of the turn) is made
      with that company's prompt and tool group. */
  lemma SetCompanyReroutes(t: Turn, message: string, s: LoopState, u: Turn, text: string, company: string, before: string)
    requires Routed(t) && |t.generations| == 0
    requires Replied(t, message, s, u, text)
    requires t.oracle[0] == CallsReply([Call(Registry.SetCompanyName, map["company" := Some(company)])], before)
    requires NormalizeCompany(company) in Companies
    ensures 2 <= |u.generations|
    ensures u.generations[1].prompt == Prompts.SystemPrompt(Some(NormalizeCompany(company)))
    ensures u.generations[1].tools == Registry.GroupSchemas(Some(NormalizeCompany(company)))
  {
    var v := Started(t, message);
    var call := Call(Registry.SetCompanyName, map["company" := Some(company)]);
    CallsFirstLoops(t, message, s, u, text);
    var stores := RoundStores(v.store, v.conversationId, t.oracle[0], v.oracle, s.iterations, v.now).value;
    FirstStoreKept(v.store, v.conversationId, t.oracle[0], v.oracle, s.iterations, v.now, stores);
    assert stores[1] == RoundStores(v.store, v.conversationId, t.oracle[0], v.oracle, 1, v.now).value[1];
    FirstRoundStore(t.store, t.conversationId, call, before, v.oracle, t.now);
    assert CompanyIn(stores[1], t.conversationId) == Some(NormalizeCompany(company));
    assert s.turn.generations[1].prompt == Prompts.SystemPrompt(CompanyIn(stores[1], t.conversationId));
    assert s.turn.generations[1].tools == Registry.GroupSchemas(CompanyIn(stores[1], t.conversationId));
  }

  /** The model is shown the calls it asked for and their results: when the first response asks
      for calls, the turn's second generation is made on the opening contents (without the
      hint) followed by one exchange per call, holding the results of dispatching them in
      order. */
  lemma FirstRoundShown(t: Turn, message: string, s: LoopState, u: Turn, text: string)
    requires |t.generations| == 0
    requires Replied(t, message, s, u, text) && t.oracle[0].CallsReply?
    ensures RunAll(t.store, t.conversationId, t.oracle[0].calls, |t.oracle[0].calls|, t.now).Ok?
    ensures 2 <= |u.generations|
    ensures u.generations[1].contents
              == t.contents + Exchanges(t.oracle[0].calls, RunAll(t.store, t.conversationId, t.oracle[0].calls, |t.oracle[0].calls|, t.now).value.1)
  {
    var v := Started(t, message);
    CallsFirstLoops(t, message, s, u, text);
    var all := RoundContents(v.store, v.conversationId, t.oracle[0], v.oracle, s.iterations, v.now, v.contents).value;
    FirstContentsKept(v.store, v.conversationId, t.oracle[0], v.oracle, s.iterations, v.now, v.contents, all);
    FirstRoundContents(t.store, t.conversationId, t.oracle[0], v.oracle, t.now, t.contents);
    assert s.turn.generations[1].contents == all[1];
  }

  /** A turn that ends the conversation and then has nothing to say replies with the closing
      line, and the conversation is left completed. */
  lemma EndedTurn(t: Turn, message: string, s: LoopState, u: Turn, text: string)
    requires Routed(t) && |t.generations| == 0 && t.collected == ""
    requires Replied(t, message, s, u, text)
    requires t.oracle == [CallsReply([Call(Registry.EndConversationName, map[])], ""), TextReply("")]
    ensures s.iterations == 1 && u == s.turn && text == EndedLine
    ensures 1 <= t.conversationId <= |u.store.conversations|
    ensures u.store.conversations[t.conversationId - 1].status == Completed
  {
    var v := Started(t, message);
    var call := Call(Registry.EndConversationName, map[]);
    CallsFirstLoops(t, message, s, u, text);
    assert s.response == TextReply("");
    assert s.turn.collected == "" by {
      assert Collected(t.oracle[0], v.oracle, 1) == "";
    }
    assert s.turn.lastTool == Some(Registry.EndConversationName);
    assert Chosen(s.turn, s.response) == Some(EndedLine);
    FirstRoundStore(t.store, t.conversationId, call, "", v.oracle, t.now);
  }
}

=== FILE: prompts.dfy ===
/** The prompt selector of app/core/prompts/system_prompt.py; the prompt texts are opaque. */
module Prompts {
  import opened Wrappers

  /** The three system instructions: intent router, equipment sales, technical services. */
  datatype Prompt = RouterPrompt | KossodoPrompt | KossometPrompt

  /** `get_system_prompt`: total and pure in the routing value. */
  function SystemPrompt(company: Option<string>): (p: Prompt)
    ensures p == KossodoPrompt <==> company == Some("kossodo")
    ensures p == KossometPrompt <==> company == Some("kossomet")
    ensures p == RouterPrompt <==> company != Some("kossodo") && company != Some("kossomet")
  {
    if company == Some("kossodo") then KossodoPrompt
    else if company == Some("kossomet") then KossometPrompt
    else RouterPrompt
  }
}

=== FILE: registry.dfy ===
/**
 * The tool registry of app/services/tools/registry.py: tool groups per routing
 * value, lookup by name and dispatch of a model's function call.
 */
module Registry {
  import opened Wrappers
  import opened Models
  import opened Tools
  import Repository

  const SetCompanyName := "set_company"
  const SaveContactName := "save_contact"
  const SaveInquiryName := "save_inquiry"
  const EndConversationName := "end_conversation"

  /** `ROUTER_TOOLS`, `KOSSODO_TOOLS`, `KOSSOMET_TOOLS`. */
  const RouterTools: seq<string> := [SetCompanyName]
  const KossodoTools: seq<string> := [SaveContactName, SaveInquiryName, EndConversationName]
  const KossometTools: seq<string> := [SaveContactName, SaveInquiryName, EndConversationName]

  /** The keys of `_tools` once the four tool modules have registered themselves. */
  const Registered: set<string> := {SetCompanyName, SaveContactName, SaveInquiryName, EndConversationName}

  /** A tool instance: a handler bound to the turn's conversation id. */
  datatype BoundTool = BoundTool(name: string, conversationId: nat)

  /** `get_tool`: an unregistered name raises. */
  function GetTool(name: string, conversationId: nat): (r: Result<BoundTool, Failure>)
    ensures r.Ok? <==> name in Registered
    ensures r.Ok? ==> r.value == BoundTool(name, conversationId)
    ensures r.Err? ==> r.error == UnknownTool(name)
  {
    if name !in Registered then Err(UnknownTool(name)) else Ok(BoundTool(name, conversationId))
  }

  /** The keyword parameters of each handler's `execute`. */
  function Parameters(name: string): set<string> {
    if name == SetCompanyName then {"company"}
    else if name == SaveContactName then {"name", "phone", "email", "company_name", "ruc_dni"}
    else if name == SaveInquiryName then {"description"}
    else {"summary"}
  }

  /** The parameters without a default. */
  function Required(name: string): set<string> {
    if name == SetCompanyName then {"company"}
    else if name == SaveInquiryName then {"description"}
    else {}
  }

  /** `execute(**args)` runs without raising: no unexpected keyword, every required keyword
      present, and `company` not null (the handler calls `company.lower()`). */
  predicate Binds(name: string, args: Args) {
    && args.Keys <= Parameters(name)
    && Required(name) <= args.Keys
    && (name == SetCompanyName ==> Arg(args, "company").Some?)
  }

  /** `tool.execute(**args)` for a registered tool. */
  function Execute(tool: BoundTool, st: Store, args: Args, now: int): (r: Result<(Store, ToolResult), Failure>)
    requires tool.name in Registered
    ensures r.Ok? <==> Binds(tool.name, args)
    ensures r.Err? ==> r.error == BadArguments(tool.name)
  {
    if !Binds(tool.name, args) then Err(BadArguments(tool.name))
    else if tool.name == SetCompanyName then
      Ok(Tools.SetCompany(st, tool.conversationId, Arg(args, "company").value, now))
    else if tool.name == SaveContactName then
      Ok(Tools.SaveContact(st, tool.conversationId, ContactFieldsOf(args)))
    else if tool.name == SaveInquiryName then
      Ok(Tools.SaveInquiry(st, tool.conversationId, Arg(args, "description")))
    else
      Ok(Tools.EndConversation(st, tool.conversationId, Arg(args, "summary"), now))
  }

  /** The agent's `_execute_tool`: look the name up in the whole registry, whatever group is
      active, then run the handler. An unregistered name and arguments that do not bind are
      the only failures. */
  function Dispatch(st: Store, conversationId: nat, name: string, args: Args, now: int): (r: Result<(Store, ToolResult), Failure>)
    ensures r.Ok? <==> name in Registered && Binds(name, args)
    ensures r.Err? ==> r.error == (if name in Registered then BadArguments(name) else UnknownTool(name))
  {
    var tool :- GetTool(name, conversationId);
    Execute(tool, st, args, now)
  }

  /** Tools never add conversations, rename sessions or touch the transcript, and they keep
      the database constraints. */
  lemma DispatchKeepsSessions(st: Store, conversationId: nat, name: string, args: Args, now: int)
    ensures var r := Dispatch(st, conversationId, name, args, now);
      r.Ok? ==>
        && SameSessions(st.conversations, r.value.0.conversations)
        && r.value.0.messages == st.messages
        && (Valid(st) ==> Valid(r.value.0))
  {
    var r := Dispatch(st, conversationId, name, args, now);
    if r.Ok? {
      if name == SetCompanyName {
        SetCompanyKeepsShape(st, conversationId, Arg(args, "company").value, now);
      } else if name == SaveContactName {
        SaveContactKeepsShape(st, conversationId, ContactFieldsOf(args));
      } else if name == SaveInquiryName {
        SaveInquiryKeepsShape(st, conversationId, Arg(args, "description"));
      } else {
        EndConversationKeepsShape(st, conversationId, Arg(args, "summary"), now);
      }
    }
  }

  /** What a tool leaves of the store: the conversations' tokens, the transcript and the
      constraints. */
  ghost predicate KeepsShape(a: Store, b: Store) {
    && SameSessions(a.conversations, b.conversations)
    && b.messages == a.messages
    && (Valid(a) ==> Valid(b))
  }

  lemma SetCompanyKeepsShape(st: Store, conversationId: nat, company: string, now: int)
    ensures KeepsShape(st, Tools.SetCompany(st, conversationId, company, now).0)
  {
  }

  lemma SaveContactKeepsShape(st: Store, conversationId: nat, f: Repository.ContactFields)
    ensures KeepsShape(st, Tools.SaveContact(st, conversationId, f).0)
    ensures SameCompanies(st.conversations, Tools.SaveContact(st, conversationId, f).0.conversations)
  {
  }

  lemma SaveInquiryKeepsShape(st: Store, conversationId: nat, description: Option<string>)
    ensures KeepsShape(st, Tools.SaveInquiry(st, conversationId, description).0)
    ensures SameCompanies(st.conversations, Tools.SaveInquiry(st, conversationId, description).0.conversations)
  {
  }

  lemma EndConversationKeepsShape(st: Store, conversationId: nat, summary: Option<string>, now: int)
    ensures KeepsShape(st, Tools.EndConversation(st, conversationId, summary, now).0)
    ensures SameCompanies(st.conversations, Tools.EndConversation(st, conversationId, summary, now).0.conversations)
  {
  }

  /** Only a successful `set_company` changes a routing value: it succeeds exactly when the
      normalized name is a business line and the conversation exists, and then stores the
      normalized name on that conversation alone. */
  lemma DispatchRouting(st: Store, conversationId: nat, name: string, args: Args, now: int)
    ensures var r := Dispatch(st, conversationId, name, args, now);
      && (r.Ok? && !(name == SetCompanyName && r.value.1.success) ==>
            SameCompanies(st.conversations, r.value.0.conversations))
      && (r.Ok? && name == SetCompanyName ==>
            (r.value.1.success <==> NormalizeCompany(Arg(args, "company").value) in Companies
                                    && 1 <= conversationId <= |st.conversations|))
      && (r.Ok? && name == SetCompanyName && r.value.1.success ==>
            && 1 <= conversationId <= |st.conversations|
            && r.value.0.conversations[conversationId - 1].company == Some(NormalizeCompany(Arg(args, "company").value))
            && forall k :: 0 <= k < |st.conversations| && k != conversationId - 1 ==>
                 r.value.0.conversations[k].company == st.conversations[k].company)
  {
    var r := Dispatch(st, conversationId, name, args, now);
    if r.Ok? {
      if name == SaveContactName {
        SaveContactKeepsShape(st, conversationId, ContactFieldsOf(args));
      } else if name == SaveInquiryName {
        SaveInquiryKeepsShape(st, conversationId, Arg(args, "description"));
      } else if name == EndConversationName {
        EndConversationKeepsShape(st, conversationId, Arg(args, "summary"), now);
      }
    }
  }

  /** `get_tool_names_for_group`. */
  function ToolNamesForGroup(group: Option<string>): (names: seq<string>)
    ensures group == Some("kossodo") ==> names == KossodoTools
    ensures group == Some("kossomet") ==> names == KossometTools
    ensures group != Some("kossodo") && group != Some("kossomet") ==> names == RouterTools
  {
    if group == Some("kossodo") then KossodoTools
    else if group == Some("kossomet") then KossometTools
    else RouterTools
  }

  /** The list comprehension of `get_tools_for_group`: an instance for every registered name,
      in the group's order. */
  function Instantiate(names: seq<string>, registered: set<string>, conversationId: nat): (r: seq<BoundTool>)
    ensures |r| <= |names|
    ensures forall k :: 0 <= k < |r| ==> r[k].name in registered && r[k].name in names && r[k].conversationId == conversationId
    ensures forall k :: 0 <= k < |names| && names[k] in registered ==> BoundTool(names[k], conversationId) in r
    ensures (forall k :: 0 <= k < |names| ==> names[k] in registered) ==>
              |r| == |names| && forall k :: 0 <= k < |r| ==> r[k].name == names[k]
  {
    if |names| == 0 then []
    else
      var rest := Instantiate(names[1..], registered, conversationId);
      assert forall k :: 1 <= k < |names| ==> names[k] == names[1..][k - 1];
      if names[0] in registered then
        var r := [BoundTool(names[0], conversationId)] + rest;
        assert forall k :: 1 <= k < |r| ==> r[k] == rest[k - 1];
        r
      else rest
  }

  /** The comprehension is a filter that keeps order: a single name yields its instance
      exactly when it is registered, and a concatenation of names yields the concatenation. */
  lemma {:induction false} InstantiateAppend(a: seq<string>, b: seq<string>, registered: set<string>, conversationId: nat)
    ensures Instantiate(a + b, registered, conversationId)
              == Instantiate(a, registered, conversationId) + Instantiate(b, registered, conversationId)
    ensures |a| == 1 ==>
              Instantiate(a, registered, conversationId) == (if a[0] in registered then [BoundTool(a[0], conversationId)] else [])
    decreases |a|
  {
    if |a| == 0 {
      assert a + b == b;
    } else {
      assert (a + b)[0] == a[0] && (a + b)[1..] == a[1..] + b;
      InstantiateAppend(a[1..], b, registered, conversationId);
    }
  }

  /** `get_tools_for_group` with the registry's contents as a parameter. */
  function ToolsForGroup(group: Option<string>, registered: set<string>, conversationId: nat): seq<BoundTool> {
    var names :=
      if group == Some("kossodo") then KossodoTools
      else if group == Some("kossomet") then KossometTools
      else RouterTools;
    Instantiate(names, registered, conversationId)
  }

  /** The schema of each named tool, in order. */
  function GroupSchemas(group: Option<string>): (r: seq<ToolSchema>)
    ensures |r| == |ToolNamesForGroup(group)|
    ensures forall k :: 0 <= k < |r| ==> r[k] == ToolSchema(ToolNamesForGroup(group)[k])
  {
    var names := ToolNamesForGroup(group);
    seq(|names|, k requires 0 <= k < |names| => ToolSchema(names[k]))
  }

  /** `get_gemini_tools_for_group`: the schemas of the instantiated tools. Every group name is
      registered, so these are the group's schemas in order, whatever the conversation. */
  function GeminiToolsForGroup(group: Option<string>, conversationId: nat): (r: seq<ToolSchema>)
    ensures r == GroupSchemas(group)
  {
    var tools := ToolsForGroup(group, Registered, conversationId);
    ToolsForGroupMatchesNames(group, conversationId);
    seq(|tools|, k requires 0 <= k < |tools| => ToolSchema(tools[k].name))
  }

  /** Both group splits agree: with every group name registered, the instantiated tools are the
      named group in order, bound to the conversation. */
  lemma ToolsForGroupMatchesNames(group: Option<string>, conversationId: nat)
    ensures var tools := ToolsForGroup(group, Registered, conversationId);
            |tools| == |ToolNamesForGroup(group)| &&
            forall k :: 0 <= k < |tools| ==> tools[k] == BoundTool(ToolNamesForGroup(group)[k], conversationId)
  {
  }

  /** Names missing from the registry are dropped from a group; the rest keep their order. */
  lemma UnregisteredNamesDropped(group: Option<string>, conversationId: nat)
    ensures ToolsForGroup(group, {SetCompanyName, SaveInquiryName}, conversationId) ==
              (if group == Some("kossodo") || group == Some("kossomet")
               then [BoundTool(SaveInquiryName, conversationId)]
               else [BoundTool(SetCompanyName, conversationId)])
  {
    var reg := {SetCompanyName, SaveInquiryName};
    var sales := KossodoTools;
    assert sales[1..][1..][1..] == [];
    assert Instantiate(sales[1..][1..], reg, conversationId) == [];
    assert Instantiate(sales[1..], reg, conversationId) == [BoundTool(SaveInquiryName, conversationId)];
    assert Instantiate(sales, reg, conversationId) == [BoundTool(SaveInquiryName, conversationId)];
    assert RouterTools[1..] == [];
    assert Instantiate(RouterTools, reg, conversationId) == [BoundTool(SetCompanyName, conversationId)];
  }

  /** Dispatch ignores the active group: the router-only `set_company` still runs while the
      sales group is active, and a sales tool still runs in the router phase. */
  lemma DispatchOutsideGroup(st: Store, conversationId: nat, now: int)
    ensures SetCompanyName !in ToolNamesForGroup(Some("kossodo"))
    ensures Dispatch(st, conversationId, SetCompanyName, map["company" := Some("kossodo")], now).Ok?
    ensures SaveInquiryName !in ToolNamesForGroup(None)
    ensures Dispatch(st, conversationId, SaveInquiryName, map["description" := Some("x")], now).Ok?
  {
    assert Binds(SetCompanyName, map["company" := Some("kossodo")]);
    assert Binds(SaveInquiryName, map["description" := Some("x")]);
  }
}

=== FILE: repository.dfy ===
/**
 * The repositories of app/db/repositories/conversation.py over the store of `Models`.
 *
 * Conversation updates go through `Touch`: the row's `updated_at` column is
 * maintained by the database layer (`onupdate=func.now()`) and moves to `now`
 * only when an update actually writes a different value.
 */
module Repository {
  import opened Wrappers
  import opened Models
  import Base

  // ---------------------------------------------------------------- conversations

  /** `get_by_session_id`: the id of the conversation with that session token. */
  function GetBySessionId(st: Store, sessionId: string): (r: Option<nat>)
    ensures r.Some? ==> 1 <= r.value <= |st.conversations|
    ensures r.Some? ==> st.conversations[r.value - 1].sessionId == sessionId
    ensures r.Some? ==> forall k :: 0 <= k < r.value - 1 ==> st.conversations[k].sessionId != sessionId
    ensures r.None? <==> forall k :: 0 <= k < |st.conversations| ==> st.conversations[k].sessionId != sessionId
  {
    match Base.Find(st.conversations, (c: Conversation) => c.sessionId == sessionId)
    case None => None
    case Some(k) => Some(k + 1)
  }

  /** Under the unique index, the conversation holding a token is the one found. */
  lemma GetBySessionIdUnique(st: Store, id: nat)
    requires UniqueSessions(st.conversations)
    requires 1 <= id <= |st.conversations|
    ensures GetBySessionId(st, st.conversations[id - 1].sessionId) == Some(id)
  {
    var s := st.conversations[id - 1].sessionId;
    assert st.conversations[id - 1].sessionId == s;
  }

  /** `create_conversation`: a new ACTIVE conversation without company. The unique index
      on `session_id` makes the insert fail when the token is already taken. */
  function CreateConversation(st: Store, sessionId: string, now: int): (r: Result<(Store, nat), Failure>)
    ensures r.Ok? <==> GetBySessionId(st, sessionId).None?
    ensures r.Err? ==> r.error == SessionConflict(sessionId)
    ensures r.Ok? ==> r.value.1 == |st.conversations| + 1
    ensures r.Ok? ==> r.value.0 == st.(conversations := st.conversations + [Conversation(sessionId, None, Active, now, now)])
    ensures r.Ok? && UniqueSessions(st.conversations) ==> UniqueSessions(r.value.0.conversations)
  {
    if GetBySessionId(st, sessionId).Some? then Err(SessionConflict(sessionId))
    else
      var (rows, id) := Base.Create(st.conversations, Conversation(sessionId, None, Active, now, now));
      Ok((st.(conversations := rows), id))
  }

  /** The row as stored after an update: `updated_at` moves only when something changed. */
  function Touch(before: Conversation, after: Conversation, now: int): (r: Conversation)
    requires after.updatedAt == before.updatedAt
    ensures r.updatedAt == (if after == before then before.updatedAt else now)
    ensures r.(updatedAt := before.updatedAt) == after
  {
    if after == before then before else after.(updatedAt := now)
  }

  /** Writes the updated conversation `id` back; no other row or table changes. */
  function PutConversation(st: Store, id: nat, c: Conversation): (r: Store)
    requires 1 <= id <= |st.conversations|
    requires c.sessionId == st.conversations[id - 1].sessionId
    ensures r.conversations == st.conversations[id - 1 := c]
    ensures r.messages == st.messages && r.contacts == st.contacts && r.inquiries == st.inquiries
    ensures UniqueSessions(st.conversations) ==> UniqueSessions(r.conversations)
  {
    st.(conversations := Base.Put(st.conversations, id, c))
  }

  /** `set_company`: only the company changes (and the timestamp when it is a new value). */
  function SetCompany(st: Store, id: nat, company: string, now: int): (r: Store)
    requires 1 <= id <= |st.conversations|
    ensures |r.conversations| == |st.conversations|
    ensures r.conversations[id - 1].company == Some(company)
    ensures r.conversations[id - 1].(company := st.conversations[id - 1].company,
                                     updatedAt := st.conversations[id - 1].updatedAt) == st.conversations[id - 1]
    ensures r.conversations[id - 1].updatedAt ==
              (if st.conversations[id - 1].company == Some(company) then st.conversations[id - 1].updatedAt else now)
    ensures forall k :: 0 <= k < |st.conversations| && k != id - 1 ==> r.conversations[k] == st.conversations[k]
    ensures r.messages == st.messages && r.contacts == st.contacts && r.inquiries == st.inquiries
  {
    var c := st.conversations[id - 1];
    PutConversation(st, id, Touch(c, c.(company := Some(company)), now))
  }

  /** `set_status`: only the status changes (and the timestamp when it is a new value). */
  function SetStatus(st: Store, id: nat, status: Status, now: int): (r: Store)
    requires 1 <= id <= |st.conversations|
    ensures |r.conversations| == |st.conversations|
    ensures r.conversations[id - 1].status == status
    ensures r.conversations[id - 1].(status := st.conversations[id - 1].status,
                                     updatedAt := st.conversations[id - 1].updatedAt) == st.conversations[id - 1]
    ensures r.conversations[id - 1].updatedAt ==
              (if st.conversations[id - 1].status == status then st.conversations[id - 1].updatedAt else now)
    ensures forall k :: 0 <= k < |st.conversations| && k != id - 1 ==> r.conversations[k] == st.conversations[k]
    ensures r.messages == st.messages && r.contacts == st.contacts && r.inquiries == st.inquiries
  {
    var c := st.conversations[id - 1];
    PutConversation(st, id, Touch(c, c.(status := status), now))
  }

  /** `expire_conversation`. */
  function ExpireConversation(st: Store, id: nat, now: int): (r: Store)
    requires 1 <= id <= |st.conversations|
    ensures |r.conversations| == |st.conversations|
    ensures r.conversations[id - 1].status == Expired
    ensures st.conversations[id - 1].status != Expired ==>
              r.conversations[id - 1] == st.conversations[id - 1].(status := Expired, updatedAt := now)
    ensures r.conversations[id - 1].company == st.conversations[id - 1].company
    ensures r.conversations[id - 1].sessionId == st.conversations[id - 1].sessionId
    ensures forall k :: 0 <= k < |st.conversations| && k != id - 1 ==> r.conversations[k] == st.conversations[k]
    ensures r.messages == st.messages && r.contacts == st.contacts && r.inquiries == st.inquiries
  {
    SetStatus(st, id, Expired, now)
  }

  /** `is_expired`: idle for strictly longer than the timeout; never for a conversation
      that is not ACTIVE. */
  function IsExpired(c: Conversation, now: int, idleTimeout: int): (expired: bool)
    ensures c.status != Active ==> !expired
    ensures c.status == Active ==> (expired <==> now - c.updatedAt > idleTimeout)
  {
    if c.status != Active then false
    else now - c.updatedAt > idleTimeout
  }

  /** Once idle-expired, a conversation stays expired as the clock advances. */
  lemma ExpiryPersists(c: Conversation, now: int, later: int, idleTimeout: int)
    requires IsExpired(c, now, idleTimeout)
    requires now <= later
    ensures IsExpired(c, later, idleTimeout)
  {
  }

  // ---------------------------------------------------------------- messages

  /** `add_message`. */
  function AddMessage(st: Store, conversationId: nat, role: Role, content: string, now: int): (r: Store)
    ensures r.messages == st.messages + [Message(conversationId, role, content, now)]
    ensures r.conversations == st.conversations && r.contacts == st.contacts && r.inquiries == st.inquiries
  {
    st.(messages := Base.Create(st.messages, Message(conversationId, role, content, now)).0)
  }

  /** A message stamped with a clock no earlier than every stored one keeps the transcript
      in time order. */
  lemma AddMessageKeepsOrder(st: Store, conversationId: nat, role: Role, content: string, now: int)
    requires NotBefore(st, now)
    ensures NotBefore(AddMessage(st, conversationId, role, content, now), now)
    ensures Chronological(st.messages) ==> Chronological(AddMessage(st, conversationId, role, content, now).messages)
  {
  }

  /** `get_conversation_messages`: that conversation's messages, taken from the transcript
      in its order (which is time order for a chronological transcript, see
      `ConversationMessagesOrdered`). */
  function ConversationMessages(ms: seq<Message>, conversationId: nat): (r: seq<Message>)
    ensures |r| <= |ms|
    ensures forall k :: 0 <= k < |r| ==> r[k].conversationId == conversationId && r[k] in ms
    ensures forall k :: 0 <= k < |ms| && ms[k].conversationId == conversationId ==> ms[k] in r
  {
    if |ms| == 0 then []
    else
      var last := ms[|ms| - 1];
      var earlier := ms[..|ms| - 1];
      var rest := ConversationMessages(earlier, conversationId);
      assert forall k :: 0 <= k < |earlier| ==> ms[k] == earlier[k];
      if last.conversationId == conversationId then rest + [last] else rest
  }

  /** Each message of the conversation occurs in the result as often as in the transcript, and
      no other message occurs: the result is a permutation of the conversation's rows. */
  lemma {:induction false} ConversationMessagesCounts(ms: seq<Message>, conversationId: nat, m: Message)
    ensures multiset(ConversationMessages(ms, conversationId))[m]
              == if m.conversationId == conversationId then multiset(ms)[m] else 0
    decreases |ms|
  {
    if |ms| > 0 {
      var earlier := ms[..|ms| - 1];
      assert ms == earlier + [ms[|ms| - 1]];
      ConversationMessagesCounts(earlier, conversationId, m);
    }
  }

  /** The filter distributes over concatenation: the messages of a conversation in `a + b`
      are its messages in `a` followed by its messages in `b`, each in transcript order. */
  lemma {:induction false} ConversationMessagesAppend(a: seq<Message>, b: seq<Message>, conversationId: nat)
    ensures ConversationMessages(a + b, conversationId)
              == ConversationMessages(a, conversationId) + ConversationMessages(b, conversationId)
    decreases |b|
  {
    if |b| == 0 {
      assert a + b == a;
    } else {
      var last := b[|b| - 1];
      var init := b[..|b| - 1];
      assert (a + b)[..|a + b| - 1] == a + init && (a + b)[|a + b| - 1] == last;
      ConversationMessagesAppend(a, init, conversationId);
    }
  }

  /** A transcript in time order yields each conversation's messages in time order. */
  lemma {:induction false} ConversationMessagesOrdered(ms: seq<Message>, conversationId: nat)
    requires Chronological(ms)
    ensures Chronological(ConversationMessages(ms, conversationId))
    decreases |ms|
  {
    if |ms| > 0 {
      var last := ms[|ms| - 1];
      var earlier := ms[..|ms| - 1];
      assert Chronological(earlier) by {
        forall i, j | 0 <= i < j < |earlier|
          ensures earlier[i].createdAt <= earlier[j].createdAt
        {
          assert earlier[i] == ms[i] && earlier[j] == ms[j];
        }
      }
      ConversationMessagesOrdered(earlier, conversationId);
      var rest := ConversationMessages(earlier, conversationId);
      if last.conversationId == conversationId {
        NotAfterLast(ms, rest);
        var r := rest + [last];
        forall i, j | 0 <= i < j < |r|
          ensures r[i].createdAt <= r[j].createdAt
        {
          if j < |rest| {
            assert r[i] == rest[i] && r[j] == rest[j];
          } else {
            assert r[i] == rest[i] && r[j] == last;
          }
        }
      }
    }
  }

  /** Messages taken from before the last one of a chronological list are not later than it. */
  lemma NotAfterLast(ms: seq<Message>, rest: seq<Message>)
    requires |ms| > 0 && Chronological(ms)
    requires forall k :: 0 <= k < |rest| ==> rest[k] in ms[..|ms| - 1]
    ensures forall k :: 0 <= k < |rest| ==> rest[k].createdAt <= ms[|ms| - 1].createdAt
  {
    forall k | 0 <= k < |rest|
      ensures rest[k].createdAt <= ms[|ms| - 1].createdAt
    {
      var i :| 0 <= i < |ms| - 1 && ms[..|ms| - 1][i] == rest[k];
      assert ms[i] == rest[k];
    }
  }

  /** Appending a message extends exactly its own conversation's transcript. */
  lemma {:induction false} TranscriptAfterAdd(ms: seq<Message>, m: Message, conversationId: nat)
    ensures ConversationMessages(ms + [m], conversationId) ==
              ConversationMessages(ms, conversationId) + (if m.conversationId == conversationId then [m] else [])
  {
    assert (ms + [m])[..|ms + [m]| - 1] == ms;
  }

  // ---------------------------------------------------------------- contacts

  /** The optional arguments of `upsert_contact`. */
  datatype ContactFields = ContactFields(
    name: Option<string>,
    phone: Option<string>,
    email: Option<string>,
    companyName: Option<string>,
    rucDni: Option<string>)

  /** Every argument is `None`. */
  predicate NoFields(f: ContactFields) {
    f.name.None? && f.phone.None? && f.email.None? && f.companyName.None? && f.rucDni.None?
  }

  /** `ContactRepository.get_by_conversation_id`, as a row index. */
  function ContactIndex(cs: seq<Contact>, conversationId: nat): (r: Option<nat>)
    ensures r.Some? ==> r.value < |cs| && cs[r.value].conversationId == conversationId
    ensures r.None? <==> forall k :: 0 <= k < |cs| ==> cs[k].conversationId != conversationId
  {
    Base.Find(cs, (c: Contact) => c.conversationId == conversationId)
  }

  /** One field of the per-field merge: overwritten iff the argument is not `None`. */
  function MergeField(current: Option<string>, arg: Option<string>): (r: Option<string>)
    ensures arg.Some? ==> r == arg
    ensures arg.None? ==> r == current
  {
    if arg.Some? then arg else current
  }

  /** The update branch of `upsert_contact` applied to an existing contact. */
  function Merge(c: Contact, f: ContactFields): (r: Contact)
    ensures r.conversationId == c.conversationId
    ensures NoFields(f) ==> r == c
  {
    Contact(c.conversationId,
            MergeField(c.name, f.name),
            MergeField(c.phone, f.phone),
            MergeField(c.email, f.email),
            MergeField(c.companyName, f.companyName),
            MergeField(c.rucDni, f.rucDni))
  }

  /** `upsert_contact`: merge into the conversation's contact, or create it from exactly the
      five arguments. Returns the store and the contact's id. */
  function UpsertContact(st: Store, conversationId: nat, f: ContactFields): (r: (Store, nat))
    ensures r.0.conversations == st.conversations && r.0.messages == st.messages && r.0.inquiries == st.inquiries
    ensures 1 <= r.1 <= |r.0.contacts| && r.0.contacts[r.1 - 1].conversationId == conversationId
    ensures ContactIndex(st.contacts, conversationId).None? ==>
              r.0.contacts == st.contacts + [Contact(conversationId, f.name, f.phone, f.email, f.companyName, f.rucDni)]
    ensures ContactIndex(st.contacts, conversationId).Some? ==>
              var k := ContactIndex(st.contacts, conversationId).value;
              r.1 == k + 1 && r.0.contacts == st.contacts[k := Merge(st.contacts[k], f)]
    ensures ContactIndex(st.contacts, conversationId).Some? && NoFields(f) ==> r.0 == st
    ensures OneContactEach(st.contacts) ==> OneContactEach(r.0.contacts)
  {
    match ContactIndex(st.contacts, conversationId)
    case Some(k) =>
      if NoFields(f) then (st, k + 1)
      else (st.(contacts := Base.Put(st.contacts, k + 1, Merge(st.contacts[k], f))), k + 1)
    case None =>
      var (rows, id) := Base.Create(st.contacts, Contact(conversationId, f.name, f.phone, f.email, f.companyName, f.rucDni));
      (st.(contacts := rows), id)
  }

  /** Merging never erases: a field that held a value still holds one. */
  lemma MergeNeverClears(c: Contact, f: ContactFields)
    ensures c.name.Some? ==> Merge(c, f).name.Some?
    ensures c.phone.Some? ==> Merge(c, f).phone.Some?
    ensures c.email.Some? ==> Merge(c, f).email.Some?
    ensures c.companyName.Some? ==> Merge(c, f).companyName.Some?
    ensures c.rucDni.Some? ==> Merge(c, f).rucDni.Some?
  {
  }

  /** Two merges equal one merge whose arguments take the later value when it is given. */
  lemma MergeComposes(c: Contact, first: ContactFields, second: ContactFields)
    ensures Merge(Merge(c, first), second) ==
              Merge(c, ContactFields(MergeField(first.name, second.name),
                                     MergeField(first.phone, second.phone),
                                     MergeField(first.email, second.email),
                                     MergeField(first.companyName, second.companyName),
                                     MergeField(first.rucDni, second.rucDni)))
  {
  }

  // ---------------------------------------------------------------- inquiries

  /** `InquiryRepository.get_by_conversation_id`, as a row index. */
  function InquiryIndex(qs: seq<Inquiry>, conversationId: nat): (r: Option<nat>)
    ensures r.Some? ==> r.value < |qs| && qs[r.value].conversationId == conversationId
    ensures r.None? <==> forall k :: 0 <= k < |qs| ==> qs[k].conversationId != conversationId
  {
    Base.Find(qs, (q: Inquiry) => q.conversationId == conversationId)
  }

  /** `upsert_inquiry`: replace the description, or create the inquiry. Returns the store
      and the inquiry's id. */
  function UpsertInquiry(st: Store, conversationId: nat, description: string): (r: (Store, nat))
    ensures r.0.conversations == st.conversations && r.0.messages == st.messages && r.0.contacts == st.contacts
    ensures 1 <= r.1 <= |r.0.inquiries|
    ensures r.0.inquiries[r.1 - 1] == Inquiry(conversationId, description)
    ensures InquiryIndex(st.inquiries, conversationId).None? ==> r.0.inquiries == st.inquiries + [Inquiry(conversationId, description)]
    ensures InquiryIndex(st.inquiries, conversationId).Some? ==>
              r.0.inquiries == st.inquiries[InquiryIndex(st.inquiries, conversationId).value := Inquiry(conversationId, description)]
    ensures OneInquiryEach(st.inquiries) ==> OneInquiryEach(r.0.inquiries)
  {
    match InquiryIndex(st.inquiries, conversationId)
    case Some(k) => (st.(inquiries := Base.Put(st.inquiries, k + 1, Inquiry(conversationId, description))), k + 1)
    case None =>
      var (rows, id) := Base.Create(st.inquiries, Inquiry(conversationId, description));
      (st.(inquiries := rows), id)
  }

  /** Last write wins: a second upsert leaves the store as if only it had happened. */
  lemma UpsertInquiryLastWins(st: Store, conversationId: nat, first: string, second: string)
    ensures UpsertInquiry(UpsertInquiry(st, conversationId, first).0, conversationId, second) ==
              UpsertInquiry(st, conversationId, second)
  {
    var s1 := UpsertInquiry(st, conversationId, first).0;
    match InquiryIndex(st.inquiries, conversationId)
    case Some(k) =>
      assert InquiryIndex(s1.inquiries, conversationId) == Some(k) by {
        assert forall j :: 0 <= j < k ==> s1.inquiries[j] == st.inquiries[j];
      }
      var q2 := Inquiry(conversationId, second);
      assert st.inquiries[k := Inquiry(conversationId, first)][k := q2] == st.inquiries[k := q2];
    case None =>
      var n := |st.inquiries|;
      assert InquiryIndex(s1.inquiries, conversationId) == Some(n) by {
        assert forall j :: 0 <= j < n ==> s1.inquiries[j] == st.inquiries[j];
      }
      var q2 := Inquiry(conversationId, second);
      assert (st.inquiries + [Inquiry(conversationId, first)])[n := q2] == st.inquiries + [q2];
  }

  // ---------------------------------------------------------------- attribute view

  /** A column value as `update(**kwargs)` sees it. */
  datatype Value = Null | Str(s: string) | Int(i: int)

  function OptStr(o: Option<string>): Value {
    if o.Some? then Str(o.value) else Null
  }

  /** The writable columns of a conversation (`updated_at` is left to the database). */
  function ConversationAttrs(c: Conversation): map<string, Value> {
    map["session_id" := Str(c.sessionId), "company" := OptStr(c.company),
        "status" := Str(StatusName(c.status)), "created_at" := Int(c.createdAt)]
  }

  /** `set_company` is `update(conversation, company=...)`. */
  lemma SetCompanyIsUpdate(st: Store, id: nat, company: string, now: int)
    requires 1 <= id <= |st.conversations|
    ensures ConversationAttrs(SetCompany(st, id, company, now).conversations[id - 1]) ==
              Base.Update(ConversationAttrs(st.conversations[id - 1]), map["company" := Str(company)])
  {
  }

  /** `set_status` is `update(conversation, status=...)`. */
  lemma SetStatusIsUpdate(st: Store, id: nat, status: Status, now: int)
    requires 1 <= id <= |st.conversations|
    ensures ConversationAttrs(SetStatus(st, id, status, now).conversations[id - 1]) ==
              Base.Update(ConversationAttrs(st.conversations[id - 1]), map["status" := Str(StatusName(status))])
  {
  }

  /** The writable columns of a contact. */
  function ContactAttrs(c: Contact): map<string, Value> {
    map["conversation_id" := Int(c.conversationId), "name" := OptStr(c.name), "phone" := OptStr(c.phone),
        "email" := OptStr(c.email), "company_name" := OptStr(c.companyName), "ruc_dni" := OptStr(c.rucDni)]
  }

  /** The argument of `upsert_contact` that goes with a contact column. */
  function ContactArg(f: ContactFields, column: string): Option<string> {
    if column == "name" then f.name
    else if column == "phone" then f.phone
    else if column == "email" then f.email
    else if column == "company_name" then f.companyName
    else if column == "ruc_dni" then f.rucDni
    else None
  }

  /** The keyword arguments `upsert_contact` passes to `update`: the non-`None` ones. */
  function ContactKwargs(f: ContactFields): map<string, Value> {
    map column | column in {"name", "phone", "email", "company_name", "ruc_dni"} && ContactArg(f, column).Some?
      :: Str(ContactArg(f, column).value)
  }

  /** The per-field merge is the generic update with the non-`None` keywords. */
  lemma MergeIsUpdate(c: Contact, f: ContactFields)
    ensures ContactAttrs(Merge(c, f)) == Base.Update(ContactAttrs(c), ContactKwargs(f))
  {
    var a := ContactAttrs(Merge(c, f));
    var b := Base.Update(ContactAttrs(c), ContactKwargs(f));
    assert a.Keys == b.Keys;
    forall k | k in a
      ensures a[k] == b[k]
    {
      MergeAt(c, f, k);
    }
  }

  /** One column of the merge is that column of the update. */
  lemma MergeAt(c: Contact, f: ContactFields, k: string)
    requires k in ContactAttrs(c)
    ensures ContactAttrs(Merge(c, f))[k] == Base.Update(ContactAttrs(c), ContactKwargs(f))[k]
  {
    var kw := ContactKwargs(f);
    if k == "conversation_id" {
      assert k !in kw;
    } else if k == "name" {
      assert k in kw <==> f.name.Some?;
    } else if k == "phone" {
      assert k in kw <==> f.phone.Some?;
    } else if k == "email" {
      assert k in kw <==> f.email.Some?;
    } else if k == "company_name" {
      assert k in kw <==> f.companyName.Some?;
    } else {
      assert k in kw <==> f.rucDni.Some?;
    }
  }
}

=== FILE: text.dfy ===
/**
 * The few pieces of Python's `str` behaviour the core relies on: truthiness,
 * `isspace`/`strip`, `lower`, digit classes and `", ".join`.
 */
module Text {
  import opened Wrappers

  /** Python truthiness of an optional string: present and non-empty. */
  predicate Truthy(s: Option<string>) {
    s.Some? && s.value != ""
  }

  /** The characters for which Python's `str.isspace()` holds; `str.strip()` removes them. */
  predicate IsSpace(c: char) {
    || c == ' '
    || ('\t' <= c <= '\r')
    || ('\U{1C}' <= c <= '\U{1F}')
    || c == '\U{85}' || c == '\U{A0}' || c == '\U{1680}'
    || ('\U{2000}' <= c <= '\U{200A}')
    || c == '\U{2028}' || c == '\U{2029}' || c == '\U{202F}' || c == '\U{205F}' || c == '\U{3000}'
  }

  predicate AllSpace(s: string) {
    forall k :: 0 <= k < |s| ==> IsSpace(s[k])
  }

  /** Number of whitespace characters at the start of `s`. */
  function LeadingSpaces(s: string): (n: nat)
    ensures n <= |s|
    ensures forall k :: 0 <= k < n ==> IsSpace(s[k])
    ensures n < |s| ==> !IsSpace(s[n])
  {
    if |s| == 0 || !IsSpace(s[0]) then 0 else 1 + LeadingSpaces(s[1..])
  }

  /** Number of whitespace characters at the end of `s`. */
  function TrailingSpaces(s: string): (n: nat)
    ensures n <= |s|
    ensures forall k :: |s| - n <= k < |s| ==> IsSpace(s[k])
    ensures n < |s| ==> !IsSpace(s[|s| - 1 - n])
  {
    if |s| == 0 || !IsSpace(s[|s| - 1]) then 0 else 1 + TrailingSpaces(s[..|s| - 1])
  }

  /** Python's `str.strip()` with no argument. */
  function Strip(s: string): (r: string)
    ensures |r| <= |s|
    ensures r == [] <==> AllSpace(s)
    ensures r != [] ==> !IsSpace(r[0]) && !IsSpace(r[|r| - 1])
    ensures LeadingSpaces(s) + |r| <= |s|
    ensures r == s[LeadingSpaces(s)..LeadingSpaces(s) + |r|]
    ensures AllSpace(s[..LeadingSpaces(s)]) && AllSpace(s[LeadingSpaces(s) + |r|..])
  {
    var i := LeadingSpaces(s);
    if i == |s| then [] else
      var j := TrailingSpaces(s);
      assert j < |s| - i by { assert !IsSpace(s[i]); }
      s[i..|s| - j]
  }

  /** Whitespace around a word is exactly what `strip` removes. */
  lemma {:induction false} StripPadded(a: string, w: string, b: string)
    requires AllSpace(a) && AllSpace(b)
    requires w != [] && !IsSpace(w[0]) && !IsSpace(w[|w| - 1])
    ensures Strip(a + w + b) == w
  {
    var s := a + w + b;
    LeadingOfPadded(a, w + b);
    assert s == a + (w + b);
    TrailingOfPadded(a + w, b);
    var r := Strip(s);
    assert LeadingSpaces(s) == |a|;
    assert !AllSpace(s) by { assert s[|a|] == w[0]; }
    assert |s| - TrailingSpaces(s) == |a| + |w|;
    assert r == s[|a|..|a| + |w|];
  }

  lemma {:induction false} LeadingOfPadded(a: string, t: string)
    requires AllSpace(a)
    requires t != [] && !IsSpace(t[0])
    ensures LeadingSpaces(a + t) == |a|
    decreases |a|
  {
    if |a| > 0 {
      assert (a + t)[1..] == a[1..] + t;
      LeadingOfPadded(a[1..], t);
    } else {
      assert a + t == t;
    }
  }

  lemma {:induction false} TrailingOfPadded(t: string, b: string)
    requires AllSpace(b)
    requires t != [] && !IsSpace(t[|t| - 1])
    ensures TrailingSpaces(t + b) == |b|
    decreases |b|
  {
    if |b| > 0 {
      assert (t + b)[..|t + b| - 1] == t + b[..|b| - 1];
      TrailingOfPadded(t, b[..|b| - 1]);
    } else {
      assert t + b == t;
    }
  }

  /** The lower-case mapping of one character as far as it can produce an ASCII letter:
      A-Z and the KELVIN SIGN (which Python lowers to 'k'). */
  function LowerChar(c: char): char {
    if 'A' <= c <= 'Z' then (c as int + 32) as char
    else if c == '\U{212A}' then 'k'
    else c
  }

  /** Python's `str.lower()` restricted to the mapping above. */
  function Lower(s: string): (r: string)
    ensures |r| == |s|
    ensures forall k :: 0 <= k < |s| ==> r[k] == LowerChar(s[k])
  {
    seq(|s|, k requires 0 <= k < |s| => LowerChar(s[k]))
  }

  /** A decimal digit as matched by the `\d` class (ASCII digits). */
  predicate IsDigit(c: char) {
    '0' <= c <= '9'
  }

  /** Python's `sep.join(items)`. */
  function Join(sep: string, items: seq<string>): (r: string)
    ensures |items| == 0 ==> r == ""
    ensures |items| == 1 ==> r == items[0]
  {
    if |items| == 0 then ""
    else if |items| == 1 then items[0]
    else items[0] + sep + Join(sep, items[1..])
  }
}

=== FILE: tools.dfy ===
/**
 * The four tool handlers of app/services/tools/ and the `ToolResult` they return.
 *
 * Each handler is bound to one conversation id and acts on the store only
 * through the repository operations; invalid input yields `success = false`
 * and leaves the store untouched.
 */
module Tools {
  import opened Wrappers
  import opened Text
  import opened Models
  import Repository
  import Base

  /** The `args` of a function call: keyword name to a string or JSON null. */
  type Args = map<string, Option<string>>

  /** The value of a keyword, `None` when absent (the handlers' parameter defaults). */
  function Arg(args: Args, key: string): Option<string> {
    if key in args then args[key] else None
  }

  /** The `data` dictionaries the handlers return. */
  datatype ToolData =
    | CompanyData(company: string)
    | ContactData(contactId: nat, name: Option<string>, phone: Option<string>, email: Option<string>,
                  companyName: Option<string>, rucDni: Option<string>)
    | InquiryData(inquiryId: nat, description: string)
    | EndData(status: Status, summary: Option<string>)

  /** `ToolResult`. */
  datatype ToolResult = ToolResult(success: bool, message: string, data: Option<ToolData>)

  /** What `to_gemini_tool` exposes of a handler (its description and parameter schema are
      fixed text and not modelled). */
  datatype ToolSchema = ToolSchema(name: string)

  // ---------------------------------------------------------------- set_company

  /** The two routing values `set_company` accepts. */
  const Companies: set<string> := {"kossodo", "kossomet"}

  /** `company.lower().strip()`. */
  function NormalizeCompany(company: string): string {
    Strip(Lower(company))
  }

  /** `str.capitalize()` of an accepted company. */
  function CompanyTitle(company: string): (title: string)
    requires company in Companies
    ensures |title| == |company| && title[1..] == company[1..]
    ensures title[0] == 'K'
  {
    if company == "kossodo" then "Kossodo" else "Kossomet"
  }

  /** `SetCompanyTool.execute`: normalize, validate, then persist on the bound conversation. */
  function SetCompany(st: Store, conversationId: int, company: string, now: int): (r: (Store, ToolResult))
    ensures r.1.success <==> NormalizeCompany(company) in Companies && 1 <= conversationId <= |st.conversations|
    ensures !r.1.success ==> r.0 == st && r.1.data.None?
    ensures r.1.success ==>
              && r.0 == Repository.SetCompany(st, conversationId, NormalizeCompany(company), now)
              && r.1.data == Some(CompanyData(NormalizeCompany(company)))
  {
    var norm := NormalizeCompany(company);
    if norm !in Companies then
      (st, ToolResult(false, "Invalid company: " + norm + ". Must be 'kossodo' or 'kossomet'.", None))
    else
      match Base.GetById(st.conversations, conversationId)
      case None => (st, ToolResult(false, "Conversation not found.", None))
      case Some(_) =>
        (Repository.SetCompany(st, conversationId, norm, now),
         ToolResult(true, "Company set to " + CompanyTitle(norm) + ".", Some(CompanyData(norm))))
  }

  /** Case and surrounding whitespace do not matter: any spelling `w` of a routing value, in
      any case and padded with any whitespace, selects that value ("  KOSSOMET " selects
      "kossomet"). */
  lemma SetCompanyNormalizes(st: Store, conversationId: int, a: string, w: string, b: string, now: int)
    requires 1 <= conversationId <= |st.conversations|
    requires AllSpace(a) && AllSpace(b) && Lower(w) in Companies
    ensures var r := SetCompany(st, conversationId, a + w + b, now);
            r.1.success && r.0.conversations[conversationId - 1].company == Some(Lower(w))
  {
    var lw := Lower(w);
    assert Lower(a + w + b) == a + lw + b by {
      forall k | 0 <= k < |a + w + b|
        ensures Lower(a + w + b)[k] == (a + lw + b)[k]
      {
        if k < |a| {
          assert IsSpace((a + w + b)[k]);
        } else if k >= |a| + |w| {
          assert (a + w + b)[k] == b[k - |a| - |w|];
        }
      }
    }
    assert lw[0] == 'k' && (lw[|lw| - 1] == 'o' || lw[|lw| - 1] == 't');
    StripPadded(a, lw, b);
  }

  /** Setting the same company twice leaves the store as after the first call. */
  lemma SetCompanyIdempotent(st: Store, conversationId: int, company: string, now: int, later: int)
    ensures var once := SetCompany(st, conversationId, company, now).0;
            SetCompany(once, conversationId, company, later).0 == once
  {
    var once := SetCompany(st, conversationId, company, now).0;
    var norm := NormalizeCompany(company);
    if norm in Companies && 1 <= conversationId <= |st.conversations| {
      assert once.conversations[conversationId - 1].company == Some(norm);
      var twice := SetCompany(once, conversationId, company, later).0;
      assert twice.conversations == once.conversations;
    }
  }

  // ---------------------------------------------------------------- save_contact

  /** The five parameters of `SaveContactTool.execute`, bound from the call's keywords. */
  function ContactFieldsOf(args: Args): Repository.ContactFields {
    Repository.ContactFields(Arg(args, "name"), Arg(args, "phone"), Arg(args, "email"),
                             Arg(args, "company_name"), Arg(args, "ruc_dni"))
  }

  /** `any([name, phone, email, company_name, ruc_dni])`. */
  predicate AnyTruthy(f: Repository.ContactFields) {
    Truthy(f.name) || Truthy(f.phone) || Truthy(f.email) || Truthy(f.companyName) || Truthy(f.rucDni)
  }

  /** The fields the success message reports, as (label, value) in the message's fixed order. */
  function ReportedFields(f: Repository.ContactFields): seq<(string, Option<string>)> {
    [("name", f.name), ("phone", f.phone), ("email", f.email), ("company", f.companyName), ("ruc_dni", f.rucDni)]
  }

  /** The `saved_fields` list: one "label: value" item per truthy field, in order. */
  function SavedFields(entries: seq<(string, Option<string>)>): (r: seq<string>)
    ensures |r| <= |entries|
    ensures forall i :: 0 <= i < |entries| && Truthy(entries[i].1) ==> entries[i].0 + ": " + entries[i].1.value in r
    ensures forall s :: s in r ==> exists i :: 0 <= i < |entries| && Truthy(entries[i].1) && s == entries[i].0 + ": " + entries[i].1.value
    ensures r == [] <==> forall i :: 0 <= i < |entries| ==> !Truthy(entries[i].1)
  {
    if |entries| == 0 then []
    else
      var rest := SavedFields(entries[1..]);
      assert forall i :: 1 <= i < |entries| ==> entries[i] == entries[1..][i - 1];
      if Truthy(entries[0].1) then [entries[0].0 + ": " + entries[0].1.value] + rest else rest
  }

  /** `SaveContactTool.execute`. */
  function SaveContact(st: Store, conversationId: nat, f: Repository.ContactFields): (r: (Store, ToolResult))
    ensures !AnyTruthy(f) ==> r.0 == st && !r.1.success && r.1.data.None?
    ensures AnyTruthy(f) ==> r.1.success && r.0 == Repository.UpsertContact(st, conversationId, f).0
    ensures r.1.success ==>
              var id := Repository.UpsertContact(st, conversationId, f).1;
              var c := r.0.contacts[id - 1];
              r.1.data == Some(ContactData(id, c.name, c.phone, c.email, c.companyName, c.rucDni))
    ensures r.1.success ==>
              r.1.message == "Contact information saved: " + Join(", ", SavedFields(ReportedFields(f))) + "."
  {
    if !AnyTruthy(f) then
      (st, ToolResult(false, "At least one contact field must be provided.", None))
    else
      var (st', id) := Repository.UpsertContact(st, conversationId, f);
      var c := st'.contacts[id - 1];
      (st', ToolResult(true, "Contact information saved: " + Join(", ", SavedFields(ReportedFields(f))) + ".",
                       Some(ContactData(id, c.name, c.phone, c.email, c.companyName, c.rucDni))))
  }

  /** An empty string beside a real value still reaches the store and overwrites. */
  lemma SaveContactPassesEmptyStrings(st: Store, conversationId: nat, name: string, k: nat)
    requires name != ""
    requires k < |st.contacts| && st.contacts[k].conversationId == conversationId
    requires forall j :: 0 <= j < k ==> st.contacts[j].conversationId != conversationId
    ensures var f := Repository.ContactFields(Some(name), None, Some(""), None, None);
            var r := SaveContact(st, conversationId, f);
            r.1.success && r.0.contacts[k].email == Some("") && r.0.contacts[k].phone == st.contacts[k].phone
  {
    var f := Repository.ContactFields(Some(name), None, Some(""), None, None);
    assert Repository.ContactIndex(st.contacts, conversationId) == Some(k);
  }

  /** The data snapshot is the whole contact after the merge, not only the supplied fields. */
  lemma SaveContactReportsFullContact(st: Store, conversationId: nat, phone: string, k: nat)
    requires phone != ""
    requires k < |st.contacts| && st.contacts[k].conversationId == conversationId
    requires forall j :: 0 <= j < k ==> st.contacts[j].conversationId != conversationId
    ensures var r := SaveContact(st, conversationId, Repository.ContactFields(None, Some(phone), None, None, None));
            r.1.data.Some? && r.1.data.value.ContactData? &&
            r.1.data.value.name == st.contacts[k].name && r.1.data.value.phone == Some(phone)
  {
    assert Repository.ContactIndex(st.contacts, conversationId) == Some(k);
  }

  // ---------------------------------------------------------------- save_inquiry

  /** `not description or not description.strip()`. */
  predicate BlankDescription(description: Option<string>) {
    description.None? || description.value == "" || Strip(description.value) == ""
  }

  /** `SaveInquiryTool.execute`: the trimmed text replaces the inquiry. */
  function SaveInquiry(st: Store, conversationId: nat, description: Option<string>): (r: (Store, ToolResult))
    ensures r.1.success <==> !BlankDescription(description)
    ensures !r.1.success ==> r.0 == st && r.1.data.None?
    ensures r.1.success ==>
              var text := Strip(description.value);
              var (st', id) := Repository.UpsertInquiry(st, conversationId, text);
              r.0 == st' && r.1.data == Some(InquiryData(id, text))
    ensures r.1.success ==> r.1.data.value.description != "" && !IsSpace(r.1.data.value.description[0])
  {
    if BlankDescription(description) then
      (st, ToolResult(false, "Inquiry description cannot be empty.", None))
    else
      var (st', id) := Repository.UpsertInquiry(st, conversationId, Strip(description.value));
      (st', ToolResult(true, "Inquiry saved successfully.", Some(InquiryData(id, st'.inquiries[id - 1].description))))
  }

  /** Two successful saves leave only the second trimmed description. */
  lemma SaveInquiryTwice(st: Store, conversationId: nat, first: string, second: string)
    requires !BlankDescription(Some(first)) && !BlankDescription(Some(second))
    ensures var once := SaveInquiry(st, conversationId, Some(first)).0;
            SaveInquiry(once, conversationId, Some(second)).0 == SaveInquiry(st, conversationId, Some(second)).0
  {
    Repository.UpsertInquiryLastWins(st, conversationId, Strip(first), Strip(second));
  }

  // ---------------------------------------------------------------- end_conversation

  /** `EndConversationTool.execute`: COMPLETED whatever the status was; the summary is only
      echoed back. */
  function EndConversation(st: Store, conversationId: int, summary: Option<string>, now: int): (r: (Store, ToolResult))
    ensures r.1.success <==> 1 <= conversationId <= |st.conversations|
    ensures !r.1.success ==> r.0 == st && r.1.data.None?
    ensures r.1.success ==>
              && r.0 == Repository.SetStatus(st, conversationId, Completed, now)
              && r.1.data == Some(EndData(Completed, summary))
  {
    match Base.GetById(st.conversations, conversationId)
    case None => (st, ToolResult(false, "Conversation not found.", None))
    case Some(_) =>
      (Repository.SetStatus(st, conversationId, Completed, now),
       ToolResult(true, "Conversation marked as completed.", Some(EndData(Completed, summary))))
  }

  /** Ending twice is the same as ending once, and only the status can have changed. */
  lemma EndConversationIdempotent(st: Store, conversationId: int, summary: Option<string>, other: Option<string>, now: int, later: int)
    ensures var once := EndConversation(st, conversationId, summary, now).0;
            EndConversation(once, conversationId, other, later).0 == once
    ensures var once := EndConversation(st, conversationId, summary, now).0;
            1 <= conversationId <= |st.conversations| ==>
              once.conversations[conversationId - 1].(status := st.conversations[conversationId - 1].status,
                                                      updatedAt := st.conversations[conversationId - 1].updatedAt)
              == st.conversations[conversationId - 1]
  {
    var once := EndConversation(st, conversationId, summary, now).0;
    if 1 <= conversationId <= |st.conversations| {
      var twice := EndConversation(once, conversationId, other, later).0;
      assert twice.conversations == once.conversations;
    }
  }
}

=== FILE: wrappers.dfy ===
/** Option and Result types used throughout the model; `Result` works with `:-`. */
module Wrappers {

  /** Python's `Optional[T]`: `None` or a present value. */
  datatype Option<+T> = None | Some(value: T)

  /** The outcome of an operation that may raise: a value or the failure it aborts with. */
  datatype Result<+T, +E> = Ok(value: T) | Err(error: E) {

    predicate IsFailure() {
      Err?
    }

    function PropagateFailure<U>(): Result<U, E>
      requires Err?
    {
      Err(error)
    }

    function Extract(): T
      requires Ok?
    {
      value
    }
  }
}
